=== FILE: README.md ===
# WAVES per-second alignment, modelled in Dafny

The WAVES clean-up turns sparse, irregularly timed behaviour events into one row per second
for each observation session. This project models its core as pure Dafny functions over
immutable sequences and proves properties of them. Each session has two event tracks:
activity and posture.

- **Time parsing and display** (`TimeFormat`). A relative time (`H:M:S[.f]`, `M:S[.f]` or bare
  seconds) becomes an exact number of seconds. A time before zero needs a leading minus. Only the
  `H:M:S` form can start with one, since the `M:S` form gets `00:` put in front, so it is the
  only form that gives a time before zero. `_format_hms` prints a number of seconds as
  `HH:MM:SS`, or `HH:MM:SS.ff` with hundredths. Its floor division mislabels times before zero
  (Finding 4), so the expanded tracks use the corrected `TimeFormat.FormatSignedHms`.
- **Labels** (`Labels`, `CheckTracks`). `_normalize_behavior` cleans a label, and
  `_classify_behavior` sorts it into activity, posture or other by prefix. The simpler
  `classify` of the `check_tracks.py` diagnostic script is modelled too.
- **Observation keys** (`ObsKeys`). `add_id_do_split` reads the numeric `id` and `do` out of an
  observation name. It stops the script when no name has the field, or when a field is a number
  with a fraction.
- **Per-track expansion** (`Expand`).
  - Untimed events are dropped.
  - Within one whole second, the last reading wins.
  - The grid starts at 0 or at the ceiling of the first reading. It ends at the floor of the
    last reading, or at the start if that is later.
  - Each column is forward-filled along the seconds.
  - Each second gets a display time.
- **Merge** (`Merge`). The two expanded tracks are outer-joined on (observation, second). The
  observation metadata is filled in, and the combined `Behavior` and `Modifier_2` columns
  follow their precedence rules. A track with no timed event expands to a table without
  columns, and the merge then stops the script.
- **Encoding and clean-up** (`Encoders`, `EncodeTable`).
  - The activity type, refined by the exercise modifier, and its three codes.
  - The work type.
  - The posture code, its two codes and the sedentary flag.
  - The intensity and `waves_intensity`.
  - Then the non-codable rows are dropped, and the activity type and posture are stabilised
    within each observation.
- **Integrity validator** (`Profile`).
  - It builds a second grid from intervals: an event covers its floored start plus its ceiled
    duration, and the latest start wins, found by bisection.
  - Its checks are: duplicate seconds, contiguity, coverage and span length.
  - It ends with a per-observation carry-forward.

The shared building blocks are:

- `Options`: `Option` and the one-cell `fillna`.
- `Text`: strip, ASCII lowercase, whitespace collapse, split and ASCII digits.
- `Order`: the (observation, second) order.
- `Fill`: grouped and ungrouped `ffill`, `bfill`, and ffill followed by bfill.

The label taxonomy tables are a parameter (`Encoders.Tables`). `Encoders.WellFormed` states
what the encoders rely on from them:
- every alias names a canonical type;
- the two types chosen by prefix are canonical;
- every posture code has its two codes.

Seconds are exact reals (`real`). The floor and ceiling are exact, and Python's float rounding
is replaced by round-half-even on exact values.

Some members model the code as written and others the evidently intended behaviour. The
points where the two part, each stated against the source:
- **Metadata fill.** Line 318 back-fills the whole column, not each observation (Finding 2).
  `Merge.ExpandAndMergeAsWritten` chains the split, the expansion and the merge with that fill.
  `Merge.ExpandAndMerge` chains them with the fill kept within each observation.
  `Merge.PipelineIdAgrees` shows the two give the same `id` wherever the observation has one.
- **Posture at shared seconds.** The comments at lines 320 and 552 say the posture comes from
  the posture label. Line 553 reads it from the combined `Behavior` instead, which is the
  activity label whenever both tracks have the second (Finding 3). `EncodeAsWritten` models
  line 553; `Encode` reads the posture label first. The label-derived intensity (line 594)
  reads the same column, so `Encode` also takes it from the posture label first
  (`EncodeTable.PostureSource` feeds both).
- **Labels before zero.** Lines 272 and 275 label a time before zero through floor division
  (Finding 4). `Expand.LabelTextAsWritten` is the code's label and `Expand.LabelText` the
  corrected one. `Expand.LabelTextAgrees` shows they coincide from zero on.
- **Drop and stabilisation order.** The code drops rows at lines 634-640 before it stabilises
  at lines 646-664. It drops them on the activity type before stabilisation, or on a
  `private/not coded` label. The model keeps this order.
- **Activity type source.** At line 434 `Behavior_activity` has already been dropped
  (lines 336-339), so the activity type comes from the fallback branch. That branch classifies
  the combined `Behavior` on the fly.

## Model

| member | source | states |
|---|---|---|
| Options.Coalesce | dataClean_fixed_cell.py:321 | `a.fillna(b)` on one cell: the first value when present, else the second; missing only when both are |
| ObsKeys.AddIdDoSplit | dataClean_fixed_cell.py:39-45 | the script stops exactly when no observation has a second field or none has a third (`KeyError`), or when some field is a number with a fraction (`TypeError` in the `Int64` cast); otherwise every observation gets its keys |
| ObsKeys.Coerce | dataClean_fixed_cell.py:41-42 | a field is missing when absent or not an optionally signed decimal numeral; a numeral of whole value is that integer, and any other numeral is the cast's failure |
| ObsKeys.SignedCoerces | dataClean_fixed_cell.py:41-42 | a field `-3` gives the key -3 and `+3` gives 3 |
| ObsKeys.FractionalFields | dataClean_fixed_cell.py:41-42 | `1.0` gives the key 1 and `1.5` makes the cast fail |
| ObsKeys.MissingObservation | dataClean_fixed_cell.py:40-42 | a missing observation gets missing keys, whatever the rest of the column holds |
| ObsKeys.KeysRoundTrip | dataClean_fixed_cell.py:40-42 | splitting a name built as `study_id_do[_rest]` gives back exactly `id` and `do` |
| ObsKeys.ColumnRoundTrip | dataClean_fixed_cell.py:39-45 | a non-empty column of names built from keys does not stop the script and gets back exactly those keys, row by row |
| ObsKeys.ShortNames | dataClean_fixed_cell.py:40-42 | a name with fewer than two underscores has no `do`, and one with none has neither key |
| ObsKeys.ShortColumnRaises | dataClean_fixed_cell.py:40-42 | when no observation has a third field, the column `parts[2]` is absent and the script stops |
| ObsKeys.NonNumericField | dataClean_fixed_cell.py:41 | a second field that is not a numeral gives a missing `id` but keeps `do` |
| TimeFormat.ParseThreeCounts | dataClean_fixed_cell.py:150-155 | a cell with two colons parses as hours*3600 + minutes*60 + seconds |
| TimeFormat.ParseThreeFields | dataClean_fixed_cell.py:150-155 | the H:M:S form also accepts a decimal seconds field and adds its exact value |
| TimeFormat.ParseMinutesSeconds | dataClean_fixed_cell.py:151-156 | a cell with one colon is read with hour 0 prefixed: minutes*60 + seconds |
| TimeFormat.ParseBareSeconds | dataClean_fixed_cell.py:152-158 | a colon-free cell matching `\d+(\.\d+)?` is its decimal value in seconds |
| TimeFormat.NullTokenNeverParses | dataClean_fixed_cell.py:153-159 | an empty, `nan` or `none` cell fails all three parse masks, so the blank mask by itself never changes a result |
| TimeFormat.AsWrittenAgreesOffNullTokens | dataClean_fixed_cell.py:153 | the parser as written agrees with the corrected one whenever the stray global is not a null token |
| TimeFormat.AsWrittenDropsValidTime | dataClean_fixed_cell.py:153 | as written, `00:05` becomes null when the global holds `nan`; corrected, it is 5 seconds |
| TimeFormat.SignedHmsValue | dataClean_fixed_cell.py:155 | a leading `-` negates the `H:M:S` value and `+` keeps it; only a leading `-` gives a time before zero, and an unsigned cell reads as before |
| TimeFormat.ParseSeconds | dataClean_fixed_cell.py:145-161 | a cell parses to a time before zero only when, cleaned, it has two colons and starts with `-` |
| TimeFormat.RoundHalfEven | dataClean_fixed_cell.py:167 | the rounded value is within one half of the input, leaves whole numbers alone, and takes a half to the even neighbour |
| TimeFormat.RoundHalfEvenNegate | dataClean_fixed_cell.py:167 | rounding a negated value is negating the rounded value |
| TimeFormat.FormatHmsRoundTrip | dataClean_fixed_cell.py:163-175 | `HH:MM:SS` of a whole number of seconds parses back to that number |
| TimeFormat.FormatHmsHundredthsRoundTrip | dataClean_fixed_cell.py:163-175 | the two-decimal label parses back to the input rounded to the hundredth |
| TimeFormat.FormatSignedHms | dataClean_fixed_cell.py:163-175 | corrected, the label of a time at or after zero is `_format_hms`'s own |
| TimeFormat.SignedWholeRoundTrip | dataClean_fixed_cell.py:163-175 | corrected, the label of any whole second, before zero too, parses back to that second |
| TimeFormat.SignedHundredthsRoundTrip | dataClean_fixed_cell.py:163-175 | corrected, the two-decimal label of any time, before zero too, parses back to it rounded to the hundredth |
| TimeFormat.NegativeLabelMisreads | dataClean_fixed_cell.py:167-174 | as written, five seconds before zero is labelled `-1:59:55`, which parses as 7195 seconds before zero; corrected, it parses back to five seconds before zero |
| Labels.Normalize | dataClean_fixed_cell.py:180-186 | a missing label stays missing; a present one becomes its normal form |
| Labels.NormTextIsNormal | dataClean_fixed_cell.py:183-186 | the normal form has no edge whitespace, no capital, no en or em dash and no whitespace run other than one space |
| Labels.NormTextIdempotent | dataClean_fixed_cell.py:180-186 | normalising twice is normalising once |
| Labels.ClassifyBehavior | dataClean_fixed_cell.py:196-212 | activity iff the normal form starts with a domain prefix; posture iff it starts with no domain prefix but a posture prefix; other otherwise, including a missing label |
| Labels.PrefixesDisjoint | dataClean_fixed_cell.py:189-194 | no label starts with both a domain and a posture prefix, so set iteration order cannot matter |
| Labels.ClassifyNormalized | dataClean_fixed_cell.py:196-198 | a label and its normal form always fall into the same track |
| CheckTracks.Classify | check_tracks.py:9-17 | activity iff the stripped, lowercased label starts with a domain prefix; posture iff no domain prefix but a posture prefix; a missing label is other |
| CheckTracks.AgreesWithoutDashes | check_tracks.py:6-17 | on labels with no en or em dash the diagnostic script's classification equals the pipeline's |
| CheckTracks.EnDashDisagrees | check_tracks.py:12 | on `sl– nap` the pipeline says activity and the diagnostic script says other |
| Expand.MinIndex | dataClean_fixed_cell.py:246 | the position of an earliest timed reading, or none exactly when no reading is timed |
| Expand.MaxIndex | dataClean_fixed_cell.py:247 | the position of a latest timed reading, or none exactly when no reading is timed |
| Expand.WinnerIndex | dataClean_fixed_cell.py:241-244 | the event kept for a second lies in that second and beats every other event of it: a later reading, or the same reading further down |
| Expand.WinnerUnique | dataClean_fixed_cell.py:241-244 | an event of the second that beats all others is the one kept |
| Expand.GroupSpan | dataClean_fixed_cell.py:246-258 | an observation has a span exactly when it has a timed event, with the index start at or below the grid start at or below the end |
| Expand.SpanMeaning | dataClean_fixed_cell.py:246-263 | the grid starts at 0 when the first reading is close to zero, else at its ceiling; it ends at the last reading's second or at the start |
| Expand.ExpandGroup | dataClean_fixed_cell.py:235-236 | an observation yields rows exactly when it has a timed event |
| Expand.ExpandGroupSeconds | dataClean_fixed_cell.py:256-269 | the rows are the seconds start..end, one each, in order: end - start + 1 of them |
| Expand.GroupCell | dataClean_fixed_cell.py:262-277 | each row carries its second, its display time and each column filled at that second |
| Expand.FilledFromPast | dataClean_fixed_cell.py:262-267 | a filled value is the kept event's value at the latest earlier second that had one |
| Expand.FilledMissing | dataClean_fixed_cell.py:265 | a filled cell is missing exactly when no second from the index start up to it had a value |
| Expand.FilledOwnSecond | dataClean_fixed_cell.py:265 | a second's own value is never overwritten by the fill |
| Expand.LabelReadsBack | dataClean_fixed_cell.py:272 | corrected, every unflagged display time, before zero too, parses back to its second |
| Expand.FlaggedLabelReadsBack | dataClean_fixed_cell.py:273-275 | corrected, the flagged first label parses back to the first reading plus 0.01, rounded to the hundredth |
| Expand.LabelTextAgrees | dataClean_fixed_cell.py:272-275 | from zero on, the code's label and the corrected one are the same text |
| Expand.LabelReadsBackAsWritten | dataClean_fixed_cell.py:272 | as written, every unflagged display time of a grid starting at or after zero parses back to its second |
| Expand.LabelMisreadAsWritten | dataClean_fixed_cell.py:272 | as written, second -5 is labelled so that it reads back as -7195; corrected, it reads back as -5 |
| Expand.ObsOrder | dataClean_fixed_cell.py:232 | every observation of the events appears, each exactly once, and nothing else |
| Expand.ExpandTrackEmpty | dataClean_fixed_cell.py:232-282 | a track expands to no rows at all exactly when none of its events has a parsed time |
| Expand.ExpandTrackKeysDistinct | dataClean_fixed_cell.py:228-285 | within each observation the expanded seconds strictly increase, so no (observation, second) repeats |
| Merge.TrackEvents | dataClean_fixed_cell.py:219-223 | a track keeps exactly the events classified into it |
| Merge.TrackEventsAppend | dataClean_fixed_cell.py:222-223 | splitting a concatenation of events is concatenating the splits, so a track keeps its events in table order |
| Merge.ExpandedTrackEmpty | dataClean_fixed_cell.py:222-289 | a track's expansion is empty exactly when none of the track's events has a parsed time |
| Merge.ExpandAndMerge | dataClean_fixed_cell.py:281-304 | the script stops before the merge exactly when the activity or the posture track has no event with a parsed time |
| Merge.ExpandAndMergeAsWritten | dataClean_fixed_cell.py:281-318 | with the code's metadata fill, the chain stops on exactly the same event tables |
| Merge.PipelineIdAgrees | dataClean_fixed_cell.py:316-318 | through the whole chain, the code's fill gives the grouped `id` on every row whose observation has an `id` somewhere |
| Merge.OuterMergeKeys | dataClean_fixed_cell.py:306-315 | the merged table is strictly ordered by (observation, second) and holds only keys of the two tracks |
| Merge.MergedIndex | dataClean_fixed_cell.py:307-312 | every key of either track has its merged row |
| Merge.ActivityRowLands | dataClean_fixed_cell.py:295-312 | an activity second lands on its key with its time label, metadata and activity columns |
| Merge.PostureRowLands | dataClean_fixed_cell.py:297-312 | a posture second lands on its key with its `Behavior` and `Modifier_2` |
| Merge.PostureOnlyKey | dataClean_fixed_cell.py:307-312 | a key the activity track lacks has no activity column and no metadata before the fill |
| Merge.FillMetaIsStabilize | dataClean_fixed_cell.py:316-318 | the grouped forward-then-back fill of the metadata equals the stabilisation pass `ffill().fillna(bfill())` used at lines 650-652, so every cell of an observation with a value is filled from that observation |
| Merge.AsWrittenAgreesOnValuedGroups | dataClean_fixed_cell.py:315-318 | when each observation's rows are contiguous, the fill as written agrees with the grouped one for every observation that has a value |
| Merge.AsWrittenLeaks | dataClean_fixed_cell.py:318 | as written, an observation with no `id` takes the next observation's; grouped, it stays missing |
| Merge.FilledIdFromObservation | dataClean_fixed_cell.py:316-318 | after the grouped fill an `id` is missing exactly when its observation has none, else it is one of its observation's ids |
| Merge.FilledIdAsWrittenAgrees | dataClean_fixed_cell.py:315-318 | on the sorted merge, the fill as written gives the grouped `id` wherever the observation has one |
| EncodeTable.MergedPrecedence | dataClean_fixed_cell.py:320-328 | at a second of both tracks, `Behavior` prefers the activity label, `Modifier_2` the posture value, and `Modifier_1` is the activity track's |
| EncodeTable.PostureOnlyFields | dataClean_fixed_cell.py:320-328 | at a posture-only second, `Behavior` and `Modifier_2` come from the posture track and `Modifier_1` is missing |
| Encoders.ActivityType | dataClean_fixed_cell.py:423-431 | a missing label has no type; with well-formed tables every type found is a key of the meta table |
| Encoders.ActivityTypeNormalized | dataClean_fixed_cell.py:423-424 | the lookup only sees the normal form of the label |
| Encoders.ActivityMetaLookup | dataClean_fixed_cell.py:473-476 | every `EX-` type gets the exercise codes; any other gets its table entry; codes are missing exactly when the type is missing or unknown |
| Encoders.ActivityTypeHasMeta | dataClean_fixed_cell.py:473-476 | with well-formed tables every type the label lookup finds has its three codes |
| Encoders.RefineExercise | dataClean_fixed_cell.py:443-453 | only the sport type with a `Modifier_1` changes, to `EX-` followed by the modifier's slug |
| Encoders.ModifierSlugShape | dataClean_fixed_cell.py:448-452 | the slug has no whitespace, no slash and no capital |
| Encoders.RefinedExerciseCodes | dataClean_fixed_cell.py:474-475 | a refined or unrefined sport type always gets the exercise codes |
| Encoders.WorkTypeShape | dataClean_fixed_cell.py:458-465 | a work type is `work_` followed by a slug with no whitespace, slash or capital |
| Encoders.WorkOnly | dataClean_fixed_cell.py:627-631 | a work type survives exactly on rows whose activity type is one of the two work types |
| Encoders.PostureWbm | dataClean_fixed_cell.py:498-532 | a missing label has no posture; a present one is read through its normal form |
| Encoders.PostureMetaLookup | dataClean_fixed_cell.py:555-556 | with well-formed tables posture codes are missing exactly when the posture is; otherwise they are the table entry |
| Encoders.WavesSedentary | dataClean_fixed_cell.py:564-579 | missing iff the posture is; `sed_drive` iff sitting while driving or riding; `sedentary` iff lying, kneeling, or sitting while not driving or riding; `active` iff a posture other than sitting, lying or kneeling |
| Encoders.IntensityOf | dataClean_fixed_cell.py:584-592 | the label-derived intensity is only ever sedentary or light |
| Encoders.IntensityMatchesPosture | dataClean_fixed_cell.py:584-592 | a label gives sedentary intensity iff it gives a sitting, lying or kneeling posture, and light iff a standing, stand-and-move or stretching posture |
| Encoders.Intensity | dataClean_fixed_cell.py:594-614 | the label's intensity when it has one, otherwise the normalised `Modifier_2` |
| Encoders.WavesIntensity | dataClean_fixed_cell.py:621 | missing iff the intensity is; `mvpa` iff moderate or vigorous |
| EncodeTable.PostureSource | dataClean_fixed_cell.py:552-553 | as written the posture label is the combined `Behavior`: the activity label, or the posture label when there is no activity label; corrected it is the posture label first; either way a row with only one label reads that label |
| EncodeTable.RowActivityTypeHasCodes | dataClean_fixed_cell.py:437-453 | every activity type a row gets, refined or not, has its three codes |
| EncodeTable.DropSpec | dataClean_fixed_cell.py:634-640 | the drop keeps exactly the rows that are not non-codable |
| EncodeTable.DropAppend | dataClean_fixed_cell.py:640 | the drop works row by row: dropping from a concatenation is concatenating the drops, so kept rows stay in order |
| EncodeTable.DropSorted | dataClean_fixed_cell.py:640 | dropping rows keeps the table ordered by (observation, second) |
| EncodeTable.EncodedSorted | dataClean_fixed_cell.py:315-669 | the encoded table keeps the merged order by (observation, second) |
| EncodeTable.StabilisedWithinObservation | dataClean_fixed_cell.py:646-664 | after the drop and the ffill+bfill, a present activity type or posture is kept, and one is missing only when its whole observation had none |
| Fill.GroupStabilizeSpec | dataClean_fixed_cell.py:650-652 | the per-observation ffill with a bfill fallback keeps every present cell, and leaves a cell missing iff its whole observation is missing |
| Fill.GroupFFillLatest | dataClean_fixed_cell.py:492 | a forward-filled cell holds the latest present value of its observation at or before it |
| Fill.GroupStabilizeIdempotent | dataClean_fixed_cell.py:650-664 | applying the ffill+bfill pass again changes nothing |
| Fill.GroupFFillIdempotent | dataClean_fixed_cell.py:492 | a second per-observation forward fill changes nothing |
| EncodeTable.NoNonCodableLeft | dataClean_fixed_cell.py:634-652 | no encoded row has the non-codable activity type, even after stabilisation |
| EncodeTable.CodesPresent | dataClean_fixed_cell.py:654-668 | with well-formed tables an encoded row has activity codes exactly when it has an activity type, and posture codes exactly when it has a posture |
| EncodeTable.WorkTypeOnlyForWork | dataClean_fixed_cell.py:623-631 | a work type survives only beside one of the two work types, and starts with `work_` |
| EncodeTable.PostureFromPostureTrack | dataClean_fixed_cell.py:552-553 | corrected, a second whose posture label has a code gets exactly that code |
| EncodeTable.PostureFromActivityLabel | dataClean_fixed_cell.py:553-561 | as written, at an activity second the posture is read from the activity label, and is missing exactly when no earlier second of the observation gave one |
| EncodeTable.SingleSecondPosture | dataClean_fixed_cell.py:552-664 | a one-second observation that is kept has exactly the posture its source label gives |
| EncodeTable.PostureLostAsWritten | dataClean_fixed_cell.py:553 | as written, an activity label without posture hides the posture label at the same second; corrected, the posture is kept |
| Profile.Interval | am_behposture_profile.py:166-169 | the start is the floor of the absolute time; the end adds the ceiling of the duration, zero when it is missing |
| Profile.EventsFromRows | am_behposture_profile.py:163-169 | every event is the interval of its own row, a row with both an observation and a time |
| Profile.EventsComplete | am_behposture_profile.py:164 | every row with an observation and a time yields its event |
| Profile.EventsOrdered | am_behposture_profile.py:163-169 | the events keep the rows' order |
| Profile.SortEvsSpec | am_behposture_profile.py:171-172 | the stable sort orders the events strictly by (start, time, row) and keeps exactly the same events |
| Profile.OfObsSpec | am_behposture_profile.py:178 | an observation's group holds exactly its events, in row order |
| Profile.GroupEventsSorted | am_behposture_profile.py:172-178 | each observation's grid is laid over exactly its events, in the order the bisection needs |
| Profile.LastStarted | am_behposture_profile.py:186 | `searchsorted(side="right") - 1`: the last event started by the second, or -1 when none has |
| Profile.SearchSortedRight | am_behposture_profile.py:186 | the bisection returns the boundary: every start before it is at most the value, every start from it on is above |
| Profile.BisectionSelects | am_behposture_profile.py:186 | the bisection's boundary minus one is the latest-started event |
| Profile.BuildGroup | am_behposture_profile.py:179-198 | one bisection per second builds exactly the observation's grid |
| Profile.CarriedFromCovering | am_behposture_profile.py:191-198 | a second carries values only from an event that starts at or before it and ends at or after it |
| Profile.GroupGridRun | am_behposture_profile.py:179-189 | the grid is every second from the earliest start to the latest end, with `_sec` counting from zero |
| Profile.SecBySecOrStop | am_behposture_profile.py:162-202 | the script stops at the concatenation (`ValueError`) exactly when no row has both an observation and an absolute time; otherwise it has the concatenated grid |
| Profile.EventsEmpty | am_behposture_profile.py:163-164 | there are no events exactly when no row has both an observation and an absolute time |
| Profile.SecBySecSorted | am_behposture_profile.py:202 | the concatenated grid is strictly ordered by (observation, second) |
| Profile.NoDuplicatesIff | am_behposture_profile.py:208 | the duplicate count is zero iff no two rows share an (observation, second) |
| Profile.GridHasNoDuplicates | am_behposture_profile.py:207-209 | the grid has no duplicate second |
| Profile.ContigIsRun | am_behposture_profile.py:212-217 | `_is_contig` holds iff the sorted seconds form one run |
| Profile.SortAscendingFixed | am_behposture_profile.py:213 | sorting already ascending seconds changes nothing |
| Profile.RunChecks | am_behposture_profile.py:241-251 | a run of seconds is contiguous and its length equals its span |
| Profile.GridContiguous | am_behposture_profile.py:211-251 | every observation's seconds in the grid are contiguous and exactly as many as its span |
| Profile.CoverageSpec | am_behposture_profile.py:225-229 | coverage lies in [0, 1], is 1 iff every second has a `Behavior`, and 0 iff none has |
| Profile.CarryForwardNull | am_behposture_profile.py:253-263 | after the carry-forward a cell is null iff every cell of its observation up to it was; otherwise it holds the latest present value of its observation at or before it |

## Left out

- Reading the input files, the session-table join (`add_col_from_other_df_merge`), the log start-time reconstruction and every printout and summary statistic: they are I/O or library date formatting.
- The contents of the taxonomy tables: they are a parameter, with `Encoders.WellFormed` stating what the encoders need of them.
- The merged `start_time_new` column: it is carried and filled like `id`, with no separate property of its own.
- The encoded columns the code computes before the drop and recomputes after it (`activity_type`, `broad_domain`, `waves_domain`, `posture_broad`, `posture_waves`, `waves_sedentary`): only the final values are modelled.
- The per-observation forward fill of `posture_broad` and `posture_waves` before the drop: these columns are recomputed from the stabilised posture.
- The `id`/`do` grouping fallback when there is no `Observation` column: the merged table always has one.
- Floating-point behaviour: seconds are exact reals; `round` is round-half-even on exact values; `np.isclose` uses its default tolerances.
- Profile: absolute date-times are seconds on one real time line; `pd.to_datetime` and `pd.to_numeric` coercion appear as missing values (`Option`).
- Profile: the integrity checks are stated on `Profile.SecBySec`, the concatenated grid. `Profile.SecBySecOrStop` records that with no timed row the script stops before reaching them; on that input they hold of the empty grid without saying anything.
- Expand.LabelReadsBack: states the read-back of the corrected labels. As written, line 272 mislabels seconds before zero (Finding 4); `Expand.LabelReadsBackAsWritten` states the code's read-back for grids from zero on.
- Expand.FlaggedLabelReadsBack: states the read-back of the corrected label. As written, line 275 mislabels a flagged first reading before zero in the same way (Finding 4).
- Profile: the carry-forward is stated on the grid as built, which `Profile.SecBySecSorted` shows is already in the order the script re-sorts it into.
- Profile.Coverage: stated for one observation's `Behavior` column; the per-observation grouping and the min/median/max summary are left out.
- Expand.WinnerIndex: the pandas mergesort on (`_event_second`, `_seconds`) followed by `keep='last'` is stated as "latest reading, then latest row" rather than modelled as a sort.
- Encoders.NormIntensity: its contract states only that a missing modifier gives no intensity; the prefix chain is in the body.
- Encoders.PostureOf: its contract states only that an empty label has no posture; the code table lives in the body, and `Encoders.IntensityMatchesPosture` ties it to the intensity rule. Only the label forms spelled out in the code map to a posture (`sb-sitting` without a space, `sb-lying` with or without one); this is modelled as written.
- Labels.Normalize: lowercases ASCII capitals only. Python's `str.lower` also lowercases other letters, such as `É`, or the Kelvin sign, which becomes `k`. A label whose capitals fall outside ASCII is not normalised as the code would.
- Text.Lower: ASCII only, and `Text.IsDigit` accepts only `0`-`9`. Python's `str.lower` and the regular expression `\d` are Unicode-aware. This reaches `Labels.ClassifyBehavior`, `CheckTracks.Classify`, `Encoders.ModifierSlug`, `Encoders.WorkType` and the `IsDecimal`/`IsCount` digit checks.
- TimeFormat.HmsValue: reads only an optionally signed `H:M:S[.f]` of digit fields. `pd.to_timedelta` also accepts blanks inside the text, an `N days` prefix, ISO 8601 durations and unit words. It also skips a `+` wherever it stands, so `+05:30` (read as `00:+05:30`) and `0:+5:30` are 330 seconds there. The model reads all of these cells as unparsable.
- ObsKeys.AddIdDoSplit: a field is read as a key only when it is an optionally signed `\d+(\.\d+)?`. `pd.to_numeric` also accepts exponents (`1e2`), surrounding blanks, `inf` and forms such as `.5` or `1.`; the model reads those fields as missing keys.
- Expand.Event: an event's observation is never missing. `groupby('Observation')` (line 232) silently drops events whose observation is NaN. So a track whose every event lacks an observation expands to the empty table and stops the script at lines 299/303. The model has no such events.

## Findings

| source | as written | input that shows it | evidently intended | confidence | as-written member | corrected member |
|---|---|---|---|---|---|---|
| dataClean_fixed_cell.py:153 | the blank mask lowercases `r`, a global from an earlier step, instead of the cleaned series `s` | the cell `00:05` while `r` holds `nan` parses to null instead of 5 seconds | `s.str.lower().isin(['nan', 'none'])` | not executed | TimeFormat.AsWrittenDropsValidTime | TimeFormat.ParseMinutesSeconds |
| dataClean_fixed_cell.py:318 | `groupby('Observation')[col].ffill().bfill()`: the back fill runs over the whole column | observation `a` with no `id` followed by `b` with `id` 1: `a` gets `id` 1 | a back fill within each observation | not executed | Merge.AsWrittenLeaks | Merge.FilledIdFromObservation |
| dataClean_fixed_cell.py:553 | the posture is read from the combined `Behavior`, which is the activity label whenever both tracks have the second | activity `les- screen based leisure time (tv, video game, computer)` and posture `sb-sitting` at the same second: `posture_wbm` is null | the posture read from the posture label first, as the comments at lines 320 and 552 say | not executed | EncodeTable.PostureLostAsWritten | EncodeTable.PostureFromPostureTrack |
| dataClean_fixed_cell.py:167-174 | the hours, minutes and seconds of a time before zero come from floor division of the negative total | -5.0 seconds (the cell `-00:00:05`) is labelled `-1:59:55`, which reads back as 7195 seconds before zero | a minus sign in front of the label of the magnitude, `-00:00:05` | not executed | TimeFormat.NegativeLabelMisreads | TimeFormat.SignedWholeRoundTrip |

=== FILE: check_tracks.dfy ===
/**
 * The stand-alone track classifier of the diagnostic script: it strips and lower-cases the
 * label but, unlike the pipeline's normaliser, neither maps dashes nor collapses whitespace.
 */
module CheckTracks {
  import opened Options
  import opened Text
  import opened Labels

  function Classify(v: Option<string>): (r: Track)
    ensures r == Activity <==> v.Some? && AnyPrefix(DomainPrefixes, Lower(Strip(v.value)))
    ensures r == Posture <==>
              v.Some? && !AnyPrefix(DomainPrefixes, Lower(Strip(v.value)))
              && AnyPrefix(PosturePrefixes, Lower(Strip(v.value)))
  {
    match v
    case None => Other
    case Some(b) =>
      var n := Lower(Strip(b));
      if AnyPrefix(DomainPrefixes, n) then Activity
      else if AnyPrefix(PosturePrefixes, n) then Posture
      else Other
  }

  /** No prefix contains whitespace. */
  lemma {:induction false} PrefixesNoSpace(ps: seq<string>, i: nat)
    requires ps == DomainPrefixes || ps == PosturePrefixes
    requires i < |ps|
    ensures NoSpace(ps[i])
  {
    if ps == DomainPrefixes {
      assert i in {0, 1, 2, 3, 4, 5, 6, 7, 8, 9, 10, 11, 12};
    } else {
      assert i in {0, 1, 2, 3};
    }
  }

  /** Collapsing whitespace does not change which prefix a dash-free label starts with. */
  lemma {:induction false} SamePrefixes(ps: seq<string>, n: string)
    requires ps == DomainPrefixes || ps == PosturePrefixes
    ensures AnyPrefix(ps, CollapseTo(n, ' ')) <==> AnyPrefix(ps, n)
  {
    forall i | 0 <= i < |ps| ensures StartsWith(ps[i], CollapseTo(n, ' ')) <==> StartsWith(ps[i], n) {
      PrefixesNoSpace(ps, i);
      CollapsePrefix(ps[i], n, ' ');
    }
  }

  /** On labels without en or em dashes the diagnostic classifier agrees with the pipeline's. */
  lemma {:induction false} AgreesWithoutDashes(v: Option<string>)
    requires v.Some? ==> EnDash !in v.value && EmDash !in v.value
    ensures Classify(v) == ClassifyBehavior(v)
  {
    if v.Some? {
      var n := Lower(Strip(v.value));
      StripNoNew(v.value, EnDash);
      StripNoNew(v.value, EmDash);
      LowerNoNew(Strip(v.value), EnDash);
      LowerNoNew(Strip(v.value), EmDash);
      ReplaceCharFixed(n, EnDash, '-');
      ReplaceCharFixed(n, EmDash, '-');
      assert NormText(v.value) == CollapseTo(n, ' ');
      SamePrefixes(DomainPrefixes, n);
      SamePrefixes(PosturePrefixes, n);
    }
  }

  /** With an en dash the two classifiers part ways: the pipeline files "sl– nap" under the
      activity track, the diagnostic script under neither. */
  lemma {:induction false} EnDashDisagrees()
    ensures ClassifyBehavior(Some("sl– nap")) == Activity
    ensures Classify(Some("sl– nap")) == Other
  {
    EnDashDisagreesAt("sl– nap");
  }

  /** The character-level statement behind `EnDashDisagrees`. */
  lemma {:induction false} EnDashDisagreesAt(raw: string)
    requires |raw| == 7 && raw[0] == 's' && raw[1] == 'l' && raw[2] == EnDash && raw[3] == ' '
    requires raw[4] == 'n' && raw[5] == 'a' && raw[6] == 'p'
    ensures ClassifyBehavior(Some(raw)) == Activity
    ensures Classify(Some(raw)) == Other
  {
    var fixed := ReplaceChar(raw, EnDash, '-');
    DashMapped(raw, fixed);
    assert StartsWith(DomainPrefixes[0], NormText(raw)) by { assert fixed[..3] == "sl-"; }
    StripFixed(raw);
    LowerFixed(raw);
    NoPrefixAfterSl(raw);
  }

  /** The example label normalises to itself with its en dash turned into a hyphen. */
  lemma {:induction false} DashMapped(raw: string, fixed: string)
    requires |raw| == 7 && raw[0] == 's' && raw[1] == 'l' && raw[2] == EnDash && raw[3] == ' '
    requires raw[4] == 'n' && raw[5] == 'a' && raw[6] == 'p'
    requires fixed == ReplaceChar(raw, EnDash, '-')
    ensures NormText(raw) == fixed
    ensures |fixed| == 7 && fixed[0] == 's' && fixed[1] == 'l' && fixed[2] == '-'
  {
    StripFixed(raw);
    LowerFixed(raw);
    ReplaceCharPointwise(raw, EnDash, '-');
    HyphenatedFixed(fixed);
    NormTextSteps(raw, fixed);
  }

  /** "sl- nap" is left alone by the dash mapping and by collapsing. */
  lemma {:induction false} HyphenatedFixed(t: string)
    requires |t| == 7 && t[0] == 's' && t[1] == 'l' && t[2] == '-' && t[3] == ' '
    requires t[4] == 'n' && t[5] == 'a' && t[6] == 'p'
    ensures ReplaceChar(t, EmDash, '-') == t && CollapseTo(t, ' ') == t
  {
    assert EmDash !in t by { assert forall k :: 0 <= k < 7 ==> t[k] != EmDash; }
    ReplaceCharFixed(t, EmDash, '-');
    OneSpace(t, 3);
    CollapseFixed(t);
  }

  /** A text whose only whitespace is one plain space is collapsed. */
  lemma {:induction false} OneSpace(t: string, j: nat)
    requires j < |t| && t[j] == ' '
    requires forall k :: 0 <= k < |t| && k != j ==> 'a' <= t[k] <= 'z' || t[k] == '-'
    ensures Collapsed(t)
  {
  }

  lemma {:induction false} NormTextSteps(raw: string, fixed: string)
    requires Strip(raw) == raw && Lower(raw) == raw
    requires ReplaceChar(raw, EnDash, '-') == fixed && ReplaceChar(fixed, EmDash, '-') == fixed
    requires CollapseTo(fixed, ' ') == fixed
    ensures NormText(raw) == fixed
  {
  }

  lemma {:induction false} StartsWithAt(p: string, s: string)
    ensures StartsWith(p, s) ==> forall k :: 0 <= k < |p| ==> s[k] == p[k]
  {
    if StartsWith(p, s) {
      assert forall k :: 0 <= k < |p| ==> s[..|p|][k] == s[k];
    }
  }

  /** Every prefix beginning "sl" continues with a hyphen, and none is shorter than three. */
  lemma {:induction false} SlPrefixes(ps: seq<string>, i: nat)
    requires ps == DomainPrefixes || ps == PosturePrefixes
    requires i < |ps|
    ensures |ps[i]| >= 3
    ensures ps[i][0] == 's' && ps[i][1] == 'l' ==> ps[i][2] == '-'
  {
    if ps == DomainPrefixes {
      assert i in {0, 1, 2, 3, 4, 5, 6, 7, 8, 9, 10, 11, 12};
    } else {
      assert i in {0, 1, 2, 3};
    }
  }

  /** A label beginning "sl" and an en dash starts with none of the prefixes. */
  lemma {:induction false} NoPrefixAfterSl(raw: string)
    requires |raw| >= 3 && raw[0] == 's' && raw[1] == 'l' && raw[2] == EnDash
    ensures !AnyPrefix(DomainPrefixes, raw) && !AnyPrefix(PosturePrefixes, raw)
  {
    forall i | 0 <= i < |DomainPrefixes| ensures !StartsWith(DomainPrefixes[i], raw) {
      SlPrefixes(DomainPrefixes, i);
      StartsWithAt(DomainPrefixes[i], raw);
    }
    forall i | 0 <= i < |PosturePrefixes| ensures !StartsWith(PosturePrefixes[i], raw) {
      SlPrefixes(PosturePrefixes, i);
      StartsWithAt(PosturePrefixes[i], raw);
    }
  }
}

=== FILE: encode_table.dfy ===
/**
 * The encoding passes over the merged table, in the order the clean-up runs them: the activity
 * type (classified on the fly from the merged `Behavior`, refined by the exercise modifier,
 * forward-filled per observation), the posture code, the intensity, the work type, then the
 * drop of non-codable rows, then the stabilisation of the activity type and the posture code
 * and the recomputation of their codes and of the sedentary flag.
 *
 * `EncodeAsWritten` reads the posture label from the merged `Behavior`, which prefers the
 * activity label; `Encode` reads it posture-first, as the comments beside the merge intend.
 */
module EncodeTable {
  import opened Options
  import opened Order
  import opened Fill
  import opened Labels
  import opened Expand
  import opened Merge
  import opened Encoders

  /** A row between the encoders and the drop. */
  datatype Staged = Staged(
    row: MergedRow,
    behavior: Option<string>,
    activityType: Option<string>,
    posture: Option<Posture>,
    intensity: Option<Level>,
    workType: Option<string>)

  /** A row of the encoded table: the merged row with its metadata, `Activity_Type` and its
      three codes, `posture_wbm` and its two codes, `waves_sedentary`, `intensity`,
      `waves_intensity` and `work_type`. */
  datatype Encoded = Encoded(
    row: MergedRow,
    activityType: Option<string>,
    meta: Option<ActivityMeta>,
    posture: Option<Posture>,
    postureMeta: Option<PostureMeta>,
    wavesSed: Option<string>,
    intensity: Option<Level>,
    wavesIntensity: Option<string>,
    workType: Option<string>)

  // ---- the merged columns ---------------------------------------------------------

  /** `Behavior`: the activity label, or failing that the posture label. */
  function Behavior(r: MergedRow): Option<string> {
    TextOf(Coalesce(r.behaviorAct, r.behaviorPos))
  }

  /** `Modifier_2`: the posture track's, or failing that the activity track's. */
  function Modifier2(r: MergedRow): Option<string> {
    TextOf(Coalesce(r.modifier2Pos, r.modifier2Act))
  }

  /** The label the posture encoders read: the merged `Behavior` as written, the posture label
      first when corrected. */
  function PostureSource(r: MergedRow, asWritten: bool): (v: Option<string>)
    ensures r.behaviorAct.Some? ==> v == TextOf(if asWritten then r.behaviorAct else Coalesce(r.behaviorPos, r.behaviorAct))
    ensures r.behaviorPos.Some? && !asWritten ==> v == TextOf(r.behaviorPos)
    ensures r.behaviorAct.None? ==> v == TextOf(r.behaviorPos)
    ensures r.behaviorPos.None? ==> v == TextOf(r.behaviorAct)
  {
    if asWritten then Behavior(r) else TextOf(Coalesce(r.behaviorPos, r.behaviorAct))
  }

  // ---- the encoders, column by column -----------------------------------------------

  /** A second present in both tracks: `Behavior` is the activity label when there is one and
      the posture label otherwise, `Modifier_2` the posture track's when there is one and the
      activity track's otherwise, and `Modifier_1` the activity track's. */
  lemma {:induction false} MergedPrecedence(act: seq<GridRow>, pos: seq<GridRow>, j: nat, l: nat) returns (i: nat)
    requires KeysDistinct(act) && KeysDistinct(pos) && j < |act| && l < |pos|
    requires KeyOf(act[j]) == KeyOf(pos[l])
    ensures i < |OuterMerge(act, pos)|
    ensures var m := OuterMerge(act, pos)[i];
            && m.key == KeyOf(act[j])
            && Behavior(m) == TextOf(Coalesce(Get(act[j].row, BehaviorCol), Get(pos[l].row, BehaviorCol)))
            && Modifier2(m) == TextOf(Coalesce(Get(pos[l].row, Modifier2Col), Get(act[j].row, Modifier2Col)))
            && m.modifier1 == Get(act[j].row, Modifier1Col)
  {
    i := ActivityRowLands(act, pos, j);
    var i2 := PostureRowLands(act, pos, l);
    OuterMergeKeys(act, pos);
    var r := OuterMerge(act, pos);
    KeyLessIrreflexive(r[i].key);
  }

  /** A second present only in the posture track takes its `Behavior` and `Modifier_2` from
      the posture label and has no `Modifier_1`. */
  lemma {:induction false} PostureOnlyFields(act: seq<GridRow>, pos: seq<GridRow>, l: nat) returns (i: nat)
    requires KeysDistinct(pos) && l < |pos| && KeyOf(pos[l]) !in KeysOf(act)
    ensures i < |OuterMerge(act, pos)|
    ensures var m := OuterMerge(act, pos)[i];
            && m.key == KeyOf(pos[l])
            && Behavior(m) == TextOf(Get(pos[l].row, BehaviorCol))
            && Modifier2(m) == TextOf(Get(pos[l].row, Modifier2Col))
            && m.modifier1.None?
  {
    i := PostureRowLands(act, pos, l);
    PostureOnlyKey(act, pos, i);
  }

  /** The activity type of one row before the fill: only a label classified as an activity
      gets one, and an exercise type with a `Modifier_1` is refined. */
  function RowActivityType(t: Tables, r: MergedRow): Option<string> {
    var b := Behavior(r);
    RefineExercise(if ClassifyBehavior(b) == Activity then ActivityType(t, b) else None, TextOf(r.modifier1))
  }

  /** Every activity type a row gets has its three codes: a refined one starts with `EX-`,
      any other comes from the table. */
  lemma {:induction false} RowActivityTypeHasCodes(t: Tables, r: MergedRow)
    requires WellFormed(t) && RowActivityType(t, r).Some?
    ensures ActivityMetaLookup(t, RowActivityType(t, r)).Some?
  {
    var b := Behavior(r);
    var at := if ClassifyBehavior(b) == Activity then ActivityType(t, b) else None;
    if at == Some(ExSport) && TextOf(r.modifier1).Some? {
      RefinedExerciseCodes(t, TextOf(r.modifier1));
    } else {
      ActivityTypeHasMeta(t, b);
    }
  }

  /** `Activity_Type` after the forward fill within each observation. */
  function ActivityTypes(t: Tables, m: seq<MergedRow>): (r: seq<Option<string>>)
    ensures |r| == |m|
  {
    GroupFFill(ObsColumn(m), seq(|m|, i requires 0 <= i < |m| => RowActivityType(t, m[i])))
  }

  /** `posture_wbm` after the forward fill within each observation. */
  function Postures(m: seq<MergedRow>, asWritten: bool): (r: seq<Option<Posture>>)
    ensures |r| == |m|
  {
    GroupFFill(ObsColumn(m), seq(|m|, i requires 0 <= i < |m| => PostureWbm(PostureSource(m[i], asWritten))))
  }

  /** `intensity` after the forward fill within each observation. */
  function Intensities(m: seq<MergedRow>, asWritten: bool): (r: seq<Option<Level>>)
    ensures |r| == |m|
  {
    GroupFFill(ObsColumn(m), seq(|m|, i requires 0 <= i < |m| => Intensity(PostureSource(m[i], asWritten), Modifier2(m[i]))))
  }

  /** `work_type_raw` after the forward fill within each observation. */
  function WorkTypes(m: seq<MergedRow>): (r: seq<Option<string>>)
    ensures |r| == |m|
  {
    GroupFFill(ObsColumn(m), seq(|m|, i requires 0 <= i < |m| => WorkType(TextOf(m[i].modifier3))))
  }

  /** The table after the encoders and before the drop. */
  function Stage(t: Tables, m: seq<MergedRow>, asWritten: bool): (s: seq<Staged>)
    ensures |s| == |m|
  {
    var at := ActivityTypes(t, m);
    var pos := Postures(m, asWritten);
    var lev := Intensities(m, asWritten);
    var work := WorkTypes(m);
    seq(|m|, i requires 0 <= i < |m| => Staged(m[i], Behavior(m[i]), at[i], pos[i], lev[i], WorkOnly(at[i], work[i])))
  }

  // ---- the drop -------------------------------------------------------------------

  predicate Dropped(x: Staged) {
    NonCodableRow(x.activityType, x.behavior)
  }

  /** `behav_act_df_7.loc[~_non_codable_mask]`. */
  function DropNonCodable(s: seq<Staged>): (r: seq<Staged>)
    ensures |r| <= |s|
  {
    if |s| == 0 then []
    else if Dropped(s[0]) then DropNonCodable(s[1..])
    else [s[0]] + DropNonCodable(s[1..])
  }

  /** The drop keeps exactly the rows that are not non-codable. */
  lemma {:induction false} DropSpec(s: seq<Staged>)
    ensures forall x :: x in DropNonCodable(s) <==> x in s && !Dropped(x)
    decreases |s|
  {
    if |s| > 0 {
      DropSpec(s[1..]);
      assert s == [s[0]] + s[1..];
    }
  }

  /** The drop keeps the order of the rows it keeps. */
  lemma {:induction false} DropAppend(a: seq<Staged>, b: seq<Staged>)
    ensures DropNonCodable(a + b) == DropNonCodable(a) + DropNonCodable(b)
    decreases |a|
  {
    if |a| == 0 {
      assert a + b == b;
    } else {
      DropAppend(a[1..], b);
      ConsAppend(a, b);
      var head := if Dropped(a[0]) then [] else [a[0]];
      AppendAssoc(head, DropNonCodable(a[1..]), DropNonCodable(b));
    }
  }

  /** A kept row is a row of the input; the lemma returns its position. */
  lemma {:induction false} DropFrom(s: seq<Staged>, i: nat) returns (k: nat)
    requires i < |DropNonCodable(s)|
    ensures k < |s| && s[k] == DropNonCodable(s)[i] && !Dropped(s[k])
  {
    DropSpec(s);
    var x := DropNonCodable(s)[i];
    assert x in DropNonCodable(s);
    k :| 0 <= k < |s| && s[k] == x;
  }

  predicate StagedSorted(s: seq<Staged>) {
    forall i, j :: 0 <= i < j < |s| ==> KeyLess(s[i].row.key, s[j].row.key)
  }

  /** Dropping rows keeps the table ordered by observation and second. */
  lemma {:induction false} DropSorted(s: seq<Staged>)
    requires StagedSorted(s)
    ensures StagedSorted(DropNonCodable(s))
    decreases |s|
  {
    if |s| > 0 {
      DropSorted(s[1..]);
      DropSpec(s[1..]);
      var r := DropNonCodable(s[1..]);
      if !Dropped(s[0]) {
        forall j | 0 <= j < |r| ensures KeyLess(s[0].row.key, r[j].row.key) {
          assert r[j] in s[1..];
        }
      }
    }
  }

  // ---- the stabilisation ----------------------------------------------------------

  function StagedObs(s: seq<Staged>): (keys: seq<string>)
    ensures |keys| == |s|
  {
    seq(|s|, i requires 0 <= i < |s| => s[i].row.key.obs)
  }

  function StagedActivityTypes(s: seq<Staged>): (r: seq<Option<string>>)
    ensures |r| == |s|
  {
    seq(|s|, i requires 0 <= i < |s| => s[i].activityType)
  }

  function StagedPostures(s: seq<Staged>): (r: seq<Option<Posture>>)
    ensures |r| == |s|
  {
    seq(|s|, i requires 0 <= i < |s| => s[i].posture)
  }

  /** One finished row: the stabilised activity type and posture code with their codes
      looked up again and the sedentary flag recomputed. */
  function Finished(t: Tables, x: Staged, at: Option<string>, pos: Option<Posture>): Encoded {
    var meta := ActivityMetaLookup(t, at);
    var code := if meta.Some? then Some(meta.value.activityType) else None;
    Encoded(x.row, at, meta, pos, PostureMetaLookup(t, pos), WavesSedentary(pos, code),
            x.intensity, WavesIntensity(x.intensity), x.workType)
  }

  /** The stabilisation pass over the kept rows. */
  function Finish(t: Tables, s: seq<Staged>): (r: seq<Encoded>)
    ensures |r| == |s|
  {
    var keys := StagedObs(s);
    var at := GroupStabilize(keys, StagedActivityTypes(s));
    var pos := GroupStabilize(keys, StagedPostures(s));
    seq(|s|, i requires 0 <= i < |s| => Finished(t, s[i], at[i], pos[i]))
  }

  /** The whole encoding; `asWritten` chooses where the posture label is read from. */
  function Encoding(t: Tables, m: seq<MergedRow>, asWritten: bool): (r: seq<Encoded>)
    ensures |r| <= |m|
  {
    Finish(t, DropNonCodable(Stage(t, m, asWritten)))
  }

  /** The encoded table as the code builds it. */
  function EncodeAsWritten(t: Tables, m: seq<MergedRow>): seq<Encoded> {
    Encoding(t, m, true)
  }

  /** The encoded table with the posture read from the posture label. */
  function Encode(t: Tables, m: seq<MergedRow>): seq<Encoded> {
    Encoding(t, m, false)
  }

  /** The rows that survive the drop, in order. */
  function Kept(t: Tables, m: seq<MergedRow>, asWritten: bool): (s: seq<Staged>)
    ensures |s| <= |m|
  {
    DropNonCodable(Stage(t, m, asWritten))
  }

  // ---- properties of the encoded table --------------------------------------------

  /** The encoded table is still ordered by observation and second. */
  lemma {:induction false} EncodedSorted(t: Tables, m: seq<MergedRow>, asWritten: bool)
    requires MergedSorted(m)
    ensures var r := Encoding(t, m, asWritten);
            forall i, j :: 0 <= i < j < |r| ==> KeyLess(r[i].row.key, r[j].row.key)
  {
    var s := Stage(t, m, asWritten);
    assert StagedSorted(s) by {
      forall i, j | 0 <= i < j < |s| ensures KeyLess(s[i].row.key, s[j].row.key) {
        assert s[i].row == m[i] && s[j].row == m[j];
      }
    }
    DropSorted(s);
    var k := Kept(t, m, asWritten);
    var r := Encoding(t, m, asWritten);
    assert forall i :: 0 <= i < |r| ==> r[i].row == k[i].row;
  }

  /** Each encoded row is a kept row, and its stabilised activity type and posture code are
      missing only when no kept row of its observation has one. */
  lemma {:induction false} StabilisedWithinObservation(t: Tables, m: seq<MergedRow>, asWritten: bool, i: nat)
    requires i < |Encoding(t, m, asWritten)|
    ensures var s := Kept(t, m, asWritten);
            var r := Encoding(t, m, asWritten)[i];
            && r.row == s[i].row
            && (s[i].activityType.Some? ==> r.activityType == s[i].activityType)
            && (r.activityType.None? <==>
                  forall j :: 0 <= j < |s| && s[j].row.key.obs == s[i].row.key.obs ==> s[j].activityType.None?)
            && (s[i].posture.Some? ==> r.posture == s[i].posture)
            && (r.posture.None? <==>
                  forall j :: 0 <= j < |s| && s[j].row.key.obs == s[i].row.key.obs ==> s[j].posture.None?)
  {
    FinishWithinObservation(t, Kept(t, m, asWritten), i);
  }

  lemma {:induction false} FinishWithinObservation(t: Tables, s: seq<Staged>, i: nat)
    requires i < |s|
    ensures var r := Finish(t, s)[i];
            && r.row == s[i].row
            && (s[i].activityType.Some? ==> r.activityType == s[i].activityType)
            && (r.activityType.None? <==>
                  forall j :: 0 <= j < |s| && s[j].row.key.obs == s[i].row.key.obs ==> s[j].activityType.None?)
            && (s[i].posture.Some? ==> r.posture == s[i].posture)
            && (r.posture.None? <==>
                  forall j :: 0 <= j < |s| && s[j].row.key.obs == s[i].row.key.obs ==> s[j].posture.None?)
  {
    StabilizedAt(StagedObs(s), StagedActivityTypes(s), i);
    StabilizedAt(StagedObs(s), StagedPostures(s), i);
  }

  /** `GroupStabilizeSpec` at one cell. */
  lemma {:induction false} StabilizedAt<T>(keys: seq<string>, vals: seq<Option<T>>, i: nat)
    requires |keys| == |vals| && i < |vals|
    ensures vals[i].Some? ==> GroupStabilize(keys, vals)[i] == vals[i]
    ensures GroupStabilize(keys, vals)[i].None? <==>
              forall j :: 0 <= j < |vals| && keys[j] == keys[i] ==> vals[j].None?
  {
    GroupStabilizeSpec(keys, vals);
  }

  /** No encoded row is non-codable: the drop removes those rows, and the stabilisation only
      copies activity types of kept rows. */
  lemma {:induction false} NoNonCodableLeft(t: Tables, m: seq<MergedRow>, asWritten: bool, i: nat)
    requires i < |Encoding(t, m, asWritten)|
    ensures Encoding(t, m, asWritten)[i].activityType != Some(NonCodable)
  {
    FinishedNotNonCodable(t, Stage(t, m, asWritten), i);
  }

  lemma {:induction false} FinishedNotNonCodable(t: Tables, s: seq<Staged>, i: nat)
    requires i < |DropNonCodable(s)|
    ensures Finish(t, DropNonCodable(s))[i].activityType != Some(NonCodable)
  {
    var d := DropNonCodable(s);
    var keys := StagedObs(d);
    var col := StagedActivityTypes(d);
    var at := GroupStabilize(keys, col);
    assert Finish(t, d)[i].activityType == at[i];
    if at[i].Some? {
      var j := GroupStabilizeFrom(keys, col, i);
      var k := DropFrom(s, j);
      assert col[j] == d[j].activityType;
    }
  }

  /** A staged activity type that has its three codes. */
  predicate HasCodes(t: Tables, at: Option<string>) {
    at.Some? ==> ActivityMetaLookup(t, at).Some?
  }

  /** With well-formed tables, an encoded row has activity codes exactly when it has an
      activity type, and posture codes exactly when it has a posture code. */
  lemma {:induction false} CodesPresent(t: Tables, m: seq<MergedRow>, asWritten: bool, i: nat)
    requires WellFormed(t) && i < |Encoding(t, m, asWritten)|
    ensures var r := Encoding(t, m, asWritten)[i];
            && (r.meta.Some? <==> r.activityType.Some?)
            && (r.postureMeta.Some? <==> r.posture.Some?)
  {
    var st := Stage(t, m, asWritten);
    forall k | 0 <= k < |st| ensures HasCodes(t, st[k].activityType) {
      StagedHasCodes(t, m, asWritten, k);
    }
    FinishedHasCodes(t, st, i);
  }

  lemma {:induction false} StagedHasCodes(t: Tables, m: seq<MergedRow>, asWritten: bool, k: nat)
    requires WellFormed(t) && k < |m|
    ensures HasCodes(t, Stage(t, m, asWritten)[k].activityType)
  {
    var raw := seq(|m|, q requires 0 <= q < |m| => RowActivityType(t, m[q]));
    var at := ActivityTypes(t, m);
    assert Stage(t, m, asWritten)[k].activityType == at[k];
    if at[k].Some? {
      var q := GroupFFillLatest(ObsColumn(m), raw, k);
      RowActivityTypeHasCodes(t, m[q]);
    }
  }

  lemma {:induction false} FinishedHasCodes(t: Tables, s: seq<Staged>, i: nat)
    requires WellFormed(t) && i < |DropNonCodable(s)|
    requires forall k :: 0 <= k < |s| ==> HasCodes(t, s[k].activityType)
    ensures var r := Finish(t, DropNonCodable(s))[i];
            && (r.meta.Some? <==> r.activityType.Some?)
            && (r.postureMeta.Some? <==> r.posture.Some?)
  {
    var d := DropNonCodable(s);
    var keys := StagedObs(d);
    var col := StagedActivityTypes(d);
    var at := GroupStabilize(keys, col);
    var r := Finish(t, d)[i];
    assert r.activityType == at[i] && r.meta == ActivityMetaLookup(t, at[i]);
    if at[i].Some? {
      var j := GroupStabilizeFrom(keys, col, i);
      var k := DropFrom(s, j);
      assert col[j] == d[j].activityType == s[k].activityType;
    }
  }

  /** A staged work type belongs to a work activity type and is `work_` and a slug. */
  predicate WorkConsistent(x: Staged) {
    x.workType.Some? ==>
      && x.activityType in {Some(WorkGeneral), Some(WorkScreen)}
      && |x.workType.value| > 5 && x.workType.value[..5] == "work_"
  }

  /** A work type survives only on a row whose activity type is one of the two work types,
      and it is `work_` followed by the code's slug. */
  lemma {:induction false} WorkTypeOnlyForWork(t: Tables, m: seq<MergedRow>, asWritten: bool, i: nat)
    requires i < |Encoding(t, m, asWritten)|
    ensures var r := Encoding(t, m, asWritten)[i];
            r.workType.Some? ==>
              && r.activityType in {Some(WorkGeneral), Some(WorkScreen)}
              && |r.workType.value| > 5 && r.workType.value[..5] == "work_"
  {
    var st := Stage(t, m, asWritten);
    forall k | 0 <= k < |st| ensures WorkConsistent(st[k]) {
      StagedWorkConsistent(t, m, asWritten, k);
    }
    FinishedWorkConsistent(t, st, i);
  }

  lemma {:induction false} StagedWorkConsistent(t: Tables, m: seq<MergedRow>, asWritten: bool, k: nat)
    requires k < |m|
    ensures WorkConsistent(Stage(t, m, asWritten)[k])
  {
    var at := ActivityTypes(t, m);
    var work := WorkTypes(m);
    assert Stage(t, m, asWritten)[k].workType == WorkOnly(at[k], work[k]);
    assert Stage(t, m, asWritten)[k].activityType == at[k];
    if work[k].Some? {
      var raw := seq(|m|, q requires 0 <= q < |m| => WorkType(TextOf(m[q].modifier3)));
      var q := GroupFFillLatest(ObsColumn(m), raw, k);
      WorkTypeShape(TextOf(m[q].modifier3));
    }
  }

  lemma {:induction false} FinishedWorkConsistent(t: Tables, s: seq<Staged>, i: nat)
    requires i < |DropNonCodable(s)|
    requires forall k :: 0 <= k < |s| ==> WorkConsistent(s[k])
    ensures var r := Finish(t, DropNonCodable(s))[i];
            r.workType.Some? ==>
              && r.activityType in {Some(WorkGeneral), Some(WorkScreen)}
              && |r.workType.value| > 5 && r.workType.value[..5] == "work_"
  {
    var d := DropNonCodable(s);
    var keys := StagedObs(d);
    var col := StagedActivityTypes(d);
    var r := Finish(t, d)[i];
    assert r.workType == d[i].workType && r.activityType == GroupStabilize(keys, col)[i];
    var k := DropFrom(s, i);
    assert WorkConsistent(d[i]);
    GroupStabilizeSpec(keys, col);
  }

  /** Read posture-first, a second the posture track covers gets the posture code of its own
      posture label whenever that label has one. */
  lemma {:induction false} PostureFromPostureTrack(t: Tables, m: seq<MergedRow>, i: nat)
    requires i < |m| && m[i].behaviorPos.Some? && PostureWbm(TextOf(m[i].behaviorPos)).Some?
    ensures Stage(t, m, false)[i].posture == PostureWbm(TextOf(m[i].behaviorPos))
  {
    var raw := seq(|m|, q requires 0 <= q < |m| => PostureWbm(PostureSource(m[q], false)));
    GroupFFillSpec(ObsColumn(m), raw);
  }

  /** As written, a second the activity track covers takes its posture from the activity label,
      so it gets no posture code unless an earlier second of its observation had one. */
  lemma {:induction false} PostureFromActivityLabel(t: Tables, m: seq<MergedRow>, i: nat)
    requires i < |m| && m[i].behaviorAct.Some?
    ensures Stage(t, m, true)[i].posture.None? <==>
              forall j :: 0 <= j <= i && m[j].key.obs == m[i].key.obs ==> PostureWbm(PostureSource(m[j], true)).None?
    ensures PostureWbm(PostureSource(m[i], true)) == PostureWbm(TextOf(m[i].behaviorAct))
  {
    var raw := seq(|m|, q requires 0 <= q < |m| => PostureWbm(PostureSource(m[q], true)));
    GroupFFillSpec(ObsColumn(m), raw);
  }

  lemma {:induction false} FFillSingle<T>(k: string, v: Option<T>)
    ensures GroupFFill([k], [v]) == [v]
    ensures GroupStabilize([k], [v]) == [v]
  {
    GroupFFillSpec([k], [v]);
    GroupStabilizeSpec([k], [v]);
  }

  /** A single kept second keeps its own posture code through the fill and the
      stabilisation. */
  lemma {:induction false} SingleSecondPosture(t: Tables, x: MergedRow, asWritten: bool)
    requires !NonCodableRow(RowActivityType(t, x), Behavior(x))
    ensures |Encoding(t, [x], asWritten)| == 1
    ensures Encoding(t, [x], asWritten)[0].posture == PostureWbm(PostureSource(x, asWritten))
  {
    var st := Stage(t, [x], asWritten);
    SingleSecondStaged(t, x, asWritten);
    assert st == [st[0]];
    assert DropNonCodable(st) == st;
    FinishSingle(t, st[0]);
  }

  lemma {:induction false} SingleSecondStaged(t: Tables, x: MergedRow, asWritten: bool)
    ensures var st := Stage(t, [x], asWritten);
            && |st| == 1
            && st[0].behavior == Behavior(x)
            && st[0].activityType == RowActivityType(t, x)
            && st[0].posture == PostureWbm(PostureSource(x, asWritten))
  {
    var m := [x];
    assert ObsColumn(m) == [x.key.obs];
    FFillSingle(x.key.obs, RowActivityType(t, x));
    assert ActivityTypes(t, m) == [RowActivityType(t, x)];
    FFillSingle(x.key.obs, PostureWbm(PostureSource(x, asWritten)));
    assert Postures(m, asWritten) == [PostureWbm(PostureSource(x, asWritten))];
  }

  lemma {:induction false} FinishSingle(t: Tables, y: Staged)
    ensures |Finish(t, [y])| == 1 && Finish(t, [y])[0].posture == y.posture
  {
    assert StagedObs([y]) == [y.row.key.obs];
    assert StagedPostures([y]) == [y.posture];
    FFillSingle(y.row.key.obs, y.posture);
  }

  /** On a single second where the activity track has a label that is not a posture and the
      posture track has a posture label, the table as written has no posture code while the
      posture-first reading has the posture label's code. */
  lemma {:induction false} PostureLostAsWritten(t: Tables, x: MergedRow)
    requires x.behaviorAct.Some? && PostureWbm(TextOf(x.behaviorAct)).None?
    requires x.behaviorPos.Some? && PostureWbm(TextOf(x.behaviorPos)).Some?
    requires !NonCodableRow(RowActivityType(t, x), Behavior(x))
    ensures |EncodeAsWritten(t, [x])| == 1 && EncodeAsWritten(t, [x])[0].posture.None?
    ensures |Encode(t, [x])| == 1 && Encode(t, [x])[0].posture == PostureWbm(TextOf(x.behaviorPos))
  {
    SingleSecondPosture(t, x, true);
    SingleSecondPosture(t, x, false);
  }
}

=== FILE: encoders.dfy ===
/**
 * The label encoders applied to each merged second: the activity type and its three codes, the
 * exercise modifier, the work type, the posture code and its two codes, the sedentary flag and
 * the intensity. The taxonomy tables themselves are parameters (`Tables`); what the encoders
 * need of them is `WellFormed`.
 */
module Encoders {
  import opened Options
  import opened Text
  import opened Labels

  /** `(activity_type, broad_domain, waves_domain)`. */
  datatype ActivityMeta = ActivityMeta(activityType: string, broadDomain: string, wavesDomain: string)

  /** `(posture_broad, posture_waves)`. */
  datatype PostureMeta = PostureMeta(broad: string, waves: string)

  /** `_activity_type_to_meta`, `_alias_to_activity_type` and `_posture_meta`. */
  datatype Tables = Tables(
    activityMeta: map<string, ActivityMeta>,
    aliases: map<string, string>,
    postureMeta: map<string, PostureMeta>)

  const LesScreen: string := "LES- Screen-Based (TV, Video Game, Computer, Phone)"
  const TravPublic: string := "TRAV- Passenger (Bus, Train, Tram, Plane, Boat, Ship)"
  /** The prefix every exercise type starts with. */
  const ExPrefix: string := "EX-"
  const ExSport: string := ExPrefix + " Participating in Sport, Exercise or Recreation***"
  const NonCodable: string := "OTHER- Non-Codable (delete these rows from dataset)"
  const WorkGeneral: string := "WRK- General**"
  const WorkScreen: string := "WRK- Desk/Screen Based"

  /** The codes every exercise type with a modifier gets. */
  const ExSportMeta: ActivityMeta := ActivityMeta("ex_sport", "exercise", "leisure")

  /** The posture codes (`posture_wbm`). */
  datatype Posture =
    | Sitting | Lying | KneelSquat | Stretch | StandMove | Stand | Walk | WalkLoad
    | Ascend | Descend | Running | Biking | SportMove | MuscleStrength | NotCoded

  /** The code's spelling of each posture code, the key of `_posture_meta`. */
  function PostureName(p: Posture): string {
    match p
    case Sitting => "sitting"
    case Lying => "lying"
    case KneelSquat => "kneel_squat"
    case Stretch => "stretch"
    case StandMove => "stand_move"
    case Stand => "stand"
    case Walk => "walk"
    case WalkLoad => "walk_load"
    case Ascend => "ascend"
    case Descend => "descend"
    case Running => "running"
    case Biking => "biking"
    case SportMove => "sport_move"
    case MuscleStrength => "muscle_strength"
    case NotCoded => "not_coded"
  }

  /** The intensity levels. */
  datatype Level = Sedentary | Light | Moderate | Vigorous

  function LevelName(l: Level): string {
    match l
    case Sedentary => "sedentary"
    case Light => "light"
    case Moderate => "moderate"
    case Vigorous => "vigorous"
  }

  /** What the encoders rely on: every alias names a canonical type, the two types chosen by
      prefix are canonical, and every posture code has its two codes. */
  predicate WellFormed(t: Tables) {
    && (forall a :: a in t.aliases ==> t.aliases[a] in t.activityMeta)
    && LesScreen in t.activityMeta
    && TravPublic in t.activityMeta
    && (forall p :: PostureName(p) in t.postureMeta)
  }

  // ---- activity type --------------------------------------------------------------

  /** `_map_behavior_to_activity_type`: the normalised label, matched first on two prefixes and
      then through the alias table. */
  function ActivityType(t: Tables, v: Option<string>): (r: Option<string>)
    ensures WellFormed(t) && r.Some? ==> r.value in t.activityMeta
    ensures v.None? ==> r.None?
  {
    match Normalize(v)
    case None => None
    case Some(s) =>
      if s == "" then None
      else if StartsWith("les- screen", s) then Some(LesScreen)
      else if StartsWith("trav- passenger (bus", s) then Some(TravPublic)
      else if s in t.aliases then Some(t.aliases[s])
      else None
  }

  /** The activity type depends on the label only through its normal form. */
  lemma {:induction false} ActivityTypeNormalized(t: Tables, s: string)
    ensures ActivityType(t, Some(NormText(s))) == ActivityType(t, Some(s))
  {
    NormTextIdempotent(s);
  }

  /** `_activity_meta_lookup`: any type starting with `EX-` has the exercise codes; any other is
      looked up. */
  function ActivityMetaLookup(t: Tables, at: Option<string>): (r: Option<ActivityMeta>)
    ensures at.Some? && StartsWith("EX-", at.value) ==> r == Some(ExSportMeta)
    ensures at.Some? && !StartsWith("EX-", at.value) && at.value in t.activityMeta ==> r == Some(t.activityMeta[at.value])
    ensures r.None? <==> at.None? || (!StartsWith("EX-", at.value) && at.value !in t.activityMeta)
  {
    match at
    case None => None
    case Some(a) =>
      if StartsWith("EX-", a) then Some(ExSportMeta)
      else if a in t.activityMeta then Some(t.activityMeta[a])
      else None
  }

  /** With well-formed tables, every activity type found for a label has its three codes. */
  lemma {:induction false} ActivityTypeHasMeta(t: Tables, v: Option<string>)
    requires WellFormed(t) && ActivityType(t, v).Some?
    ensures ActivityMetaLookup(t, ActivityType(t, v)).Some?
  {
  }

  /** The exercise modifier as the code spells it: stripped, lower-cased, whitespace runs and
      slashes turned into hyphens. */
  function ModifierSlug(m: string): string {
    ReplaceChar(CollapseTo(Lower(Strip(m)), '-'), '/', '-')
  }

  /** The modifier part of a refined exercise type has no whitespace, no slash and no capital. */
  lemma {:induction false} ModifierSlugShape(m: string)
    ensures var r := ModifierSlug(m);
            NoSpace(r) && '/' !in r && NoUpper(r)
  {
    var l := Lower(Strip(m));
    LowerNoUpper(Strip(m));
    var c := CollapseTo(l, '-');
    CollapseNoSpace(l, '-');
    CollapseNoUpper(l, '-');
    ReplaceCharFacts(c, '/', '-');
  }

  /** The exercise refinement: an exercise type with a `Modifier_1` becomes `EX-` followed by
      the modifier. */
  function RefineExercise(at: Option<string>, modifier1: Option<string>): (r: Option<string>)
    ensures at != Some(ExSport) || modifier1.None? ==> r == at
    ensures at == Some(ExSport) && modifier1.Some? ==> r == Some("EX-" + ModifierSlug(modifier1.value))
  {
    if at == Some(ExSport) && modifier1.Some? then Some("EX-" + ModifierSlug(modifier1.value)) else at
  }

  /** Refining an exercise type never changes its codes: they stay the exercise codes. */
  lemma {:induction false} RefinedExerciseCodes(t: Tables, modifier1: Option<string>)
    ensures ActivityMetaLookup(t, RefineExercise(Some(ExSport), modifier1)) == Some(ExSportMeta)
  {
    var r := RefineExercise(Some(ExSport), modifier1);
    if modifier1.Some? {
      assert r.value[..3] == "EX-";
    } else {
      assert ExSport[..|ExPrefix|] == ExPrefix;
    }
  }

  // ---- work type ------------------------------------------------------------------

  /** `re.sub(r'^\s*sp-\s*', '', raw, flags=re.IGNORECASE)`. */
  function DropSpPrefix(raw: string): string {
    var t := TrimLeft(raw);
    if |t| >= 3 && LowerChar(t[0]) == 's' && LowerChar(t[1]) == 'p' && t[2] == '-' then TrimLeft(t[3..])
    else raw
  }

  /** `_mk_work_type` on the text of a `Modifier_3` cell. */
  function WorkType(m: Option<string>): (r: Option<string>)
    ensures m.None? ==> r.None?
  {
    match m
    case None => None
    case Some(x) =>
      var raw := DropSpPrefix(Strip(x));
      var s := ReplaceAll(ReplaceChar(CollapseTo(Lower(raw), '_'), '/', '_'), "hospiltality", "hospitality");
      if s == "" then None else Some("work_" + s)
  }

  /** A work type is `work_` followed by a non-empty code without whitespace, slashes or
      capitals. */
  lemma {:induction false} WorkTypeShape(m: Option<string>)
    requires WorkType(m).Some?
    ensures var w := WorkType(m).value;
            && |w| > 5 && w[..5] == "work_"
            && NoSpace(w[5..]) && '/' !in w[5..] && NoUpper(w[5..])
  {
    var raw := DropSpPrefix(Strip(m.value));
    var l := Lower(raw);
    LowerNoUpper(raw);
    var c := CollapseTo(l, '_');
    CollapseNoSpace(l, '_');
    CollapseNoUpper(l, '_');
    var d := ReplaceChar(c, '/', '_');
    ReplaceCharFacts(c, '/', '_');
    var s := ReplaceAll(d, "hospiltality", "hospitality");
    ReplaceAllChars(d, "hospiltality", "hospitality");
    HospitalityPlain();
    CodeShape(d, s);
    assert WorkType(m).value == "work_" + s;
    assert ("work_" + s)[5..] == s;
  }

  lemma {:induction false} HospitalityPlain()
    ensures NoSpace("hospitality") && '/' !in "hospitality" && NoUpper("hospitality")
  {
  }

  lemma {:induction false} CodeShape(d: string, s: string)
    requires NoSpace(d) && '/' !in d && NoUpper(d)
    requires NoSpace("hospitality") && '/' !in "hospitality" && NoUpper("hospitality")
    requires forall c :: c in s ==> c in d || c in "hospitality"
    ensures NoSpace(s) && '/' !in s && NoUpper(s)
  {
    forall k | 0 <= k < |s| ensures !IsSpace(s[k]) && s[k] != '/' && !IsUpper(s[k]) {
      assert s[k] in s;
    }
  }

  /** The final `work_type`: the carried work type, kept only on rows whose activity type is
      one of the two work types. */
  function WorkOnly(at: Option<string>, raw: Option<string>): (r: Option<string>)
    ensures r.Some? ==> at.Some? && (at.value == WorkGeneral || at.value == WorkScreen) && r == raw
    ensures at.Some? && (at.value == WorkGeneral || at.value == WorkScreen) ==> r == raw
  {
    if at.Some? && (at.value == WorkGeneral || at.value == WorkScreen) then raw else None
  }

  // ---- posture --------------------------------------------------------------------

  /** `_map_posture_wbm_from_behavior`: the posture code of a normalised label. */
  function PostureWbm(v: Option<string>): (r: Option<Posture>)
    ensures v.None? ==> r.None?
    ensures v.Some? ==> r == PostureOf(NormText(v.value))
  {
    match Normalize(v)
    case None => None
    case Some(s) => PostureOf(s)
  }

  /** The posture code of an already normalised label: four prefixes, then exact labels. */
  function PostureOf(s: string): (r: Option<Posture>)
    ensures s == "" ==> r.None?
  {
      if s == "" then None
      else if StartsWith("sb-sitting", s) then Some(Sitting)
      else if StartsWith("sb-lying", s) || StartsWith("sb- lying", s) then Some(Lying)
      else if StartsWith("la- kneeling", s) then Some(KneelSquat)
      else if s == "la- stretching" then Some(Stretch)
      else if s == "la- stand and move" then Some(StandMove)
      else if s == "la- stand" then Some(Stand)
      else if s in {"wa- walk", "wa- walking", "trav- walking", "trav-walking"} then Some(Walk)
      else if s in {"wa-walk with load", "wa- walk with load"} then Some(WalkLoad)
      else if s == "wa- ascend stairs" then Some(Ascend)
      else if s == "wa- descend stairs" then Some(Descend)
      else if s == "wa- running" then Some(Running)
      else if s == "sp- bike" then Some(Biking)
      else if s in {"sp- other sport movement", "sp- swing", "sp -kick", "sp- jump"} then Some(SportMove)
      else if s == "sp- muscle strengthening" then Some(MuscleStrength)
      else if s == "private/not coded" then Some(NotCoded)
      else None
  }

  /** `_posture_meta.get(code)`: with well-formed tables, every posture code has its codes. */
  function PostureMetaLookup(t: Tables, code: Option<Posture>): (r: Option<PostureMeta>)
    ensures WellFormed(t) ==> (r.None? <==> code.None?)
    ensures code.Some? && PostureName(code.value) in t.postureMeta ==> r == Some(t.postureMeta[PostureName(code.value)])
  {
    if code.Some? && PostureName(code.value) in t.postureMeta then Some(t.postureMeta[PostureName(code.value)])
    else None
  }

  /** `_waves_sed_vec` on one row: sitting is `sed_drive` when the activity code is a drive or
      a ride and `sedentary` otherwise, lying and kneeling are `sedentary`, any other posture
      is `active`, and no posture gives nothing. */
  function WavesSedentary(wbm: Option<Posture>, activityCode: Option<string>): (r: Option<string>)
    ensures r.None? <==> wbm.None?
    ensures r == Some("sed_drive") <==> wbm == Some(Sitting) && activityCode in {Some("trav_drive"), Some("trav_pass")}
    ensures r == Some("active") <==> wbm.Some? && wbm.value !in {Sitting, Lying, KneelSquat}
    ensures r == Some("sedentary") <==>
              (wbm in {Some(Lying), Some(KneelSquat)}
               || (wbm == Some(Sitting) && activityCode !in {Some("trav_drive"), Some("trav_pass")}))
  {
    if wbm == Some(Sitting) then
      if activityCode in {Some("trav_drive"), Some("trav_pass")} then Some("sed_drive") else Some("sedentary")
    else if wbm == Some(Lying) || wbm == Some(KneelSquat) then Some("sedentary")
    else if wbm.Some? then Some("active")
    else None
  }

  // ---- intensity ------------------------------------------------------------------

  /** `_posture_intensity`: sitting, lying and kneeling labels are sedentary; standing and
      stretching labels are light. */
  function PostureIntensity(v: Option<string>): (r: Option<Level>)
    ensures v.None? ==> r.None?
    ensures v.Some? ==> r == IntensityOf(NormText(v.value))
  {
    match Normalize(v)
    case None => None
    case Some(s) => IntensityOf(s)
  }

  /** The posture intensity of an already normalised label. */
  function IntensityOf(s: string): (r: Option<Level>)
    ensures r.Some? ==> r.value in {Sedentary, Light}
  {
      if s == "" then None
      else if StartsWith("sb-sitting", s) || StartsWith("sb-lying", s) || StartsWith("sb- lying", s)
              || StartsWith("la- kneeling", s) then Some(Sedentary)
      else if s in {"la- stand", "la- stand and move", "la- stretching"} then Some(Light)
      else None
  }

  /** The posture intensity agrees with the posture code, both ways: sedentary exactly for the
      sitting, lying and kneeling codes, light exactly for standing, standing and moving, and
      stretching. */
  lemma {:induction false} IntensityMatchesPosture(v: Option<string>)
    ensures PostureIntensity(v) == Some(Sedentary) <==> PostureWbm(v) in {Some(Sitting), Some(Lying), Some(KneelSquat)}
    ensures PostureIntensity(v) == Some(Light) <==> PostureWbm(v) in {Some(Stand), Some(StandMove), Some(Stretch)}
  {
    if v.Some? {
      IntensityMatchesPostureOf(NormText(v.value));
    }
  }

  lemma {:induction false} IntensityMatchesPostureOf(s: string)
    ensures IntensityOf(s) == Some(Sedentary) <==> PostureOf(s) in {Some(Sitting), Some(Lying), Some(KneelSquat)}
    ensures IntensityOf(s) == Some(Light) <==> PostureOf(s) in {Some(Stand), Some(StandMove), Some(Stretch)}
  {
    if s == "" || StartsWith("sb-sitting", s) || StartsWith("sb-lying", s) || StartsWith("sb- lying", s)
       || StartsWith("la- kneeling", s) {
    } else if s == "la- stretching" {
    } else if s == "la- stand and move" {
      assert |s| != |"la- stretching"|;
    } else if s == "la- stand" {
      assert |s| != |"la- stretching"| && |s| != |"la- stand and move"|;
    } else {
    }
  }

  /** `_norm_intensity`: the intensity named by a `Modifier_2` cell. */
  function NormIntensity(m: Option<string>): (r: Option<Level>)
    ensures m.None? ==> r.None?
  {
    match m
    case None => None
    case Some(x) =>
      var s := Lower(Strip(x));
      if s == "" then None
      else if StartsWith("vig", s) then Some(Vigorous)
      else if StartsWith("mod", s) then Some(Moderate)
      else if s == "light" then Some(Light)
      else if s == "sedentary" then Some(Sedentary)
      else None
  }

  /** The row's intensity: the posture intensity, or failing that the modifier's. */
  function Intensity(behavior: Option<string>, modifier2: Option<string>): (r: Option<Level>)
    ensures PostureIntensity(behavior).Some? ==> r == PostureIntensity(behavior)
    ensures PostureIntensity(behavior).None? ==> r == NormIntensity(modifier2)
  {
    Coalesce(PostureIntensity(behavior), NormIntensity(modifier2))
  }

  /** `waves_intensity`: moderate and vigorous become `mvpa`, anything else keeps its name. */
  function WavesIntensity(x: Option<Level>): (r: Option<string>)
    ensures r.None? <==> x.None?
    ensures r == Some("mvpa") <==> x in {Some(Moderate), Some(Vigorous)}
  {
    if x == Some(Moderate) || x == Some(Vigorous) then Some("mvpa")
    else if x.Some? then Some(LevelName(x.value))
    else None
  }

  // ---- the non-codable drop ------------------------------------------------------

  /** `astype(str)` of a possibly missing label. */
  function StrOf(v: Option<string>): string {
    if v.Some? then v.value else "nan"
  }

  /** The rows the clean-up drops: the non-codable activity type, or the private label. */
  predicate NonCodableRow(at: Option<string>, behavior: Option<string>) {
    at == Some(NonCodable) || Lower(Strip(StrOf(behavior))) == "private/not coded"
  }
}

=== FILE: expand.dfy ===
/**
 * The per-second expansion of one track (`expand_track_to_seconds`): the timed events of each
 * observation become one row per whole second, from the first whole second of the
 * observation to the last, each row carrying the columns of the latest event at or before
 * that second.
 */
module Expand {
  import opened Options
  import opened Fill
  import opened TimeFormat

  /** A cell of the carried columns: a label or a number. */
  datatype Cell = Str(s: string) | Num(n: int)

  /** One event of a track: its observation, its parsed relative time (missing when the time
      did not parse) and its other columns, in a fixed order. */
  datatype Event = Event(obs: string, seconds: Option<real>, row: seq<Option<Cell>>)

  /** One row of the expanded track. */
  datatype GridRow = GridRow(obs: string, second: int, time: TimeLabel, row: seq<Option<Cell>>)

  /** A display time: a whole second, shown as `HH:MM:SS`, or a reading shown to the hundredth
      as `HH:MM:SS.ff`; a time before zero carries a minus sign. */
  datatype TimeLabel = Whole(n: int) | Hundredths(x: real)

  /** The label's text, with negative times written by the corrected formatter (see
      `TimeFormat.FormatSignedHms`). */
  function LabelText(l: TimeLabel): string {
    match l
    case Whole(n) => FormatSignedHms(n as real, 0)
    case Hundredths(x) => FormatSignedHms(x, 2)
  }

  /** The label's text as the code writes it: `_format_hms` for every time, negative ones
      included (lines 272 and 275). */
  function LabelTextAsWritten(l: TimeLabel): string {
    match l
    case Whole(n) => FormatHms(n as real, 0)
    case Hundredths(x) => FormatHms(x, 2)
  }

  predicate NotBeforeZero(l: TimeLabel) {
    match l
    case Whole(n) => n >= 0
    case Hundredths(x) => x >= 0.0
  }

  /** From zero on the corrected labels are the code's own, so every read-back fact about
      them holds of the code there. */
  lemma {:induction false} LabelTextAgrees(l: TimeLabel)
    requires NotBeforeZero(l)
    ensures LabelTextAsWritten(l) == LabelText(l)
  {
  }

  /** Before zero they part: the code labels second -5 so that it reads back as -7195. */
  lemma {:induction false} LabelMisreadAsWritten()
    ensures ParseSeconds(LabelTextAsWritten(Whole(-5))) == Some(-7195.0)
    ensures ParseSeconds(LabelText(Whole(-5))) == Some(-5.0)
  {
    NegativeLabelMisreads();
  }

  predicate Timed(e: Event) {
    e.seconds.Some?
  }

  function Ceil(x: real): (r: int)
    ensures (r - 1) as real < x <= r as real
  {
    -((-x).Floor)
  }

  function Abs(x: real): real {
    if x < 0.0 then -x else x
  }

  /** The default tolerances of `np.isclose`. */
  const Atol: real := 0.00000001
  const Rtol: real := 0.00001

  /** `np.isclose(a, b)`. */
  predicate IsClose(a: real, b: real) {
    Abs(a - b) <= Atol + Rtol * Abs(b)
  }

  // ---- earliest and latest readings -------------------------------------------

  /** The position of an earliest timed event among the first `n`, or -1. */
  function MinIndex(evs: seq<Event>, n: nat): (r: int)
    requires n <= |evs|
    ensures -1 <= r < n
    ensures r < 0 <==> forall i :: 0 <= i < n ==> !Timed(evs[i])
    ensures r >= 0 ==> Timed(evs[r])
    ensures r >= 0 ==> forall i :: 0 <= i < n && Timed(evs[i]) ==> evs[r].seconds.value <= evs[i].seconds.value
  {
    if n == 0 then -1
    else
      var r := MinIndex(evs, n - 1);
      if !Timed(evs[n - 1]) then r
      else if r < 0 || evs[n - 1].seconds.value < evs[r].seconds.value then n - 1
      else r
  }

  /** The position of a latest timed event among the first `n`, or -1. */
  function MaxIndex(evs: seq<Event>, n: nat): (r: int)
    requires n <= |evs|
    ensures -1 <= r < n
    ensures r < 0 <==> forall i :: 0 <= i < n ==> !Timed(evs[i])
    ensures r >= 0 ==> Timed(evs[r])
    ensures r >= 0 ==> forall i :: 0 <= i < n && Timed(evs[i]) ==> evs[i].seconds.value <= evs[r].seconds.value
  {
    if n == 0 then -1
    else
      var r := MaxIndex(evs, n - 1);
      if !Timed(evs[n - 1]) then r
      else if r < 0 || evs[n - 1].seconds.value > evs[r].seconds.value then n - 1
      else r
  }

  // ---- the event kept for each second --------------------------------------------

  /** The event falls in whole second `t`. */
  predicate AtSecond(e: Event, t: int) {
    e.seconds.Some? && e.seconds.value.Floor == t
  }

  /** Sorting by reading (stably) and keeping the last row puts event `i` after event `j`:
      a later reading, or the same reading further down. */
  predicate KeptOver(evs: seq<Event>, i: nat, j: nat)
    requires i < |evs| && j < |evs| && Timed(evs[i]) && Timed(evs[j])
  {
    evs[i].seconds.value > evs[j].seconds.value || (evs[i].seconds.value == evs[j].seconds.value && i > j)
  }

  /** The event `drop_duplicates(keep='last')` keeps for second `t` among the first `n`, or -1. */
  function WinnerIndex(evs: seq<Event>, t: int, n: nat): (r: int)
    requires n <= |evs|
    ensures -1 <= r < n
    ensures r >= 0 ==> AtSecond(evs[r], t)
    ensures forall j :: 0 <= j < n && AtSecond(evs[j], t) ==> r >= 0 && (j == r || KeptOver(evs, r, j))
  {
    if n == 0 then -1
    else
      var r := WinnerIndex(evs, t, n - 1);
      if !AtSecond(evs[n - 1], t) then r
      else if r < 0 || evs[n - 1].seconds.value >= evs[r].seconds.value then n - 1
      else r
  }

  /** The kept event is the only one in its second that sorts after all the others. */
  lemma {:induction false} WinnerUnique(evs: seq<Event>, t: int, w: nat)
    requires w < |evs| && AtSecond(evs[w], t)
    requires forall j :: 0 <= j < |evs| && AtSecond(evs[j], t) ==> j == w || KeptOver(evs, w, j)
    ensures WinnerIndex(evs, t, |evs|) == w
  {

  }

  // ---- the grid of one observation ------------------------------------------------

  /**
   * The seconds of one observation: `lo` is the whole second of the earliest reading, where the
   * reindexing starts; `start` is 0 when that reading is close to 0 and otherwise the first
   * whole second at or after it (the first label is then flagged); `end` is the whole second
   * of the latest reading, or `start` if that is earlier.
   */
  datatype Span = Span(lo: int, start: int, end: int, flagged: bool, minS: real)

  function GroupSpan(evs: seq<Event>): (r: Option<Span>)
    ensures r.None? <==> forall i :: 0 <= i < |evs| ==> !Timed(evs[i])
    ensures r.Some? ==> r.value.lo <= r.value.start <= r.value.end
  {
    var a := MinIndex(evs, |evs|);
    var b := MaxIndex(evs, |evs|);
    if a < 0 then None
    else
      var minS := evs[a].seconds.value;
      var maxS := evs[b].seconds.value;
      var close := IsClose(minS, 0.0);
      var start := if close then 0 else Ceil(minS);
      var end := if maxS.Floor < start then start else maxS.Floor;
      Some(Span(minS.Floor, start, end, !close, minS))
  }

  /** What the span rule promises in terms of the readings themselves. */
  lemma {:induction false} SpanMeaning(evs: seq<Event>)
    requires GroupSpan(evs).Some?
    ensures var sp := GroupSpan(evs).value;
            && (exists i :: 0 <= i < |evs| && Timed(evs[i]) && evs[i].seconds.value == sp.minS)
            && (forall i :: 0 <= i < |evs| && Timed(evs[i]) ==> sp.minS <= evs[i].seconds.value)
            && sp.lo == sp.minS.Floor
            && (sp.flagged <==> Abs(sp.minS) > Atol)
            && (!sp.flagged ==> sp.start == 0)
            && (sp.flagged ==> (sp.start - 1) as real < sp.minS <= sp.start as real)
            && (forall i :: 0 <= i < |evs| && Timed(evs[i]) ==> evs[i].seconds.value.Floor <= sp.end)
            && (sp.end == sp.start || exists i :: 0 <= i < |evs| && AtSecond(evs[i], sp.end))
  {
    var a := MinIndex(evs, |evs|);
    var b := MaxIndex(evs, |evs|);
    var sp := GroupSpan(evs).value;
    assert evs[a].seconds.value == sp.minS;
    forall i | 0 <= i < |evs| && Timed(evs[i]) ensures evs[i].seconds.value.Floor <= sp.end {
      FloorMono(evs[i].seconds.value, evs[b].seconds.value);
    }
    if sp.end != sp.start {
      assert AtSecond(evs[b], sp.end);
    }
  }

  lemma {:induction false} FloorMono(x: real, y: real)
    requires x <= y
    ensures x.Floor <= y.Floor
  {
    assert x.Floor as real <= y < (y.Floor + 1) as real;
  }

  /** Column `c` at second `t` after `set_index(...).reindex(...)`: the kept event's cell, or
      missing when no event falls in `t`. */
  function CellAt(evs: seq<Event>, t: int, c: nat): Option<Cell> {
    var w := WinnerIndex(evs, t, |evs|);
    if w >= 0 && c < |evs[w].row| then evs[w].row[c] else None
  }

  /** Column `c` reindexed over the seconds `lo..hi`. */
  function Column(evs: seq<Event>, lo: int, hi: int, c: nat): (r: seq<Option<Cell>>)
    requires lo <= hi + 1
    ensures |r| == hi - lo + 1
  {
    seq(hi - lo + 1, k requires 0 <= k < hi - lo + 1 => CellAt(evs, lo + k, c))
  }

  /** The display time of grid row `k`: its second, except a flagged first row, which shows
      the earliest reading plus a hundredth. */
  function Label(sp: Span, k: nat): TimeLabel {
    if k == 0 && sp.flagged then Hundredths(sp.minS + 0.01) else Whole(sp.start + k)
  }

  /** Column `c` at second `t`, after reindexing over the span and forward filling. */
  function FilledAt(evs: seq<Event>, sp: Span, c: nat, t: int): Option<Cell>
    requires sp.lo <= t <= sp.end
  {
    FFill(Column(evs, sp.lo, sp.end, c))[t - sp.lo]
  }

  /** Grid row `k` of an observation with span `sp` and `w` carried columns. */
  function RowAt(obs: string, evs: seq<Event>, sp: Span, w: nat, k: nat): GridRow
    requires sp.lo <= sp.start + k <= sp.end
  {
    GridRow(obs, sp.start + k, Label(sp, k), seq(w, c requires 0 <= c < w => FilledAt(evs, sp, c, sp.start + k)))
  }

  /** The rows of one observation: one per second of its span, none if it has no timed event. */
  function ExpandGroup(obs: string, evs: seq<Event>, w: nat): (r: seq<GridRow>)
    ensures |r| > 0 <==> exists i :: 0 <= i < |evs| && Timed(evs[i])
  {
    match GroupSpan(evs)
    case None => []
    case Some(sp) =>
      seq(sp.end - sp.start + 1, k requires 0 <= k < sp.end - sp.start + 1 => RowAt(obs, evs, sp, w, k))
  }

  lemma {:induction false} GroupRow(obs: string, evs: seq<Event>, w: nat, k: nat)
    requires GroupSpan(evs).Some? && k < |ExpandGroup(obs, evs, w)|
    ensures var sp := GroupSpan(evs).value;
            sp.start + k <= sp.end && ExpandGroup(obs, evs, w)[k] == RowAt(obs, evs, sp, w, k)
  {
  }

  /** The rows of an observation run contiguously from the span's start to its end, one per
      second, each with every carried column. */
  lemma {:induction false} ExpandGroupSeconds(obs: string, evs: seq<Event>, w: nat)
    requires GroupSpan(evs).Some?
    ensures var sp := GroupSpan(evs).value; var r := ExpandGroup(obs, evs, w);
            && |r| == sp.end - sp.start + 1
            && forall k :: 0 <= k < |r| ==> r[k].obs == obs && r[k].second == sp.start + k && |r[k].row| == w
  {
    var r := ExpandGroup(obs, evs, w);
    forall k | 0 <= k < |r| ensures r[k].obs == obs && r[k].second == GroupSpan(evs).value.start + k && |r[k].row| == w {
      GroupRow(obs, evs, w, k);
    }
  }

  /** Row `k` shows second `start + k`, its label, and in each column the forward-filled cell
      at that second. */
  lemma {:induction false} GroupCell(obs: string, evs: seq<Event>, w: nat, k: nat, c: nat)
    requires GroupSpan(evs).Some? && k < |ExpandGroup(obs, evs, w)| && c < w
    ensures var sp := GroupSpan(evs).value; var row := ExpandGroup(obs, evs, w)[k];
            && sp.start + k <= sp.end
            && row.second == sp.start + k
            && row.time == Label(sp, k)
            && row.row[c] == FilledAt(evs, sp, c, sp.start + k)
  {
    GroupRow(obs, evs, w, k);
  }

  lemma {:induction false} ColumnAt(evs: seq<Event>, sp: Span, c: nat, u: int)
    requires sp.lo <= u <= sp.end
    ensures Column(evs, sp.lo, sp.end, c)[u - sp.lo] == CellAt(evs, u, c)
  {
  }

  /**
   * A filled cell comes from the event kept at some second `s` between the start of the
   * reindexing and `t`, and no second after `s` up to `t` has a value in that column.
   */
  lemma {:induction false} FilledFromPast(evs: seq<Event>, sp: Span, c: nat, t: int) returns (s: int)
    requires sp.lo <= t <= sp.end && FilledAt(evs, sp, c, t).Some?
    ensures sp.lo <= s <= t && CellAt(evs, s, c) == FilledAt(evs, sp, c, t)
    ensures forall u :: s < u <= t ==> CellAt(evs, u, c).None?
  {
    var col := Column(evs, sp.lo, sp.end, c);
    var j := FFillLatest(col, t - sp.lo);
    s := sp.lo + j;
    ColumnAt(evs, sp, c, s);
    forall u | s < u <= t ensures CellAt(evs, u, c).None? {
      ColumnAt(evs, sp, c, u);
    }
  }

  /** When the event kept at second `t` has a value in a column, the filled cell is that value. */
  lemma {:induction false} FilledOwnSecond(evs: seq<Event>, sp: Span, c: nat, t: int)
    requires sp.lo <= t <= sp.end && CellAt(evs, t, c).Some?
    ensures FilledAt(evs, sp, c, t) == CellAt(evs, t, c)
  {
    ColumnAt(evs, sp, c, t);
    FFillKeeps(Column(evs, sp.lo, sp.end, c), t - sp.lo);
  }

  /** A filled cell is missing iff no second from the start of the reindexing up to `t` has a
      value in that column. */
  lemma {:induction false} FilledMissing(evs: seq<Event>, sp: Span, c: nat, t: int)
    requires sp.lo <= t <= sp.end
    ensures FilledAt(evs, sp, c, t).None? <==> forall u :: sp.lo <= u <= t ==> CellAt(evs, u, c).None?
  {
    var col := Column(evs, sp.lo, sp.end, c);
    FFillSpec(col);
    forall u | sp.lo <= u <= t ensures col[u - sp.lo] == CellAt(evs, u, c) {
      ColumnAt(evs, sp, c, u);
    }
    assert forall j :: 0 <= j <= t - sp.lo ==> col[j] == CellAt(evs, sp.lo + j, c);
  }

  /** Every unflagged label reads back, through the time parser, as its own second. */
  lemma {:induction false} LabelReadsBack(sp: Span, k: nat, n: int)
    requires (k > 0 || !sp.flagged) && n == sp.start + k
    ensures ParseSeconds(LabelText(Label(sp, k))) == Some(n as real)
  {
    WholeReadsBack(Label(sp, k), n);
  }

  /** As the code writes them, the unflagged labels of a grid starting at or after zero read
      back to their seconds too. */
  lemma {:induction false} LabelReadsBackAsWritten(sp: Span, k: nat, n: int)
    requires (k > 0 || !sp.flagged) && n == sp.start + k && sp.start >= 0
    ensures ParseSeconds(LabelTextAsWritten(Label(sp, k))) == Some(n as real)
  {
    LabelReadsBack(sp, k, n);
    LabelTextAgrees(Label(sp, k));
  }

  lemma {:induction false} WholeReadsBack(l: TimeLabel, n: int)
    requires l == Whole(n)
    ensures ParseSeconds(LabelText(l)) == Some(n as real)
  {
    SignedWholeRoundTrip(n);
  }

  /** A flagged first label reads back as the earliest reading plus a hundredth, rounded to
      hundredths. */
  lemma {:induction false} FlaggedLabelReadsBack(sp: Span, x: real)
    requires sp.flagged && x == sp.minS + 0.01
    ensures ParseSeconds(LabelText(Label(sp, 0))) == Some(RoundHalfEven(x * 100.0) as real / 100.0)
  {
    HundredthsReadsBack(Label(sp, 0), x);
  }

  lemma {:induction false} HundredthsReadsBack(l: TimeLabel, x: real)
    requires l == Hundredths(x)
    ensures ParseSeconds(LabelText(l)) == Some(RoundHalfEven(x * 100.0) as real / 100.0)
  {
    SignedHundredthsRoundTrip(x);
  }

  // ---- the whole track --------------------------------------------------------------

  /** The observations of the first `n` events, in order of first appearance
      (`groupby(..., sort=False)`). */
  function ObsOrder(evs: seq<Event>, n: nat): (r: seq<string>)
    requires n <= |evs|
    ensures forall i :: 0 <= i < n ==> evs[i].obs in r
    ensures forall o :: o in r ==> exists i :: 0 <= i < n && evs[i].obs == o
    ensures forall a, b :: 0 <= a < b < |r| ==> r[a] != r[b]
  {
    if n == 0 then []
    else
      var r := ObsOrder(evs, n - 1);
      if evs[n - 1].obs in r then r else r + [evs[n - 1].obs]
  }

  /** The events of observation `o`, in their original order. */
  function OfObs(evs: seq<Event>, o: string): (r: seq<Event>)
    ensures forall i :: 0 <= i < |r| ==> r[i].obs == o
    ensures |r| <= |evs|
  {
    if |evs| == 0 then []
    else if evs[0].obs == o then [evs[0]] + OfObs(evs[1..], o)
    else OfObs(evs[1..], o)
  }

  /** The expansion of each listed observation, in order. */
  function Groups(order: seq<string>, evs: seq<Event>, w: nat): (gs: seq<seq<GridRow>>)
    ensures |gs| == |order|
  {
    seq(|order|, i requires 0 <= i < |order| => ExpandGroup(order[i], OfObs(evs, order[i]), w))
  }

  function Concat(gs: seq<seq<GridRow>>): seq<GridRow> {
    if |gs| == 0 then [] else gs[0] + Concat(gs[1..])
  }

  /** The expansions of the listed observations, concatenated. */
  function ExpandAll(order: seq<string>, evs: seq<Event>, w: nat): seq<GridRow> {
    Concat(Groups(order, evs, w))
  }

  /** `expand_track_to_seconds`: every observation with a timed event, in order of first
      appearance, expanded to one row per second. */
  function ExpandTrack(evs: seq<Event>, w: nat): seq<GridRow>
  {
    ExpandAll(ObsOrder(evs, |evs|), evs, w)
  }

  /** Rows of one observation come in strictly increasing seconds. */
  predicate SecondsIncreasing(r: seq<GridRow>) {
    forall a, b :: 0 <= a < b < |r| && r[a].obs == r[b].obs ==> r[a].second < r[b].second
  }

  /** The rows of one observation, then rows of other observations: still increasing. */
  lemma {:induction false} PrependGroup(g: seq<GridRow>, rest: seq<GridRow>, o: string)
    requires forall k :: 0 <= k < |g| ==> g[k].obs == o && g[k].second == g[0].second + k
    requires forall k :: 0 <= k < |rest| ==> rest[k].obs != o
    requires SecondsIncreasing(rest)
    ensures SecondsIncreasing(g + rest)
  {
    var r := g + rest;
    assert forall k :: 0 <= k < |g| ==> r[k] == g[k];
    assert forall k :: |g| <= k < |r| ==> r[k] == rest[k - |g|];
    forall a, b | 0 <= a < b < |r| && r[a].obs == r[b].obs ensures r[a].second < r[b].second {
      if b < |g| {
      } else if a >= |g| {
      } else {
        assert false;
      }
    }
  }

  /** Group `i` holds rows of observation `order[i]` only, at consecutive seconds, each with
      `w` columns. */
  predicate Shaped(gs: seq<seq<GridRow>>, order: seq<string>, w: nat)
    requires |gs| == |order|
  {
    forall i, k :: 0 <= i < |gs| && 0 <= k < |gs[i]| ==>
      gs[i][k].obs == order[i] && gs[i][k].second == gs[i][0].second + k && |gs[i][k].row| == w
  }

  lemma {:induction false} GroupsShaped(order: seq<string>, evs: seq<Event>, w: nat)
    ensures Shaped(Groups(order, evs, w), order, w)
  {
    var gs: seq<seq<GridRow>> := Groups(order, evs, w);
    forall i: int | 0 <= i < |gs|
      ensures forall k: int :: 0 <= k < |gs[i]| ==>
                gs[i][k].obs == order[i] && gs[i][k].second == gs[i][0].second + k && |gs[i][k].row| == w
    {
      if |gs[i]| > 0 {
        ExpandGroupSeconds(order[i], OfObs(evs, order[i]), w);
      }
    }
  }

  lemma {:induction false} ConcatRows(gs: seq<seq<GridRow>>, order: seq<string>, w: nat)
    requires |gs| == |order| && Shaped(gs, order, w)
    ensures forall k :: 0 <= k < |Concat(gs)| ==> Concat(gs)[k].obs in order && |Concat(gs)[k].row| == w
    decreases |gs|
  {
    if |gs| > 0 {
      var rest := Concat(gs[1..]);
      assert forall i :: 0 <= i < |gs| - 1 ==> gs[1..][i] == gs[i + 1];
      ConcatRows(gs[1..], order[1..], w);
      assert Concat(gs) == gs[0] + rest;
      assert forall k :: |gs[0]| <= k < |Concat(gs)| ==> Concat(gs)[k] == rest[k - |gs[0]|];
    }
  }

  lemma {:induction false} ConcatIncreasing(gs: seq<seq<GridRow>>, order: seq<string>, w: nat)
    requires |gs| == |order| && Shaped(gs, order, w)
    requires forall a, b :: 0 <= a < b < |order| ==> order[a] != order[b]
    ensures SecondsIncreasing(Concat(gs))
    decreases |gs|
  {
    if |gs| > 0 {
      var rest := Concat(gs[1..]);
      assert forall i :: 0 <= i < |gs| - 1 ==> gs[1..][i] == gs[i + 1];
      ConcatIncreasing(gs[1..], order[1..], w);
      ConcatRows(gs[1..], order[1..], w);
      assert order[0] !in order[1..];
      assert forall k :: 0 <= k < |gs[0]| ==> gs[0][k].obs == order[0] && gs[0][k].second == gs[0][0].second + k;
      PrependGroup(gs[0], rest, order[0]);
    }
  }

  /** Every expanded row belongs to one of the listed observations and carries every column;
      the rows of each observation come in strictly increasing seconds. */
  lemma {:induction false} ExpandAllShape(order: seq<string>, evs: seq<Event>, w: nat)
    requires forall a, b :: 0 <= a < b < |order| ==> order[a] != order[b]
    ensures forall k :: 0 <= k < |ExpandAll(order, evs, w)| ==>
              ExpandAll(order, evs, w)[k].obs in order && |ExpandAll(order, evs, w)[k].row| == w
    ensures SecondsIncreasing(ExpandAll(order, evs, w))
  {
    GroupsShaped(order, evs, w);
    ConcatRows(Groups(order, evs, w), order, w);
    ConcatIncreasing(Groups(order, evs, w), order, w);
  }

  /** No (observation, second) pair occurs twice in an expanded track, so the merge of the two
      tracks pairs at most one row of each. */
  lemma {:induction false} ExpandTrackKeysDistinct(evs: seq<Event>, w: nat)
    ensures SecondsIncreasing(ExpandTrack(evs, w))
  {
    ExpandAllShape(ObsOrder(evs, |evs|), evs, w);
  }

  /** Some event of observation `o` has a parsed time. */
  predicate TimedIn(evs: seq<Event>, o: string) {
    exists i :: 0 <= i < |evs| && evs[i].obs == o && Timed(evs[i])
  }

  predicate AnyTimed(evs: seq<Event>) {
    exists i :: 0 <= i < |evs| && Timed(evs[i])
  }

  lemma {:induction false} TimedInStep(evs: seq<Event>, o: string)
    requires |evs| > 0
    ensures TimedIn(evs, o) <==> (evs[0].obs == o && Timed(evs[0])) || TimedIn(evs[1..], o)
  {
    if TimedIn(evs[1..], o) {
      var i :| 0 <= i < |evs[1..]| && evs[1..][i].obs == o && Timed(evs[1..][i]);
      assert evs[i + 1] == evs[1..][i];
    }
    if TimedIn(evs, o) && !(evs[0].obs == o && Timed(evs[0])) {
      var i :| 0 <= i < |evs| && evs[i].obs == o && Timed(evs[i]);
      assert evs[1..][i - 1] == evs[i];
    }
  }

  lemma {:induction false} AnyTimedCons(e: Event, rest: seq<Event>)
    ensures AnyTimed([e] + rest) <==> Timed(e) || AnyTimed(rest)
  {
    var r := [e] + rest;
    assert r[0] == e;
    if AnyTimed(rest) {
      var k :| 0 <= k < |rest| && Timed(rest[k]);
      assert r[k + 1] == rest[k];
    }
    if AnyTimed(r) && !Timed(e) {
      var k :| 0 <= k < |r| && Timed(r[k]);
      assert rest[k - 1] == r[k];
    }
  }

  /** The events of `o` include a timed one exactly when the track has a timed event of `o`. */
  lemma {:induction false} OfObsTimed(evs: seq<Event>, o: string)
    ensures AnyTimed(OfObs(evs, o)) <==> TimedIn(evs, o)
    decreases |evs|
  {
    if |evs| > 0 {
      OfObsTimed(evs[1..], o);
      TimedInStep(evs, o);
      if evs[0].obs == o {
        AnyTimedCons(evs[0], OfObs(evs[1..], o));
      }
    }
  }

  /** Concatenated groups are empty exactly when every group is. */
  lemma {:induction false} ConcatEmpty(gs: seq<seq<GridRow>>)
    ensures |Concat(gs)| == 0 <==> forall i :: 0 <= i < |gs| ==> |gs[i]| == 0
    decreases |gs|
  {
    if |gs| > 0 {
      ConcatEmpty(gs[1..]);
      assert forall i :: 1 <= i < |gs| ==> gs[i] == gs[1..][i - 1];
    }
  }

  /** A track expands to no rows at all (the code's `pd.DataFrame()`) exactly when none of its
      events has a parsed time. */
  lemma {:induction false} ExpandTrackEmpty(evs: seq<Event>, w: nat)
    ensures |ExpandTrack(evs, w)| == 0 <==> !AnyTimed(evs)
  {
    var order := ObsOrder(evs, |evs|);
    var gs := Groups(order, evs, w);
    ConcatEmpty(gs);
    if AnyTimed(evs) {
      var i :| 0 <= i < |evs| && Timed(evs[i]);
      var o := evs[i].obs;
      assert o in order;
      var j :| 0 <= j < |order| && order[j] == o;
      assert TimedIn(evs, o);
      OfObsTimed(evs, o);
      assert |gs[j]| > 0;
    } else {
      forall j | 0 <= j < |order| ensures |gs[j]| == 0 {
        OfObsTimed(evs, order[j]);
      }
    }
  }
}

=== FILE: fill.dfy ===
/** The carry-forward idioms of the pipeline, on one column: `groupby(key)[col].ffill()`,
    `.bfill()`, and the stabilisation `ffill().fillna(bfill())`. A column is a sequence of
    optional cells, with a parallel sequence of group keys. */
module Fill {
  import opened Options

  /** The position of the latest present cell of group `k` among the first `n`, or -1. */
  function LastIndexInGroup<K(==), T>(keys: seq<K>, vals: seq<Option<T>>, k: K, n: nat): (r: int)
    requires n <= |keys| == |vals|
    ensures -1 <= r < n
    ensures r >= 0 ==> keys[r] == k && vals[r].Some?
    ensures forall m :: r < m < n && keys[m] == k ==> vals[m].None?
  {
    if n == 0 then -1
    else if keys[n - 1] == k && vals[n - 1].Some? then n - 1
    else LastIndexInGroup(keys, vals, k, n - 1)
  }

  /** The latest present value among the first `n` cells of group `k`. */
  function LastInGroup<K(==), T>(keys: seq<K>, vals: seq<Option<T>>, k: K, n: nat): (r: Option<T>)
    requires n <= |keys| == |vals|
    ensures r.None? <==> forall j :: 0 <= j < n && keys[j] == k ==> vals[j].None?
  {
    var j := LastIndexInGroup(keys, vals, k, n);
    if j < 0 then None else vals[j]
  }

  /** The position of the earliest present cell of group `k` from position `n` on, or `|vals|`. */
  function FirstIndexInGroup<K(==), T>(keys: seq<K>, vals: seq<Option<T>>, k: K, n: nat): (r: nat)
    requires n <= |keys| == |vals|
    ensures n <= r <= |vals|
    ensures r < |vals| ==> keys[r] == k && vals[r].Some?
    ensures forall m :: n <= m < r && keys[m] == k ==> vals[m].None?
    decreases |vals| - n
  {
    if n == |vals| then n
    else if keys[n] == k && vals[n].Some? then n
    else FirstIndexInGroup(keys, vals, k, n + 1)
  }

  /** The earliest present value among the cells of group `k` from position `n` on. */
  function FirstInGroup<K(==), T>(keys: seq<K>, vals: seq<Option<T>>, k: K, n: nat): (r: Option<T>)
    requires n <= |keys| == |vals|
    ensures r.None? <==> forall j :: n <= j < |vals| && keys[j] == k ==> vals[j].None?
  {
    var j := FirstIndexInGroup(keys, vals, k, n);
    if j == |vals| then None else vals[j]
  }

  /** `groupby(keys)[col].ffill()`: every missing cell takes the latest earlier present value
      of its own group (`GroupFFillSpec`, `GroupFFillLatest`). */
  function GroupFFill<K(==), T>(keys: seq<K>, vals: seq<Option<T>>): (r: seq<Option<T>>)
    requires |keys| == |vals|
    ensures |r| == |vals|
  {
    seq(|vals|, i requires 0 <= i < |vals| => LastInGroup(keys, vals, keys[i], i + 1))
  }

  /** Present cells are kept, and a cell stays missing iff its group has no present value up
      to it. */
  lemma {:induction false} GroupFFillSpec<K, T>(keys: seq<K>, vals: seq<Option<T>>)
    requires |keys| == |vals|
    ensures var r := GroupFFill(keys, vals);
            && (forall i :: 0 <= i < |vals| && vals[i].Some? ==> r[i] == vals[i])
            && (forall i :: 0 <= i < |vals| ==>
                  (r[i].None? <==> forall j :: 0 <= j <= i && keys[j] == keys[i] ==> vals[j].None?))
  {
  }

  /** `groupby(keys)[col].bfill()`: the mirror image of `GroupFFill` (`GroupBFillSpec`). */
  function GroupBFill<K(==), T>(keys: seq<K>, vals: seq<Option<T>>): (r: seq<Option<T>>)
    requires |keys| == |vals|
    ensures |r| == |vals|
  {
    seq(|vals|, i requires 0 <= i < |vals| => FirstInGroup(keys, vals, keys[i], i))
  }

  /** Present cells are kept, and a cell stays missing iff its group has no present value from
      it on. */
  lemma {:induction false} GroupBFillSpec<K, T>(keys: seq<K>, vals: seq<Option<T>>)
    requires |keys| == |vals|
    ensures var r := GroupBFill(keys, vals);
            && (forall i :: 0 <= i < |vals| && vals[i].Some? ==> r[i] == vals[i])
            && (forall i :: 0 <= i < |vals| ==>
                  (r[i].None? <==> forall j :: i <= j < |vals| && keys[j] == keys[i] ==> vals[j].None?))
  {
  }

  /** The stabilisation pass `ffill` then `fillna(bfill)` within each group
      (`GroupStabilizeSpec`). */
  function GroupStabilize<K(==), T>(keys: seq<K>, vals: seq<Option<T>>): (r: seq<Option<T>>)
    requires |keys| == |vals|
    ensures |r| == |vals|
  {
    var f := GroupFFill(keys, vals);
    var b := GroupBFill(keys, vals);
    seq(|vals|, i requires 0 <= i < |vals| => Coalesce(f[i], b[i]))
  }

  /** Present cells are kept, and a cell stays missing iff its whole group is missing. */
  lemma {:induction false} GroupStabilizeSpec<K, T>(keys: seq<K>, vals: seq<Option<T>>)
    requires |keys| == |vals|
    ensures var r := GroupStabilize(keys, vals);
            && (forall i :: 0 <= i < |vals| && vals[i].Some? ==> r[i] == vals[i])
            && (forall i :: 0 <= i < |vals| ==>
                  (r[i].None? <==> forall j :: 0 <= j < |vals| && keys[j] == keys[i] ==> vals[j].None?))
  {
    var r := GroupStabilize(keys, vals);
    var f := GroupFFill(keys, vals);
    var b := GroupBFill(keys, vals);
    GroupFFillSpec(keys, vals);
    GroupBFillSpec(keys, vals);
    forall i | 0 <= i < |vals|
      ensures r[i].None? <==> forall j :: 0 <= j < |vals| && keys[j] == keys[i] ==> vals[j].None?
    {
      assert r[i] == Coalesce(f[i], b[i]);
      if r[i].None? {
        forall j | 0 <= j < |vals| && keys[j] == keys[i] ensures vals[j].None? {
          if j <= i {
            assert f[i].None?;
          } else {
            assert b[i].None?;
          }
        }
      }
    }
  }

  /** A stabilised cell holds a value of its own group; the lemma returns its position. */
  lemma {:induction false} GroupStabilizeFrom<K, T>(keys: seq<K>, vals: seq<Option<T>>, i: nat) returns (j: nat)
    requires |keys| == |vals| && i < |vals| && GroupStabilize(keys, vals)[i].Some?
    ensures j < |vals| && keys[j] == keys[i] && vals[j] == GroupStabilize(keys, vals)[i]
  {
    var f := GroupFFill(keys, vals);
    var b := GroupBFill(keys, vals);
    assert GroupStabilize(keys, vals)[i] == Coalesce(f[i], b[i]);
    if f[i].Some? {
      j := GroupFFillLatest(keys, vals, i);
    } else {
      assert b[i] == FirstInGroup(keys, vals, keys[i], i);
      j := FirstIndexInGroup(keys, vals, keys[i], i);
    }
  }

  /** Forward-filling an already forward-filled column changes nothing. */
  lemma {:induction false} GroupFFillIdempotent<K, T>(keys: seq<K>, vals: seq<Option<T>>)
    requires |keys| == |vals|
    ensures GroupFFill(keys, GroupFFill(keys, vals)) == GroupFFill(keys, vals)
  {
    var r := GroupFFill(keys, vals);
    var rr := GroupFFill(keys, r);
    GroupFFillSpec(keys, vals);
    GroupFFillSpec(keys, r);
    forall i | 0 <= i < |vals| ensures rr[i] == r[i] {
      if r[i].None? {
        forall j | 0 <= j <= i && keys[j] == keys[i] ensures r[j].None? {
          assert forall m :: 0 <= m <= j && keys[m] == keys[j] ==> vals[m].None?;
        }
      }
    }
  }

  /** Back-filling an already back-filled column changes nothing. */
  lemma {:induction false} GroupBFillIdempotent<K, T>(keys: seq<K>, vals: seq<Option<T>>)
    requires |keys| == |vals|
    ensures GroupBFill(keys, GroupBFill(keys, vals)) == GroupBFill(keys, vals)
  {
    var r := GroupBFill(keys, vals);
    var rr := GroupBFill(keys, r);
    GroupBFillSpec(keys, vals);
    GroupBFillSpec(keys, r);
    forall i | 0 <= i < |vals| ensures rr[i] == r[i] {
      if r[i].None? {
        forall j | i <= j < |vals| && keys[j] == keys[i] ensures r[j].None? {
          assert forall m :: j <= m < |vals| && keys[m] == keys[j] ==> vals[m].None?;
        }
      }
    }
  }

  /** Re-applying the stabilisation pass changes nothing. */
  lemma {:induction false} GroupStabilizeIdempotent<K, T>(keys: seq<K>, vals: seq<Option<T>>)
    requires |keys| == |vals|
    ensures GroupStabilize(keys, GroupStabilize(keys, vals)) == GroupStabilize(keys, vals)
  {
    var r := GroupStabilize(keys, vals);
    var rr := GroupStabilize(keys, r);
    GroupStabilizeSpec(keys, vals);
    GroupStabilizeSpec(keys, r);
    forall i | 0 <= i < |vals| ensures rr[i] == r[i] {
      if r[i].None? {
        forall j | 0 <= j < |vals| && keys[j] == keys[i] ensures r[j].None? {
          assert forall m :: 0 <= m < |vals| && keys[m] == keys[j] ==> vals[m].None?;
        }
      }
    }
  }

  /** The single group of an ungrouped column. */
  function OneGroup(n: nat): (keys: seq<()>)
    ensures |keys| == n
  {
    seq(n, _ => ())
  }

  /** Ungrouped `.bfill()` (`BFillSpec`). */
  function BFill<T>(vals: seq<Option<T>>): (r: seq<Option<T>>)
    ensures |r| == |vals|
  {
    GroupBFill(OneGroup(|vals|), vals)
  }

  /** Present cells are kept, and a cell stays missing iff no later cell is present. */
  lemma {:induction false} BFillSpec<T>(vals: seq<Option<T>>)
    ensures var r := BFill(vals);
            && (forall i :: 0 <= i < |vals| && vals[i].Some? ==> r[i] == vals[i])
            && (forall i :: 0 <= i < |vals| ==> (r[i].None? <==> forall j :: i <= j < |vals| ==> vals[j].None?))
  {
    GroupBFillSpec(OneGroup(|vals|), vals);
  }

  /** Ungrouped `.ffill()` (`FFillSpec`, `FFillLatest`). */
  function FFill<T>(vals: seq<Option<T>>): (r: seq<Option<T>>)
    ensures |r| == |vals|
  {
    GroupFFill(OneGroup(|vals|), vals)
  }

  /** Present cells are kept, and a cell stays missing iff no earlier cell is present. */
  lemma {:induction false} FFillSpec<T>(vals: seq<Option<T>>)
    ensures var r := FFill(vals);
            && (forall i :: 0 <= i < |vals| && vals[i].Some? ==> r[i] == vals[i])
            && (forall i :: 0 <= i < |vals| ==> (r[i].None? <==> forall j :: 0 <= j <= i ==> vals[j].None?))
  {
    GroupFFillSpec(OneGroup(|vals|), vals);
  }

  /** A present cell survives forward filling. */
  lemma {:induction false} FFillKeeps<T>(vals: seq<Option<T>>, i: nat)
    requires i < |vals| && vals[i].Some?
    ensures FFill(vals)[i] == vals[i]
  {
    FFillSpec(vals);
  }

  /** A forward-filled cell holds the latest present value of its group at or before it; the
      lemma returns the position of that value. */
  lemma {:induction false} GroupFFillLatest<K, T>(keys: seq<K>, vals: seq<Option<T>>, i: nat) returns (j: nat)
    requires |keys| == |vals| && i < |vals|
    requires GroupFFill(keys, vals)[i].Some?
    ensures j <= i && keys[j] == keys[i] && vals[j] == GroupFFill(keys, vals)[i]
    ensures forall m :: j < m <= i && keys[m] == keys[i] ==> vals[m].None?
  {
    var r := LastIndexInGroup(keys, vals, keys[i], i + 1);
    GroupFFillAt(keys, vals, i);
    j := r;
  }

  lemma {:induction false} GroupFFillAt<K, T>(keys: seq<K>, vals: seq<Option<T>>, i: nat)
    requires |keys| == |vals| && i < |vals|
    ensures GroupFFill(keys, vals)[i] == LastInGroup(keys, vals, keys[i], i + 1)
  {
  }

  /** The ungrouped form of `GroupFFillLatest`. */
  lemma {:induction false} FFillLatest<T>(vals: seq<Option<T>>, i: nat) returns (j: nat)
    requires i < |vals| && FFill(vals)[i].Some?
    ensures j <= i && vals[j] == FFill(vals)[i] && forall m :: j < m <= i ==> vals[m].None?
  {
    var keys := OneGroup(|vals|);
    j := GroupFFillLatest(keys, vals, i);
    assert forall m :: j < m <= i ==> keys[m] == keys[i];
  }
}

=== FILE: labels.dfy ===
/**
 * Behaviour labels: the normaliser shared by classification and encoding, and the split of
 * labels into the activity track, the posture track and everything else.
 */
module Labels {
  import opened Options
  import opened Text

  /** The track a behaviour event belongs to. */
  datatype Track = Activity | Posture | Other

  const EnDash: char := '–'
  const EmDash: char := '—'

  /**
   * The normalised label: outer whitespace stripped, lower-cased, en and em dashes turned
   * into hyphens, and every run of whitespace collapsed to one space.
   */
  function NormText(s: string): string
  {
    CollapseTo(ReplaceChar(ReplaceChar(Lower(Strip(s)), EnDash, '-'), EmDash, '-'), ' ')
  }

  /** A missing label stays missing; any other label is normalised. */
  function Normalize(v: Option<string>): (r: Option<string>)
    ensures r.None? <==> v.None?
    ensures v.Some? ==> r == Some(NormText(v.value))
  {
    match v
    case None => None
    case Some(s) => Some(NormText(s))
  }

  /** The shape every normalised label has. */
  predicate IsNormal(t: string) {
    && (|t| > 0 ==> !IsSpace(t[0]) && !IsSpace(t[|t| - 1]))
    && NoUpper(t)
    && EnDash !in t && EmDash !in t
    && Collapsed(t)
  }

  lemma {:induction false} NormTextIsNormal(s: string)
    ensures IsNormal(NormText(s))
  {
    var a := Strip(s);
    LowerNoUpper(a);
    LowerEdges(a);
    var d := ReplaceChar(ReplaceChar(Lower(a), EnDash, '-'), EmDash, '-');
    DashesReplaced(Lower(a));
    CollapsedIsNormal(d);
  }

  /** Replacing both dashes removes them and keeps the other properties of a lower-cased,
      stripped label. */
  lemma {:induction false} DashesReplaced(b: string)
    requires NoUpper(b) && (|b| > 0 ==> !IsSpace(b[0]) && !IsSpace(b[|b| - 1]))
    ensures var d := ReplaceChar(ReplaceChar(b, EnDash, '-'), EmDash, '-');
            && NoUpper(d) && EnDash !in d && EmDash !in d
            && (|d| > 0 ==> !IsSpace(d[0]) && !IsSpace(d[|d| - 1]))
  {
    var c := ReplaceChar(b, EnDash, '-');
    ReplaceCharFacts(b, EnDash, '-');
    ReplaceCharFacts(c, EmDash, '-');
  }

  /** Collapsing whitespace in such a label yields a label in normal form. */
  lemma {:induction false} CollapsedIsNormal(d: string)
    requires NoUpper(d) && EnDash !in d && EmDash !in d
    requires |d| > 0 ==> !IsSpace(d[0]) && !IsSpace(d[|d| - 1])
    ensures IsNormal(CollapseTo(d, ' '))
  {
    CollapseIsCollapsed(d);
    CollapseNoUpper(d, ' ');
    CollapseNoNew(d, ' ', EnDash);
    CollapseNoNew(d, ' ', EmDash);
    CollapseHead(d, ' ');
    if |d| > 0 {
      CollapseLast(d, ' ');
    }
  }

  /** A label already in normal form is left unchanged by the normaliser. */
  lemma {:induction false} NormalFixed(t: string)
    requires IsNormal(t)
    ensures NormText(t) == t
  {
    StripFixed(t);
    LowerFixed(t);
    ReplaceCharFixed(t, EnDash, '-');
    ReplaceCharFixed(t, EmDash, '-');
    CollapseFixed(t);
  }

  /** Normalising twice is normalising once. */
  lemma {:induction false} NormTextIdempotent(s: string)
    ensures NormText(NormText(s)) == NormText(s)
  {
    NormTextIsNormal(s);
    NormalFixed(NormText(s));
  }

  /** The label prefixes of the activity domains. */
  const DomainPrefixes: seq<string> :=
    ["sl-", "pc-", "ha-", "ca-", "wrk-", "edu-", "org-", "pur-", "eat-", "les-", "ex-", "trav-", "other-"]

  /** The label prefixes of the postures. */
  const PosturePrefixes: seq<string> := ["sb-", "la-", "wa-", "sp-"]

  predicate AnyPrefix(ps: seq<string>, s: string) {
    exists i :: 0 <= i < |ps| && StartsWith(ps[i], s)
  }

  /**
   * The track of a behaviour label: a missing or empty normalised label is other, a domain
   * prefix makes it an activity, a posture prefix (checked only after the domains) a posture.
   */
  function ClassifyBehavior(v: Option<string>): (r: Track)
    ensures r == Activity <==> v.Some? && AnyPrefix(DomainPrefixes, NormText(v.value))
    ensures r == Posture <==>
              v.Some? && !AnyPrefix(DomainPrefixes, NormText(v.value)) && AnyPrefix(PosturePrefixes, NormText(v.value))
  {
    match Normalize(v)
    case None => Other
    case Some(n) =>
      if n == "" then Other
      else if AnyPrefix(DomainPrefixes, n) then Activity
      else if AnyPrefix(PosturePrefixes, n) then Posture
      else Other
  }

  /** A label that starts with one of the prefixes shares that prefix's first two characters. */
  lemma {:induction false} PrefixHead(ps: seq<string>, s: string) returns (i: nat)
    requires AnyPrefix(ps, s)
    requires forall j :: 0 <= j < |ps| ==> |ps[j]| >= 2
    ensures i < |ps| && |s| >= 2 && s[0] == ps[i][0] && s[1] == ps[i][1]
  {
    i :| 0 <= i < |ps| && StartsWith(ps[i], s);
    assert s[..|ps[i]|][0] == s[0] && s[..|ps[i]|][1] == s[1];
  }

  /** The first two characters of the domain prefixes that share a first character with a
      posture prefix. */
  lemma {:induction false} DomainHeads(i: nat)
    requires i < |DomainPrefixes|
    ensures var p := DomainPrefixes[i];
            (p[0] == 's' ==> p[1] == 'l') && (p[0] == 'l' ==> p[1] == 'e') && (p[0] == 'w' ==> p[1] == 'r')
  {
    assert i in {0, 1, 2, 3, 4, 5, 6, 7, 8, 9, 10, 11, 12};
  }

  lemma {:induction false} PostureHeads(j: nat)
    requires j < |PosturePrefixes|
    ensures var p := PosturePrefixes[j];
            (p[0] == 's' && (p[1] == 'b' || p[1] == 'p')) || (p[0] == 'l' && p[1] == 'a') || (p[0] == 'w' && p[1] == 'a')
  {
    assert j in {0, 1, 2, 3};
  }

  /** No label starts with both a domain prefix and a posture prefix, so the order in which the
      prefix sets are searched does not matter. */
  lemma {:induction false} PrefixesDisjoint(s: string)
    ensures !(AnyPrefix(DomainPrefixes, s) && AnyPrefix(PosturePrefixes, s))
  {
    if AnyPrefix(DomainPrefixes, s) && AnyPrefix(PosturePrefixes, s) {
      var i := PrefixHead(DomainPrefixes, s);
      var j := PrefixHead(PosturePrefixes, s);
      DomainHeads(i);
      PostureHeads(j);
      assert false;
    }
  }

  /** Classifying a label and classifying its normal form give the same track. */
  lemma {:induction false} ClassifyNormalized(s: string)
    ensures ClassifyBehavior(Some(NormText(s))) == ClassifyBehavior(Some(s))
  {
    NormTextIdempotent(s);
  }
}

=== FILE: merge.dfy ===
/**
 * The split of the event table into the activity and posture tracks, and the full outer merge
 * of their per-second expansions on (Observation, second), with the observation metadata
 * (`id`, `do`, `Time_Relative_hms_new`, `start_time_new`) filled over each observation.
 */
module Merge {
  import opened Options
  import opened Text
  import opened Order
  import opened Fill
  import opened Labels
  import opened Expand

  /** Positions of the carried columns in an event row. */
  const BehaviorCol: nat := 0
  const Modifier1Col: nat := 1
  const Modifier2Col: nat := 2
  const Modifier3Col: nat := 3
  const StartTimeCol: nat := 4
  const IdCol: nat := 5
  const DoCol: nat := 6
  const Width: nat := 7

  /** `str(value)` of a cell. */
  function CellText(c: Cell): string {
    match c
    case Str(s) => s
    case Num(n) => if n < 0 then "-" + NatToString(-n) else NatToString(n)
  }

  function TextOf(c: Option<Cell>): Option<string> {
    match c
    case None => None
    case Some(x) => Some(CellText(x))
  }

  /** Column `c` of a row; a column the row lacks reads as missing. */
  function Get(row: seq<Option<Cell>>, c: nat): Option<Cell> {
    if c < |row| then row[c] else None
  }

  // ---- the split -------------------------------------------------------------------

  /** `_classify_behavior` of an event's Behavior cell. */
  function TrackOf(e: Event): Track {
    ClassifyBehavior(TextOf(Get(e.row, BehaviorCol)))
  }

  /** `df[df['_track'] == tr]`: the events of one track, in their original order. */
  function TrackEvents(evs: seq<Event>, tr: Track): (r: seq<Event>)
    ensures forall e :: e in r <==> e in evs && TrackOf(e) == tr
    ensures |r| <= |evs|
  {
    if |evs| == 0 then []
    else if TrackOf(evs[0]) == tr then [evs[0]] + TrackEvents(evs[1..], tr)
    else TrackEvents(evs[1..], tr)
  }

  /** The events kept from the first event, then those kept from the rest. */
  lemma {:induction false} TrackEventsStep(evs: seq<Event>, tr: Track)
    requires |evs| > 0
    ensures TrackEvents(evs, tr) == (if TrackOf(evs[0]) == tr then [evs[0]] else []) + TrackEvents(evs[1..], tr)
  {
    if TrackOf(evs[0]) != tr {
      assert [] + TrackEvents(evs[1..], tr) == TrackEvents(evs[1..], tr);
    }
  }

  /** Filtering distributes over concatenation, so the kept events stay in their original
      order: the events of the first part come first. */
  lemma {:induction false} TrackEventsAppend(a: seq<Event>, b: seq<Event>, tr: Track)
    ensures TrackEvents(a + b, tr) == TrackEvents(a, tr) + TrackEvents(b, tr)
    decreases |a|
  {
    if |a| > 0 {
      ConsAppend(a, b);
      TrackEventsStep(a, tr);
      TrackEventsStep(a + b, tr);
      TrackEventsAppend(a[1..], b, tr);
      AppendAssoc(if TrackOf(a[0]) == tr then [a[0]] else [], TrackEvents(a[1..], tr), TrackEvents(b, tr));
    } else {
      assert a + b == b;
    }
  }

  lemma {:induction false} ConsAppend<T>(a: seq<T>, b: seq<T>)
    requires |a| > 0
    ensures |a + b| > 0 && (a + b)[0] == a[0] && (a + b)[1..] == a[1..] + b
  {
    assert (a + b)[1..] == a[1..] + b;
  }

  lemma {:induction false} AppendAssoc<T>(x: seq<T>, y: seq<T>, z: seq<T>)
    ensures x + (y + z) == (x + y) + z
  {
  }

  // ---- the outer merge ----------------------------------------------------------------

  function KeyOf(r: GridRow): Key {
    Key(r.obs, r.second)
  }

  function KeysOf(rows: seq<GridRow>): (ks: seq<Key>)
    ensures |ks| == |rows|
  {
    seq(|rows|, i requires 0 <= i < |rows| => KeyOf(rows[i]))
  }

  predicate KeysDistinct(rows: seq<GridRow>) {
    forall a, b :: 0 <= a < b < |rows| ==> KeyOf(rows[a]) != KeyOf(rows[b])
  }

  /** An expanded track never repeats a key. */
  lemma {:induction false} IncreasingDistinct(rows: seq<GridRow>)
    requires SecondsIncreasing(rows)
    ensures KeysDistinct(rows)
  {
  }

  /** The position of the last row among the first `n` with key `k`, or -1. */
  function IndexOfKey(rows: seq<GridRow>, k: Key, n: nat): (r: int)
    requires n <= |rows|
    ensures -1 <= r < n
    ensures r >= 0 ==> KeyOf(rows[r]) == k
    ensures r < 0 <==> forall i :: 0 <= i < n ==> KeyOf(rows[i]) != k
  {
    if n == 0 then -1
    else if KeyOf(rows[n - 1]) == k then n - 1
    else IndexOfKey(rows, k, n - 1)
  }

  /** The row of a track at key `k`, if it has one. */
  function RowWithKey(rows: seq<GridRow>, k: Key): Option<GridRow> {
    var i := IndexOfKey(rows, k, |rows|);
    if i < 0 then None else Some(rows[i])
  }

  /** In a track without repeated keys, the row at a row's own key is that row. */
  lemma {:induction false} RowWithOwnKey(rows: seq<GridRow>, j: nat)
    requires KeysDistinct(rows) && j < |rows|
    ensures RowWithKey(rows, KeyOf(rows[j])) == Some(rows[j])
  {
    var i := IndexOfKey(rows, KeyOf(rows[j]), |rows|);
    assert i >= 0 && KeyOf(rows[i]) == KeyOf(rows[j]);
  }

  /** A row of the merged table: the key, the activity side's metadata and activity columns
      (`Behavior_activity`, `Modifier_1_activity`, `Modifier_2_activity`, `Modifier_3`) and
      the posture side's `Behavior_posture` and `Modifier_2_posture`. */
  datatype MergedRow = MergedRow(
    key: Key,
    rel: Option<TimeLabel>,
    startTime: Option<Cell>,
    id: Option<Cell>,
    do: Option<Cell>,
    behaviorAct: Option<Cell>,
    modifier1: Option<Cell>,
    modifier2Act: Option<Cell>,
    modifier3: Option<Cell>,
    behaviorPos: Option<Cell>,
    modifier2Pos: Option<Cell>)

  function Side(r: Option<GridRow>, c: nat): Option<Cell> {
    if r.Some? then Get(r.value.row, c) else None
  }

  /** The merged row at key `k` from the activity row `a` and the posture row `p`. */
  function Joined(k: Key, a: Option<GridRow>, p: Option<GridRow>): MergedRow {
    MergedRow(
      k,
      if a.Some? then Some(a.value.time) else None,
      Side(a, StartTimeCol), Side(a, IdCol), Side(a, DoCol),
      Side(a, BehaviorCol), Side(a, Modifier1Col), Side(a, Modifier2Col), Side(a, Modifier3Col),
      Side(p, BehaviorCol), Side(p, Modifier2Col))
  }

  /** `activity.merge(posture, on=['Observation', '_second'], how='outer')` followed by
      `sort_values(['Observation', '_second'])`: one row per key of either track, in key order. */
  function OuterMerge(act: seq<GridRow>, pos: seq<GridRow>): (r: seq<MergedRow>)
  {
    var ks := SortKeys(KeysOf(act) + KeysOf(pos));
    seq(|ks|, i requires 0 <= i < |ks| => Joined(ks[i], RowWithKey(act, ks[i]), RowWithKey(pos, ks[i])))
  }

  predicate MergedSorted(r: seq<MergedRow>) {
    forall i, j :: 0 <= i < j < |r| ==> KeyLess(r[i].key, r[j].key)
  }

  /** The merged keys are exactly the keys of the two tracks, each once, in ascending order. */
  lemma {:induction false} OuterMergeKeys(act: seq<GridRow>, pos: seq<GridRow>)
    ensures MergedSorted(OuterMerge(act, pos))
    ensures forall i :: 0 <= i < |OuterMerge(act, pos)| ==>
              OuterMerge(act, pos)[i].key in KeysOf(act) || OuterMerge(act, pos)[i].key in KeysOf(pos)
  {
    var ks := SortKeys(KeysOf(act) + KeysOf(pos));
    var r := OuterMerge(act, pos);
    assert forall i :: 0 <= i < |r| ==> r[i].key == ks[i] && ks[i] in KeysOf(act) + KeysOf(pos);
  }

  /** The position in the merged table of a key of either track. */
  lemma {:induction false} MergedIndex(act: seq<GridRow>, pos: seq<GridRow>, k: Key) returns (i: nat)
    requires k in KeysOf(act) || k in KeysOf(pos)
    ensures i < |OuterMerge(act, pos)| && OuterMerge(act, pos)[i].key == k
  {
    var ks := SortKeys(KeysOf(act) + KeysOf(pos));
    assert k in KeysOf(act) + KeysOf(pos);
    var j :| 0 <= j < |ks| && ks[j] == k;
    i := j;
  }

  /** Every activity row lands on its key with its metadata and activity columns. */
  lemma {:induction false} ActivityRowLands(act: seq<GridRow>, pos: seq<GridRow>, j: nat) returns (i: nat)
    requires KeysDistinct(act) && j < |act|
    ensures i < |OuterMerge(act, pos)|
    ensures var m := OuterMerge(act, pos)[i];
            && m.key == KeyOf(act[j])
            && m.rel == Some(act[j].time)
            && m.id == Get(act[j].row, IdCol) && m.do == Get(act[j].row, DoCol)
            && m.startTime == Get(act[j].row, StartTimeCol)
            && m.behaviorAct == Get(act[j].row, BehaviorCol)
            && m.modifier1 == Get(act[j].row, Modifier1Col)
            && m.modifier2Act == Get(act[j].row, Modifier2Col)
            && m.modifier3 == Get(act[j].row, Modifier3Col)
  {
    assert KeysOf(act)[j] == KeyOf(act[j]);
    i := MergedIndex(act, pos, KeyOf(act[j]));
    RowWithOwnKey(act, j);
  }

  /** Every posture row lands on its key with its Behavior and Modifier_2. */
  lemma {:induction false} PostureRowLands(act: seq<GridRow>, pos: seq<GridRow>, j: nat) returns (i: nat)
    requires KeysDistinct(pos) && j < |pos|
    ensures i < |OuterMerge(act, pos)|
    ensures var m := OuterMerge(act, pos)[i];
            && m.key == KeyOf(pos[j])
            && m.behaviorPos == Get(pos[j].row, BehaviorCol)
            && m.modifier2Pos == Get(pos[j].row, Modifier2Col)
  {
    assert KeysOf(pos)[j] == KeyOf(pos[j]);
    i := MergedIndex(act, pos, KeyOf(pos[j]));
    RowWithOwnKey(pos, j);
  }

  /** A key the activity track lacks has no activity cells and no metadata before filling. */
  lemma {:induction false} PostureOnlyKey(act: seq<GridRow>, pos: seq<GridRow>, i: nat)
    requires i < |OuterMerge(act, pos)| && OuterMerge(act, pos)[i].key !in KeysOf(act)
    ensures var m := OuterMerge(act, pos)[i];
            && m.rel.None? && m.id.None? && m.do.None? && m.startTime.None?
            && m.behaviorAct.None? && m.modifier1.None? && m.modifier2Act.None? && m.modifier3.None?
  {
    var k := OuterMerge(act, pos)[i].key;
    assert forall q :: 0 <= q < |act| ==> KeyOf(act[q]) == KeysOf(act)[q] != k;
  }

  // ---- the metadata fill ----------------------------------------------------------

  function ObsColumn(rows: seq<MergedRow>): (keys: seq<string>)
    ensures |keys| == |rows|
  {
    seq(|rows|, i requires 0 <= i < |rows| => rows[i].key.obs)
  }

  /** Rows sorted by key keep each observation's rows together. */
  lemma {:induction false} SortedContiguous(rows: seq<MergedRow>)
    requires MergedSorted(rows)
    ensures Contiguous(ObsColumn(rows))
  {
    var keys := ObsColumn(rows);
    forall a, b, c | 0 <= a < b < c < |keys| && keys[a] == keys[c] ensures keys[b] == keys[a] {
      assert KeyLess(rows[a].key, rows[b].key) && KeyLess(rows[b].key, rows[c].key);
      if keys[b] != keys[a] {
        StrLessAsymmetric(keys[a], keys[b]);
      }
    }
  }

  /** `merged.groupby('Observation')[col].ffill().bfill()` as written: the back fill is not
      grouped, so it reaches into the next observation. */
  function FillMetaAsWritten<T>(keys: seq<string>, col: seq<Option<T>>): (r: seq<Option<T>>)
    requires |keys| == |col|
    ensures |r| == |col|
  {
    BFill(GroupFFill(keys, col))
  }

  /** The evidently intended fill: forward, then backward, both within the observation. */
  function FillMeta<T>(keys: seq<string>, col: seq<Option<T>>): (r: seq<Option<T>>)
    requires |keys| == |col|
    ensures |r| == |col|
  {
    GroupBFill(keys, GroupFFill(keys, col))
  }

  /** The grouped forward-then-backward fill is the stabilisation pass: every cell of an
      observation with some value is filled, from that observation. */
  lemma {:induction false} FillMetaIsStabilize<T>(keys: seq<string>, col: seq<Option<T>>)
    requires |keys| == |col|
    ensures FillMeta(keys, col) == GroupStabilize(keys, col)
  {
    var f := GroupFFill(keys, col);
    var r := FillMeta(keys, col);
    var s := GroupStabilize(keys, col);
    GroupFFillSpec(keys, col);
    GroupBFillSpec(keys, f);
    forall i | 0 <= i < |col| ensures r[i] == s[i] {
      assert s[i] == Coalesce(f[i], GroupBFill(keys, col)[i]);
      if f[i].None? {
        BFillAfterFFill(keys, col, i);
      }
    }
  }

  /** Where the forward fill left a gap, back-filling the forward-filled column finds the same
      value as back-filling the original. */
  lemma {:induction false} BFillAfterFFill<T>(keys: seq<string>, col: seq<Option<T>>, i: nat)
    requires |keys| == |col| && i < |col| && GroupFFill(keys, col)[i].None?
    ensures GroupBFill(keys, GroupFFill(keys, col))[i] == GroupBFill(keys, col)[i]
  {
    var f := GroupFFill(keys, col);
    GroupFFillSpec(keys, col);
    var a := FirstIndexInGroup(keys, col, keys[i], i);
    var b := FirstIndexInGroup(keys, f, keys[i], i);
    // No cell of the group up to i is present, so before `a` the forward fill is still empty
    // and at `a` it holds the original value.
    forall m | i <= m < a && keys[m] == keys[i] ensures f[m].None? {
      assert forall j :: 0 <= j <= m && keys[j] == keys[m] ==> col[j].None?;
    }
    if a < |col| {
      assert f[a] == col[a];
    }
    assert a == b;
  }

  /** Groups are contiguous: a value of the key never reappears after another key. */
  predicate Contiguous(keys: seq<string>) {
    forall a, b, c :: 0 <= a < b < c < |keys| && keys[a] == keys[c] ==> keys[b] == keys[a]
  }

  /** On a table whose observations are contiguous, the as-written fill agrees with the grouped
      one on every observation that has a value somewhere. */
  lemma {:induction false} AsWrittenAgreesOnValuedGroups<T>(keys: seq<string>, col: seq<Option<T>>, i: nat, j: nat)
    requires |keys| == |col| && Contiguous(keys) && i < |col|
    requires j < |col| && keys[j] == keys[i] && col[j].Some?
    ensures FillMetaAsWritten(keys, col)[i] == FillMeta(keys, col)[i]
  {
    var f := GroupFFill(keys, col);
    if f[i].Some? {
      BFillKeeps(f, i);
      GroupBFillKeeps(keys, f, i);
    } else {
      var a := FirstIndexInGroup(keys, col, keys[i], i);
      GapBeforeFirst(keys, col, i, j, a);
      FFillFirst(f, i, a);
      BFillAfterFFill(keys, col, i);
      FirstFound(keys, col, i, a);
    }
  }

  /** When the forward fill leaves cell `i` empty but the observation has a value at `j`, its
      first value `a` comes after `i`, and on a contiguous table nothing between them is
      present after the forward fill. */
  lemma {:induction false} GapBeforeFirst<T>(keys: seq<string>, col: seq<Option<T>>, i: nat, j: nat, a: nat)
    requires |keys| == |col| && Contiguous(keys) && i < |col| && GroupFFill(keys, col)[i].None?
    requires j < |col| && keys[j] == keys[i] && col[j].Some?
    requires a == FirstIndexInGroup(keys, col, keys[i], i)
    ensures i <= a < |col| && GroupFFill(keys, col)[a] == col[a]
    ensures forall m :: i <= m < a ==> GroupFFill(keys, col)[m].None?
  {
    var k := keys[i];
    GroupFFillAt(keys, col, i);
    assert j > i;
    assert a <= j;
    GroupFFillAt(keys, col, a);
    assert LastIndexInGroup(keys, col, k, a + 1) == a;
    forall m | i <= m < a ensures GroupFFill(keys, col)[m].None? {
      GroupFFillAt(keys, col, m);
      if i < m {
        ContiguousBetween(keys, i, m, j);
      }
      forall q | 0 <= q < m + 1 && keys[q] == keys[m] ensures col[q].None? {
        if q > i {
          assert i <= q < a;
        }
      }
    }
  }

  lemma {:induction false} ContiguousBetween(keys: seq<string>, a: nat, b: nat, c: nat)
    requires Contiguous(keys) && a < b < c < |keys| && keys[a] == keys[c]
    ensures keys[b] == keys[a]
  {
  }

  lemma {:induction false} BFillKeeps<T>(vals: seq<Option<T>>, i: nat)
    requires i < |vals| && vals[i].Some?
    ensures BFill(vals)[i] == vals[i]
  {
    BFillSpec(vals);
  }

  lemma {:induction false} GroupBFillKeeps<T>(keys: seq<string>, vals: seq<Option<T>>, i: nat)
    requires |keys| == |vals| && i < |vals| && vals[i].Some?
    ensures GroupBFill(keys, vals)[i] == vals[i]
  {
    GroupBFillSpec(keys, vals);
  }

  /** The position of the first present cell from `n` on, or `|vals|`. */
  function FirstIndex<T>(vals: seq<Option<T>>, n: nat): (r: nat)
    requires n <= |vals|
    ensures n <= r <= |vals|
    ensures r < |vals| ==> vals[r].Some?
    ensures forall m :: n <= m < r ==> vals[m].None?
    decreases |vals| - n
  {
    if n == |vals| then n
    else if vals[n].Some? then n
    else FirstIndex(vals, n + 1)
  }

  /** The ungrouped back fill takes the first present cell from `i` on. */
  lemma {:induction false} FFillFirst<T>(vals: seq<Option<T>>, i: nat, u: nat)
    requires i <= u < |vals| && vals[u].Some? && forall m :: i <= m < u ==> vals[m].None?
    ensures BFill(vals)[i] == vals[u]
  {
    var keys := OneGroup(|vals|);
    assert GroupBFill(keys, vals)[i] == FirstInGroup(keys, vals, keys[i], i);
    var a := FirstIndexInGroup(keys, vals, keys[i], i);
    assert keys[u] == keys[i];
    assert a == u;
  }

  /** The grouped back fill takes the group's first present cell from `i` on. */
  lemma {:induction false} FirstFound<T>(keys: seq<string>, col: seq<Option<T>>, i: nat, a: nat)
    requires |keys| == |col| && i < |col| && a < |col|
    requires a == FirstIndexInGroup(keys, col, keys[i], i)
    ensures GroupBFill(keys, col)[i] == col[a]
  {
    assert GroupBFill(keys, col)[i] == FirstInGroup(keys, col, keys[i], i);
  }

  /** An observation without metadata takes the next observation's value under the as-written
      fill, and stays empty under the grouped one. */
  lemma {:induction false} AsWrittenLeaks()
    ensures FillMetaAsWritten(["a", "b"], [None, Some(1)]) == [Some(1), Some(1)]
    ensures FillMeta(["a", "b"], [None, Some(1)]) == [None, Some(1)]
  {
    var keys := ["a", "b"];
    var col: seq<Option<int>> := [None, Some(1)];
    var f := GroupFFill(keys, col);
    assert f[0] == LastInGroup(keys, col, "a", 1);
    assert f[1] == LastInGroup(keys, col, "b", 2);
    assert f == [None, Some(1)];
    var u := BFill(f);
    FFillFirst(f, 0, 1);
    FFillFirst(f, 1, 1);
    assert u == [Some(1), Some(1)];
    var g := GroupBFill(keys, f);
    assert g[0] == FirstInGroup(keys, f, "a", 0);
    assert g[1] == FirstInGroup(keys, f, "b", 1);
    assert g == [None, Some(1)];
  }

  // ---- the merged table ---------------------------------------------------------------

  function Rels(m: seq<MergedRow>): (r: seq<Option<TimeLabel>>)
    ensures |r| == |m|
  {
    seq(|m|, i requires 0 <= i < |m| => m[i].rel)
  }

  function StartTimes(m: seq<MergedRow>): (r: seq<Option<Cell>>)
    ensures |r| == |m|
  {
    seq(|m|, i requires 0 <= i < |m| => m[i].startTime)
  }

  function Ids(m: seq<MergedRow>): (r: seq<Option<Cell>>)
    ensures |r| == |m|
  {
    seq(|m|, i requires 0 <= i < |m| => m[i].id)
  }

  function Dos(m: seq<MergedRow>): (r: seq<Option<Cell>>)
    ensures |r| == |m|
  {
    seq(|m|, i requires 0 <= i < |m| => m[i].do)
  }

  /** The rows with their four metadata columns replaced. */
  function WithMeta(m: seq<MergedRow>, rel: seq<Option<TimeLabel>>, st: seq<Option<Cell>>,
                    id: seq<Option<Cell>>, do: seq<Option<Cell>>): (r: seq<MergedRow>)
    requires |rel| == |st| == |id| == |do| == |m|
    ensures |r| == |m|
  {
    seq(|m|, i requires 0 <= i < |m| => m[i].(rel := rel[i], startTime := st[i], id := id[i], do := do[i]))
  }

  /** The metadata fill as the code does it. */
  function FillMetaRowsAsWritten(m: seq<MergedRow>): (r: seq<MergedRow>)
    ensures |r| == |m|
  {
    var keys := ObsColumn(m);
    WithMeta(m, FillMetaAsWritten(keys, Rels(m)), FillMetaAsWritten(keys, StartTimes(m)),
             FillMetaAsWritten(keys, Ids(m)), FillMetaAsWritten(keys, Dos(m)))
  }

  /** The metadata filled within each observation. */
  function FillMetaRows(m: seq<MergedRow>): (r: seq<MergedRow>)
    ensures |r| == |m|
  {
    var keys := ObsColumn(m);
    WithMeta(m, FillMeta(keys, Rels(m)), FillMeta(keys, StartTimes(m)),
             FillMeta(keys, Ids(m)), FillMeta(keys, Dos(m)))
  }

  /** The merged table as the code builds it. */
  function MergeTracksAsWritten(act: seq<GridRow>, pos: seq<GridRow>): seq<MergedRow> {
    FillMetaRowsAsWritten(OuterMerge(act, pos))
  }

  /** The merged table with the metadata filled within each observation. */
  function MergeTracks(act: seq<GridRow>, pos: seq<GridRow>): seq<MergedRow> {
    FillMetaRows(OuterMerge(act, pos))
  }

  /** Some event of track `tr` has a parsed time. */
  predicate TrackTimed(evs: seq<Event>, tr: Track) {
    exists i :: 0 <= i < |evs| && TrackOf(evs[i]) == tr && Timed(evs[i])
  }

  /** `expand_track_to_seconds` of one track of the event table. */
  function ExpandedTrack(evs: seq<Event>, tr: Track): seq<GridRow> {
    ExpandTrack(TrackEvents(evs, tr), Width)
  }

  lemma {:induction false} KeptTimed(evs: seq<Event>, tr: Track)
    requires AnyTimed(TrackEvents(evs, tr))
    ensures TrackTimed(evs, tr)
  {
    var t := TrackEvents(evs, tr);
    var k :| 0 <= k < |t| && Timed(t[k]);
    assert t[k] in t;
    var i :| 0 <= i < |evs| && evs[i] == t[k];
    assert TrackOf(evs[i]) == tr && Timed(evs[i]);
  }

  lemma {:induction false} TimedKept(evs: seq<Event>, tr: Track)
    requires TrackTimed(evs, tr)
    ensures AnyTimed(TrackEvents(evs, tr))
  {
    var i :| 0 <= i < |evs| && TrackOf(evs[i]) == tr && Timed(evs[i]);
    TimedEventKept(evs, tr, evs[i]);
  }

  lemma {:induction false} TimedEventKept(evs: seq<Event>, tr: Track, e: Event)
    requires e in evs && TrackOf(e) == tr && Timed(e)
    ensures AnyTimed(TrackEvents(evs, tr))
  {
    assert e in TrackEvents(evs, tr);
  }

  /** A track expands to no rows exactly when none of its events has a parsed time. */
  lemma {:induction false} ExpandedTrackEmpty(evs: seq<Event>, tr: Track)
    ensures |ExpandedTrack(evs, tr)| == 0 <==> !TrackTimed(evs, tr)
  {
    ExpandTrackEmpty(TrackEvents(evs, tr), Width);
    if AnyTimed(TrackEvents(evs, tr)) {
      KeptTimed(evs, tr);
    }
    if TrackTimed(evs, tr) {
      TimedKept(evs, tr);
    }
  }

  /**
   * The split, the expansion of both tracks and their merge. A track none of whose events has
   * a parsed time expands to `pd.DataFrame()`, a table without columns, and selecting the kept
   * columns from it stops the script with a `KeyError`: that outcome is `None`.
   */
  function ExpandAndMerge(evs: seq<Event>): (r: Option<seq<MergedRow>>)
    ensures r.None? <==> !TrackTimed(evs, Activity) || !TrackTimed(evs, Posture)
  {
    var act := ExpandedTrack(evs, Activity);
    var pos := ExpandedTrack(evs, Posture);
    ExpandedTrackEmpty(evs, Activity);
    ExpandedTrackEmpty(evs, Posture);
    if |act| == 0 || |pos| == 0 then None else Some(MergeTracks(act, pos))
  }

  /** The same chain with the metadata fill as the code does it (line 318). */
  function ExpandAndMergeAsWritten(evs: seq<Event>): (r: Option<seq<MergedRow>>)
    ensures r.None? <==> !TrackTimed(evs, Activity) || !TrackTimed(evs, Posture)
  {
    var act := ExpandedTrack(evs, Activity);
    var pos := ExpandedTrack(evs, Posture);
    ExpandedTrackEmpty(evs, Activity);
    ExpandedTrackEmpty(evs, Posture);
    if |act| == 0 || |pos| == 0 then None else Some(MergeTracksAsWritten(act, pos))
  }

  /** The outer merge of the two expanded tracks, before the metadata fill. */
  function Unfilled(evs: seq<Event>): seq<MergedRow> {
    OuterMerge(ExpandedTrack(evs, Activity), ExpandedTrack(evs, Posture))
  }

  /** Through the whole chain, the code's fill and the grouped one give the same `id` on every
      row whose observation has an `id` somewhere; they differ only on observations with none. */
  lemma {:induction false} PipelineIdAgrees(evs: seq<Event>, i: nat, j: nat)
    requires ExpandAndMerge(evs).Some?
    requires i < |Unfilled(evs)| && j < |Unfilled(evs)|
    requires Unfilled(evs)[j].key.obs == Unfilled(evs)[i].key.obs && Unfilled(evs)[j].id.Some?
    ensures ExpandAndMergeAsWritten(evs).Some?
    ensures ExpandAndMergeAsWritten(evs).value[i].id == ExpandAndMerge(evs).value[i].id
  {
    var act := ExpandedTrack(evs, Activity);
    var pos := ExpandedTrack(evs, Posture);
    OuterMergeKeys(act, pos);
    FilledIdAsWrittenAgrees(Unfilled(evs), i, j);
  }

  /** After the fill an `id` is missing exactly when no row of the observation had one, and
      otherwise it is the `id` of a row of the same observation. */
  lemma {:induction false} FilledIdFromObservation(m: seq<MergedRow>, i: nat) returns (j: nat)
    requires i < |m|
    ensures var r := FillMetaRows(m);
            && (r[i].id.None? <==> forall q :: 0 <= q < |m| && m[q].key.obs == m[i].key.obs ==> m[q].id.None?)
            && (r[i].id.Some? ==> j < |m| && m[j].key.obs == m[i].key.obs && m[j].id == r[i].id)
  {
    var keys := ObsColumn(m);
    var ids := Ids(m);
    assert forall q :: 0 <= q < |m| ==> keys[q] == m[q].key.obs && ids[q] == m[q].id;
    assert FillMetaRows(m)[i].id == FillMeta(keys, ids)[i];
    FillMetaIsStabilize(keys, ids);
    GroupStabilizeSpec(keys, ids);
    j := 0;
    if GroupStabilize(keys, ids)[i].Some? {
      j := GroupStabilizeFrom(keys, ids, i);
    }
  }

  /** On a key-sorted table the as-written fill differs from the grouped one only in
      observations with no `id` at all: where the observation has one, both give the same. */
  lemma {:induction false} FilledIdAsWrittenAgrees(m: seq<MergedRow>, i: nat, j: nat)
    requires MergedSorted(m) && i < |m| && j < |m|
    requires m[j].key.obs == m[i].key.obs && m[j].id.Some?
    ensures FillMetaRowsAsWritten(m)[i].id == FillMetaRows(m)[i].id
  {
    var keys := ObsColumn(m);
    var ids := Ids(m);
    SortedContiguous(m);
    assert keys[j] == keys[i] && ids[j].Some?;
    AsWrittenAgreesOnValuedGroups(keys, ids, i, j);
  }
}

=== FILE: obs_keys.dfy ===
/**
 * The observation keys: an observation name such as "P01_12_3" carries the participant `id`
 * and the observation number `do` as its second and third underscore-separated fields.
 */
module ObsKeys {
  import opened Options
  import opened Text
  import opened TimeFormat

  /** What `pd.to_numeric(x, errors='coerce')` followed by `astype('Int64')` makes of one field:
      missing, a whole number, or a number with a fraction, on which the cast raises. */
  datatype Coerced = Missing | Integral(n: int) | Fractional

  /** An optional sign, then `\d+(\.\d+)?`. */
  predicate IsNumeral(t: string) {
    if |t| > 0 && IsSign(t[0]) then IsDecimal(t[1..]) else IsDecimal(t)
  }

  function NumeralValue(t: string): real
    requires IsNumeral(t)
  {
    if |t| > 0 && IsSign(t[0]) then
      (if t[0] == '-' then -DecimalValue(t[1..]) else DecimalValue(t[1..]))
    else DecimalValue(t)
  }

  /** One field through `to_numeric` and the `Int64` cast. */
  function Coerce(s: Option<string>): (r: Coerced)
    ensures r.Missing? <==> s.None? || !IsNumeral(s.value)
    ensures r.Integral? ==> r.n as real == NumeralValue(s.value)
    ensures r.Fractional? ==> NumeralValue(s.value) != NumeralValue(s.value).Floor as real
  {
    match s
    case None => Missing
    case Some(t) =>
      if !IsNumeral(t) then Missing
      else
        var v := NumeralValue(t);
        if v == v.Floor as real then Integral(v.Floor) else Fractional
  }

  /** Field `i` of `str.split('_', expand=True)`: missing past the last field. */
  function Field(obs: string, i: nat): (r: Option<string>)
    ensures r.Some? <==> i < |Split(obs, '_')|
    ensures r.Some? ==> '_' !in r.value
  {
    var parts := Split(obs, '_');
    SplitPiecesFree(obs, '_');
    if i < |parts| then Some(parts[i]) else None
  }

  /** Field `i` of a possibly missing observation. */
  function FieldOf(obs: Option<string>, i: nat): Option<string> {
    match obs
    case None => None
    case Some(o) => Field(o, i)
  }

  /** Some observation has field `i`, so the split table has a column `i`. */
  predicate HasField(col: seq<Option<string>>, i: nat) {
    exists k :: 0 <= k < |col| && FieldOf(col[k], i).Some?
  }

  /** Some observation's field `i` is a number with a fraction, so the cast of column `i` raises. */
  predicate CastRaises(col: seq<Option<string>>, i: nat) {
    exists k :: 0 <= k < |col| && Coerce(FieldOf(col[k], i)).Fractional?
  }

  function KeyOf(c: Coerced): Option<int> {
    if c.Integral? then Some(c.n) else None
  }

  /** The keys an observation row gets. */
  datatype Keys = Keys(id: Option<int>, do: Option<int>)

  function RowKeys(obs: Option<string>): Keys {
    Keys(KeyOf(Coerce(FieldOf(obs, 1))), KeyOf(Coerce(FieldOf(obs, 2))))
  }

  /**
   * `add_id_do_split` over the whole Observation column. `None` is the script stopping: with a
   * `KeyError` when no observation has a second or a third field, or with a `TypeError` when
   * a field parses to a number with a fraction.
   */
  function AddIdDoSplit(col: seq<Option<string>>): (r: Option<seq<Keys>>)
    ensures r.None? <==> !HasField(col, 1) || !HasField(col, 2) || CastRaises(col, 1) || CastRaises(col, 2)
    ensures r.Some? ==> |r.value| == |col|
  {
    if !HasField(col, 1) || !HasField(col, 2) || CastRaises(col, 1) || CastRaises(col, 2) then None
    else Some(seq(|col|, k requires 0 <= k < |col| => RowKeys(col[k])))
  }

  /** A missing observation gets missing keys, whatever the rest of the column holds. */
  lemma {:induction false} MissingObservation(col: seq<Option<string>>, k: nat)
    requires k < |col| && col[k].None? && AddIdDoSplit(col).Some?
    ensures AddIdDoSplit(col).value[k] == Keys(None, None)
  {
  }

  // ---- single fields ------------------------------------------------------------------

  /** A run of digits is the number it spells. */
  lemma {:induction false} DigitsCoerce(t: string)
    requires IsCount(t)
    ensures Coerce(Some(t)) == Integral(DigitsValue(t))
  {
    CountIsDecimal(t);
    assert !IsSign(t[0]);
  }

  /** `str(n)` coerces back to `n`. */
  lemma {:induction false} NatCoerces(n: nat)
    ensures Coerce(Some(NatToString(n))) == Integral(n)
  {
    NatToStringRoundTrip(n);
    DigitsCoerce(NatToString(n));
  }

  /** A numeral denoting a whole number is that key. */
  lemma {:induction false} CoerceWhole(t: string, m: int)
    requires IsNumeral(t) && NumeralValue(t) == m as real
    ensures Coerce(Some(t)) == Integral(m)
  {
    assert NumeralValue(t).Floor == m;
  }

  lemma {:induction false} SignedDigits(c: char, n: nat)
    requires IsSign(c)
    ensures IsNumeral([c] + NatToString(n))
    ensures NumeralValue([c] + NatToString(n)) == (if c == '-' then -(n as int) else n) as real
  {
    var t := [c] + NatToString(n);
    assert t[1..] == NatToString(n);
    NatToStringRoundTrip(n);
    CountIsDecimal(NatToString(n));
  }

  /** A signed field is a signed key: `-3` gives -3 and `+3` gives 3. */
  lemma {:induction false} SignedCoerces(n: nat)
    ensures Coerce(Some("-" + NatToString(n))) == Integral(-(n as int))
    ensures Coerce(Some("+" + NatToString(n))) == Integral(n)
  {
    SignedDigits('-', n);
    CoerceWhole("-" + NatToString(n), -(n as int));
    SignedDigits('+', n);
    CoerceWhole("+" + NatToString(n), n);
  }

  lemma {:induction false} OnePointFive()
    ensures IsNumeral("1.5") && NumeralValue("1.5") == 1.5
    ensures IsNumeral("1.0") && NumeralValue("1.0") == 1.0
  {
    assert "1.5" == "1" + "." + "5" && "1.0" == "1" + "." + "0";
    assert "1"[..0] == "" && "5"[..0] == "" && "0"[..0] == "";
    assert "5"[1..] == "" && "0"[1..] == "";
    PointIsDecimal("1", "5");
    PointIsDecimal("1", "0");
  }

  /** A point followed by zeros is still a whole key, but a real fraction makes the cast raise. */
  lemma {:induction false} FractionalFields()
    ensures Coerce(Some("1.0")) == Integral(1)
    ensures Coerce(Some("1.5")) == Fractional
  {
    OnePointFive();
  }

  // ---- names --------------------------------------------------------------------------

  /** The name an observation with these keys is written under. */
  function ObsName(study: string, id: nat, do: nat, rest: seq<string>): string
  {
    Join([study, NatToString(id), NatToString(do)] + rest, '_')
  }

  lemma {:induction false} DigitsHaveNoUnderscore(s: string)
    requires AllDigits(s)
    ensures '_' !in s
  {
  }

  /** The fields of a name written from keys are the study, the two keys and the rest. */
  lemma {:induction false} ObsNameFields(study: string, id: nat, do: nat, rest: seq<string>)
    requires '_' !in study
    requires forall k :: 0 <= k < |rest| ==> '_' !in rest[k]
    ensures Field(ObsName(study, id, do, rest), 1) == Some(NatToString(id))
    ensures Field(ObsName(study, id, do, rest), 2) == Some(NatToString(do))
  {
    var parts := [study, NatToString(id), NatToString(do)] + rest;
    DigitsHaveNoUnderscore(NatToString(id));
    DigitsHaveNoUnderscore(NatToString(do));
    assert forall k :: 0 <= k < |parts| ==> '_' !in parts[k] by {
      forall k | 0 <= k < |parts| ensures '_' !in parts[k] {
        if k >= 3 {
          assert parts[k] == rest[k - 3];
        }
      }
    }
    JoinSplit(parts, '_');
  }

  /** Reading the keys back out of a name written from them gives the same keys, whatever the
      study prefix and trailing fields are, as long as they hold no underscore. */
  lemma {:induction false} KeysRoundTrip(study: string, id: nat, do: nat, rest: seq<string>)
    requires '_' !in study
    requires forall k :: 0 <= k < |rest| ==> '_' !in rest[k]
    ensures RowKeys(Some(ObsName(study, id, do, rest))) == Keys(Some(id), Some(do))
  {
    ObsNameFields(study, id, do, rest);
    NatCoerces(id);
    NatCoerces(do);
  }

  /** A column of names all written from keys splits back into exactly those keys. */
  lemma {:induction false} ColumnRoundTrip(study: string, ids: seq<nat>, dos: seq<nat>, rest: seq<string>,
                                           col: seq<Option<string>>)
    requires '_' !in study
    requires forall k :: 0 <= k < |rest| ==> '_' !in rest[k]
    requires |col| > 0 && |ids| == |col| && |dos| == |col|
    requires forall k :: 0 <= k < |col| ==> col[k] == Some(ObsName(study, ids[k], dos[k], rest))
    ensures AddIdDoSplit(col).Some?
    ensures forall k :: 0 <= k < |col| ==> AddIdDoSplit(col).value[k] == Keys(Some(ids[k]), Some(dos[k]))
  {
    forall k | 0 <= k < |col| ensures RowKeys(col[k]) == Keys(Some(ids[k]), Some(dos[k])) {
      KeysRoundTrip(study, ids[k], dos[k], rest);
    }
    ColumnFieldsPresent(col, 0);
    forall k | 0 <= k < |col| ensures !Coerce(FieldOf(col[k], 1)).Fractional? && !Coerce(FieldOf(col[k], 2)).Fractional? {
      assert RowKeys(col[k]).id.Some? && RowKeys(col[k]).do.Some?;
    }
  }

  lemma {:induction false} ColumnFieldsPresent(col: seq<Option<string>>, k: nat)
    requires k < |col| && KeyOf(Coerce(FieldOf(col[k], 1))).Some? && KeyOf(Coerce(FieldOf(col[k], 2))).Some?
    ensures HasField(col, 1) && HasField(col, 2)
  {
  }

  /** A name with fewer than three fields has no `do`, and one without an underscore has
      neither key. */
  lemma {:induction false} ShortNames(obs: string)
    ensures Count(obs, '_') < 2 ==> RowKeys(Some(obs)).do.None?
    ensures '_' !in obs ==> RowKeys(Some(obs)) == Keys(None, None)
  {
    SplitCount(obs, '_');
    CountZero(obs, '_');
  }

  /** When no observation has a third field, the column `parts[2]` does not exist and the
      script stops. */
  lemma {:induction false} ShortColumnRaises(col: seq<Option<string>>)
    requires forall k :: 0 <= k < |col| ==> col[k].None? || Count(col[k].value, '_') < 2
    ensures AddIdDoSplit(col).None?
  {
    forall k | 0 <= k < |col| ensures FieldOf(col[k], 2).None? {
      if col[k].Some? {
        SplitCount(col[k].value, '_');
      }
    }
  }

  /** A field that is not a numeral becomes a missing key. */
  lemma {:induction false} NonNumericField(study: string, field: string, do: nat)
    requires '_' !in study && '_' !in field
    requires !IsNumeral(field)
    ensures RowKeys(Some(study + "_" + field + "_" + NatToString(do))) == Keys(None, Some(do))
  {
    DigitsHaveNoUnderscore(NatToString(do));
    SplitThree(study, field, NatToString(do), '_');
    assert study + "_" + field + "_" + NatToString(do) == study + ['_'] + field + ['_'] + NatToString(do);
    NatCoerces(do);
  }
}

=== FILE: options.dfy ===
/** A missing-or-present cell, the typed stand-in for a pandas NaN/None. */
module Options {

  datatype Option<+T> = None | Some(value: T) {

    /** The value, or `default` when missing. */
    function GetOr(default: T): T {
      match this
      case Some(v) => v
      case None => default
    }
  }

  /** pandas `a.fillna(b)` on one cell: `a` when present, else `b`. */
  function Coalesce<T>(a: Option<T>, b: Option<T>): (r: Option<T>)
    ensures r.None? <==> a.None? && b.None?
    ensures a.Some? ==> r == a
    ensures a.None? ==> r == b
  {
    if a.Some? then a else b
  }
}

=== FILE: order.dfy ===
/** Python's ordering of strings (code point by code point), the (Observation, second) row key,
    and the sorted, duplicate-free key lists an outer merge followed by
    `sort_values(['Observation', '_second'])` produces. */
module Order {

  /** Python `a < b` on `str`. */
  predicate StrLess(a: string, b: string)
    decreases |a|
  {
    if |a| == 0 then |b| > 0
    else if |b| == 0 then false
    else if a[0] != b[0] then a[0] < b[0]
    else StrLess(a[1..], b[1..])
  }

  lemma {:induction false} StrLessIrreflexive(a: string)
    ensures !StrLess(a, a)
  {
    if |a| > 0 {
      StrLessIrreflexive(a[1..]);
    }
  }

  lemma {:induction false} StrLessTransitive(a: string, b: string, c: string)
    requires StrLess(a, b) && StrLess(b, c)
    ensures StrLess(a, c)
    decreases |a|
  {
    if |a| > 0 && |b| > 0 && |c| > 0 && a[0] == b[0] && b[0] == c[0] {
      StrLessTransitive(a[1..], b[1..], c[1..]);
    }
  }

  lemma {:induction false} StrLessTotal(a: string, b: string)
    ensures a == b || StrLess(a, b) || StrLess(b, a)
    decreases |a|
  {
    if |a| > 0 && |b| > 0 && a[0] == b[0] {
      StrLessTotal(a[1..], b[1..]);
      if a[1..] == b[1..] {
        assert a == [a[0]] + a[1..] && b == [b[0]] + b[1..];
      }
    }
  }

  lemma {:induction false} StrLessAsymmetric(a: string, b: string)
    requires StrLess(a, b)
    ensures !StrLess(b, a)
  {
    if StrLess(b, a) {
      StrLessTransitive(a, b, a);
      StrLessIrreflexive(a);
    }
  }

  /** Row key of every per-second table: (Observation, second). */
  datatype Key = Key(obs: string, second: int)

  /** The order `sort_values(['Observation', '_second'])` puts keys in. */
  predicate KeyLess(x: Key, y: Key) {
    StrLess(x.obs, y.obs) || (x.obs == y.obs && x.second < y.second)
  }

  lemma {:induction false} KeyLessTransitive(x: Key, y: Key, z: Key)
    requires KeyLess(x, y) && KeyLess(y, z)
    ensures KeyLess(x, z)
  {
    if StrLess(x.obs, y.obs) && StrLess(y.obs, z.obs) {
      StrLessTransitive(x.obs, y.obs, z.obs);
    }
  }

  lemma {:induction false} KeyLessTotal(x: Key, y: Key)
    ensures x == y || KeyLess(x, y) || KeyLess(y, x)
  {
    StrLessTotal(x.obs, y.obs);
  }

  lemma {:induction false} KeyLessIrreflexive(x: Key)
    ensures !KeyLess(x, x)
  {
    StrLessIrreflexive(x.obs);
  }

  lemma {:induction false} KeyLessAsymmetric(x: Key, y: Key)
    requires KeyLess(x, y)
    ensures !KeyLess(y, x) && x != y
  {
    KeyLessIrreflexive(x);
    if KeyLess(y, x) {
      KeyLessTransitive(x, y, x);
    }
  }

  predicate KeysSorted(xs: seq<Key>) {
    forall i, j :: 0 <= i < j < |xs| ==> KeyLess(xs[i], xs[j])
  }

  /** Inserts `k` into a strictly sorted key list unless it is already there. */
  function InsertKey(xs: seq<Key>, k: Key): (r: seq<Key>)
    requires KeysSorted(xs)
    ensures KeysSorted(r)
    ensures forall y :: y in r <==> y in xs || y == k
  {
    if |xs| == 0 then [k]
    else if xs[0] == k then xs
    else if KeyLess(k, xs[0]) then
      assert forall j :: 0 < j < |xs| ==> KeyLess(k, xs[j]) by {
        forall j | 0 < j < |xs| ensures KeyLess(k, xs[j]) { KeyLessTransitive(k, xs[0], xs[j]); }
      }
      [k] + xs
    else
      KeyLessTotal(k, xs[0]);
      var rest := InsertKey(xs[1..], k);
      assert forall j :: 0 <= j < |rest| ==> KeyLess(xs[0], rest[j]) by {
        forall j | 0 <= j < |rest| ensures KeyLess(xs[0], rest[j]) {
          assert rest[j] in xs[1..] || rest[j] == k;
        }
      }
      [xs[0]] + rest
  }

  /** The distinct keys of `xs`, in ascending order. */
  function SortKeys(xs: seq<Key>): (r: seq<Key>)
    ensures KeysSorted(r)
    ensures forall y :: y in r <==> y in xs
  {
    if |xs| == 0 then [] else InsertKey(SortKeys(xs[..|xs| - 1]), xs[|xs| - 1])
  }

  /** A sorted key list has no key twice. */
  lemma {:induction false} SortedDistinct(xs: seq<Key>, i: nat, j: nat)
    requires KeysSorted(xs) && i < j < |xs|
    ensures xs[i] != xs[j]
  {
    KeyLessAsymmetric(xs[i], xs[j]);
  }

  predicate StrsSorted(xs: seq<string>) {
    forall i, j :: 0 <= i < j < |xs| ==> StrLess(xs[i], xs[j])
  }

  /** Inserts `o` into a strictly sorted list of strings unless it is already there. */
  function InsertStr(xs: seq<string>, o: string): (r: seq<string>)
    requires StrsSorted(xs)
    ensures StrsSorted(r)
    ensures forall y :: y in r <==> y in xs || y == o
  {
    if |xs| == 0 then [o]
    else if xs[0] == o then xs
    else if StrLess(o, xs[0]) then
      assert forall j :: 0 < j < |xs| ==> StrLess(o, xs[j]) by {
        forall j | 0 < j < |xs| ensures StrLess(o, xs[j]) { StrLessTransitive(o, xs[0], xs[j]); }
      }
      [o] + xs
    else
      StrLessTotal(o, xs[0]);
      var rest := InsertStr(xs[1..], o);
      assert forall j :: 0 <= j < |rest| ==> StrLess(xs[0], rest[j]) by {
        forall j | 0 <= j < |rest| ensures StrLess(xs[0], rest[j]) {
          assert rest[j] in xs[1..] || rest[j] == o;
        }
      }
      [xs[0]] + rest
  }

  /** The distinct strings of `xs`, in ascending order (`groupby` after a sort). */
  function SortStrs(xs: seq<string>): (r: seq<string>)
    ensures StrsSorted(r)
    ensures forall y :: y in r <==> y in xs
  {
    if |xs| == 0 then [] else InsertStr(SortStrs(xs[..|xs| - 1]), xs[|xs| - 1])
  }
}

=== FILE: profile.dfy ===
/**
 * The profiling script's interval-based second-by-second grid and the integrity checks it runs
 * on it. An event covers its start second (the floor of its absolute time) up to that start
 * plus its ceiled duration; each observation's grid runs over every second from its earliest
 * start to its latest end; at each second the latest-started event is selected by bisection,
 * and it carries its columns only while it is still running. The checks count duplicate
 * seconds, test contiguity, measure coverage and compare the grid length with the span; the
 * carry-forward fills the grid's columns within each observation.
 */
module Profile {
  import opened Options
  import opened Order
  import opened Fill
  import Expand

  /** A state-start row: `Observation`, the absolute time in seconds, `Duration_sf` when it is
      numeric, and the carried columns. */
  datatype Record = Record(obs: Option<string>, abs: Option<real>, duration: Option<real>, fields: seq<Option<string>>)

  /** A timed event: its observation and absolute time, `_start_dt_sec`, `_end_dt_sec`, its row
      position and its carried columns. */
  datatype Ev = Ev(obs: string, abs: real, start: int, end: int, pos: nat, fields: seq<Option<string>>)

  /** A grid row: (`Observation`, `date_time_abs`), `_sec` and the carried columns. */
  datatype ProfRow = ProfRow(key: Key, sec: int, fields: seq<Option<string>>)

  /** The position of `Behavior` among the carried columns. */
  const BehaviorField: nat := 0

  // ---- events ---------------------------------------------------------------------

  predicate Timed(r: Record) {
    r.obs.Some? && r.abs.Some?
  }

  /** The interval of a timed row: the start is the floor of its time, the end adds the
      ceiling of its duration, a missing duration counting as zero. */
  function Interval(r: Record, pos: nat): (e: Ev)
    requires Timed(r)
    ensures e.obs == r.obs.value && e.abs == r.abs.value && e.pos == pos && e.fields == r.fields
    ensures e.start as real <= r.abs.value < e.start as real + 1.0
    ensures r.duration.None? ==> e.end == e.start
    ensures r.duration.Some? ==> (e.end - e.start - 1) as real < r.duration.value <= (e.end - e.start) as real
  {
    var start := r.abs.value.Floor;
    Ev(r.obs.value, r.abs.value, start, start + Expand.Ceil(r.duration.GetOr(0.0)), pos, r.fields)
  }

  /** `dropna(subset=["Observation", abs_col])` over the first `n` rows, each survivor turned
      into its interval. */
  function Events(recs: seq<Record>, n: nat): (evs: seq<Ev>)
    requires n <= |recs|
    ensures |evs| <= n
  {
    if n == 0 then []
    else
      var evs := Events(recs, n - 1);
      if Timed(recs[n - 1]) then evs + [Interval(recs[n - 1], n - 1)] else evs
  }

  predicate PosIncreasing(evs: seq<Ev>) {
    forall i, j :: 0 <= i < j < |evs| ==> evs[i].pos < evs[j].pos
  }

  /** An event made from its own timed row. */
  predicate FromRow(recs: seq<Record>, e: Ev) {
    e.pos < |recs| && Timed(recs[e.pos]) && e == Interval(recs[e.pos], e.pos)
  }

  /** Every event is the interval of its own timed row, among the first `n`. */
  lemma {:induction false} EventsFromRows(recs: seq<Record>, n: nat)
    requires n <= |recs|
    ensures forall e :: e in Events(recs, n) ==> FromRow(recs, e) && e.pos < n
    decreases n
  {
    if n > 0 {
      EventsFromRows(recs, n - 1);
    }
  }

  /** Every timed row has its event. */
  lemma {:induction false} EventsComplete(recs: seq<Record>, n: nat)
    requires n <= |recs|
    ensures forall p :: 0 <= p < n && Timed(recs[p]) ==> Interval(recs[p], p) in Events(recs, n)
    decreases n
  {
    if n > 0 {
      EventsComplete(recs, n - 1);
    }
  }

  /** The events keep the rows' order. */
  lemma {:induction false} EventsOrdered(recs: seq<Record>, n: nat)
    requires n <= |recs|
    ensures PosIncreasing(Events(recs, n))
    decreases n
  {
    if n > 0 {
      EventsOrdered(recs, n - 1);
      EventsFromRows(recs, n - 1);
      var evs := Events(recs, n - 1);
      assert forall i :: 0 <= i < |evs| ==> evs[i] in evs;
    }
  }

  // ---- the stable order -----------------------------------------------------------

  /** `sort_values([..., "_start_dt_sec", abs_col], kind="mergesort")` within an observation:
      by start, then by time, ties kept in row order. */
  predicate EvLess(a: Ev, b: Ev) {
    a.start < b.start || (a.start == b.start && (a.abs < b.abs || (a.abs == b.abs && a.pos < b.pos)))
  }

  predicate EvSorted(s: seq<Ev>) {
    forall i, j :: 0 <= i < j < |s| ==> EvLess(s[i], s[j])
  }

  predicate PosDistinct(s: seq<Ev>) {
    forall i, j :: 0 <= i < j < |s| ==> s[i].pos != s[j].pos
  }

  function InsertEv(x: Ev, s: seq<Ev>): (r: seq<Ev>)
    ensures |r| == |s| + 1
  {
    if |s| == 0 then [x]
    else if EvLess(x, s[0]) then [x] + s
    else [s[0]] + InsertEv(x, s[1..])
  }

  lemma {:induction false} InsertEvSpec(x: Ev, s: seq<Ev>)
    requires EvSorted(s) && forall e :: e in s ==> e.pos != x.pos
    ensures EvSorted(InsertEv(x, s))
    ensures forall e :: e in InsertEv(x, s) <==> e == x || e in s
    decreases |s|
  {
    if |s| > 0 && !EvLess(x, s[0]) {
      assert s[0] in s;
      InsertEvSpec(x, s[1..]);
      var rest := InsertEv(x, s[1..]);
      forall j | 0 <= j < |rest| ensures EvLess(s[0], rest[j]) {
        assert rest[j] == x || rest[j] in s[1..];
      }
    }
  }

  /** The stable sort of one observation's events. */
  function SortEvs(s: seq<Ev>): (r: seq<Ev>)
    ensures |r| == |s|
  {
    if |s| == 0 then [] else InsertEv(s[|s| - 1], SortEvs(s[..|s| - 1]))
  }

  /** The sort orders the events strictly and keeps exactly the same events. */
  lemma {:induction false} SortEvsSpec(s: seq<Ev>)
    requires PosDistinct(s)
    ensures EvSorted(SortEvs(s))
    ensures forall e :: e in SortEvs(s) <==> e in s
    decreases |s|
  {
    if |s| > 0 {
      var init := s[..|s| - 1];
      var x := s[|s| - 1];
      SortEvsSpec(init);
      forall e | e in SortEvs(init) ensures e.pos != x.pos {
        var i :| 0 <= i < |init| && init[i] == e;
      }
      InsertEvSpec(x, SortEvs(init));
      assert s == init + [x];
    }
  }

  // ---- one observation ------------------------------------------------------------

  /** The events of observation `o`, in row order. */
  function OfObs(evs: seq<Ev>, o: string): (r: seq<Ev>)
    ensures |r| <= |evs|
  {
    if |evs| == 0 then []
    else if evs[0].obs == o then [evs[0]] + OfObs(evs[1..], o)
    else OfObs(evs[1..], o)
  }

  lemma {:induction false} OfObsSpec(evs: seq<Ev>, o: string)
    requires PosIncreasing(evs)
    ensures forall e :: e in OfObs(evs, o) <==> e in evs && e.obs == o
    ensures PosIncreasing(OfObs(evs, o))
    decreases |evs|
  {
    if |evs| > 0 {
      OfObsSpec(evs[1..], o);
      assert evs == [evs[0]] + evs[1..];
      var rest := OfObs(evs[1..], o);
      forall j | 0 <= j < |rest| ensures evs[0].pos < rest[j].pos {
        assert rest[j] in evs[1..];
      }
    }
  }

  /** `np.searchsorted(starts, t, side="right") - 1`: the last of the first `n` events that has
      started by `t`, or -1. */
  function LastStarted(g: seq<Ev>, t: int, n: nat): (j: int)
    requires n <= |g|
    ensures -1 <= j < n
    ensures j >= 0 ==> g[j].start <= t
    ensures forall k :: j < k < n ==> g[k].start > t
  {
    if n == 0 then -1
    else if g[n - 1].start <= t then n - 1
    else LastStarted(g, t, n - 1)
  }

  function Nulls(w: nat): (r: seq<Option<string>>)
    ensures |r| == w
  {
    seq(w, i requires 0 <= i < w => None)
  }

  /** The carried columns at second `t`: the selected event's while it is still running at
      `t`, nulls otherwise. */
  function Carried(g: seq<Ev>, t: int, w: nat): seq<Option<string>> {
    var j := LastStarted(g, t, |g|);
    if j >= 0 && t <= g[j].end then g[j].fields else Nulls(w)
  }

  /** `g["_start_dt_sec"].min()`. */
  function MinStart(g: seq<Ev>): (m: int)
    requires |g| > 0
    ensures forall k :: 0 <= k < |g| ==> m <= g[k].start
    ensures exists k :: 0 <= k < |g| && m == g[k].start
  {
    if |g| == 1 then g[0].start
    else
      var m := MinStart(g[..|g| - 1]);
      if g[|g| - 1].start < m then g[|g| - 1].start else m
  }

  /** `g["_end_dt_sec"].max()`. */
  function MaxEnd(g: seq<Ev>): (m: int)
    requires |g| > 0
    ensures forall k :: 0 <= k < |g| ==> g[k].end <= m
    ensures exists k :: 0 <= k < |g| && m == g[k].end
  {
    if |g| == 1 then g[0].end
    else
      var m := MaxEnd(g[..|g| - 1]);
      if g[|g| - 1].end > m then g[|g| - 1].end else m
  }

  /** The number of seconds of `pd.date_range(lo, hi, freq="1s")`: none when `hi < lo`. */
  function RangeLength(lo: int, hi: int): nat {
    if lo <= hi then hi - lo + 1 else 0
  }

  /** One observation's grid: every second from the earliest start to the latest end, `_sec`
      counting from zero, and the carried columns. */
  function GroupGrid(o: string, g: seq<Ev>, w: nat): (rows: seq<ProfRow>)
  {
    if |g| == 0 then []
    else
      var lo := MinStart(g);
      seq(RangeLength(lo, MaxEnd(g)), k requires 0 <= k < RangeLength(lo, MaxEnd(g)) => GridRow(o, g, w, lo, k))
  }

  lemma {:induction false} GroupGridRows(o: string, g: seq<Ev>, w: nat)
    requires |g| > 0
    ensures var lo := MinStart(g);
            && |GroupGrid(o, g, w)| == RangeLength(lo, MaxEnd(g))
            && forall k :: 0 <= k < |GroupGrid(o, g, w)| ==> GroupGrid(o, g, w)[k] == GridRow(o, g, w, lo, k)
  {
  }

  /** The grid row `k` seconds after the first. */
  function GridRow(o: string, g: seq<Ev>, w: nat, lo: int, k: nat): ProfRow {
    ProfRow(Key(o, lo + k), k, Carried(g, lo + k, w))
  }

  /** `np.searchsorted(starts, v, side="right")` by bisection on non-decreasing `starts`. */
  method SearchSortedRight(starts: seq<int>, v: int) returns (r: nat)
    requires forall i, j :: 0 <= i < j < |starts| ==> starts[i] <= starts[j]
    ensures r <= |starts|
    ensures forall j :: 0 <= j < r ==> starts[j] <= v
    ensures forall j :: r <= j < |starts| ==> starts[j] > v
  {
    var lo, hi := 0, |starts|;
    while lo < hi
      invariant 0 <= lo <= hi <= |starts|
      invariant forall j :: 0 <= j < lo ==> starts[j] <= v
      invariant forall j :: hi <= j < |starts| ==> starts[j] > v
      decreases hi - lo
    {
      var mid := (lo + hi) / 2;
      if starts[mid] <= v {
        lo := mid + 1;
      } else {
        hi := mid;
      }
    }
    r := lo;
  }

  /** The bisection finds the event `LastStarted` defines. */
  lemma {:induction false} BisectionSelects(g: seq<Ev>, t: int, r: nat)
    requires r <= |g|
    requires forall j :: 0 <= j < r ==> g[j].start <= t
    requires forall j :: r <= j < |g| ==> g[j].start > t
    ensures LastStarted(g, t, |g|) == r - 1
  {
    var j := LastStarted(g, t, |g|);
    assert j >= r - 1 by {
      if r > 0 {
        assert g[r - 1].start <= t;
      }
    }
    assert j <= r - 1 by {
      if j >= 0 {
        assert g[j].start <= t;
      }
    }
  }

  /** The events' start seconds, which the bisection searches. */
  function Starts(g: seq<Ev>): (s: seq<int>)
    ensures |s| == |g| && forall i :: 0 <= i < |g| ==> s[i] == g[i].start
  {
    seq(|g|, i requires 0 <= i < |g| => g[i].start)
  }

  lemma {:induction false} StartsAscending(g: seq<Ev>)
    requires EvSorted(g)
    ensures forall i, j :: 0 <= i < j < |g| ==> Starts(g)[i] <= Starts(g)[j]
  {
    forall i, j | 0 <= i < j < |g| ensures Starts(g)[i] <= Starts(g)[j] {
      assert EvLess(g[i], g[j]);
    }
  }

  /** The row of second `lo + k`, found by one bisection. */
  method BuildRow(o: string, g: seq<Ev>, w: nat, lo: int, k: nat) returns (row: ProfRow)
    requires EvSorted(g)
    ensures row == GridRow(o, g, w, lo, k)
  {
    var t := lo + k;
    StartsAscending(g);
    var r := SearchSortedRight(Starts(g), t);
    BisectionSelects(g, t, r);
    var idx := r as int - 1;
    var fields := if idx >= 0 && t <= g[idx].end then g[idx].fields else Nulls(w);
    row := ProfRow(Key(o, t), k, fields);
  }

  /** One observation's grid built as the script builds it: one bisection per second. */
  method BuildGroup(o: string, g: seq<Ev>, w: nat) returns (rows: seq<ProfRow>)
    requires EvSorted(g)
    ensures rows == GroupGrid(o, g, w)
  {
    if |g| == 0 {
      return [];
    }
    var lo := MinStart(g);
    var n := RangeLength(lo, MaxEnd(g));
    rows := [];
    var k := 0;
    while k < n
      invariant 0 <= k <= n && |rows| == k
      invariant forall j :: 0 <= j < k ==> rows[j] == GridRow(o, g, w, lo, j)
    {
      var row := BuildRow(o, g, w, lo, k);
      rows := rows + [row];
      k := k + 1;
    }
    GroupGridRows(o, g, w);
  }

  // ---- selection and coverage -----------------------------------------------------

  /** A carried value comes from an event that covers the second. */
  lemma {:induction false} CarriedFromCovering(g: seq<Ev>, t: int, w: nat)
    requires Carried(g, t, w) != Nulls(w)
    ensures exists k :: 0 <= k < |g| && g[k].start <= t <= g[k].end && Carried(g, t, w) == g[k].fields
  {
    var j := LastStarted(g, t, |g|);
    assert g[j].start <= t <= g[j].end;
  }

  // ---- the whole grid -------------------------------------------------------------

  function ObsOf(evs: seq<Ev>): (r: seq<string>)
    ensures |r| == |evs|
  {
    seq(|evs|, i requires 0 <= i < |evs| => evs[i].obs)
  }

  function Flatten(gs: seq<seq<ProfRow>>): seq<ProfRow> {
    if |gs| == 0 then [] else gs[0] + Flatten(gs[1..])
  }

  /** The grids of the listed observations. */
  function Grids(order: seq<string>, evs: seq<Ev>, w: nat): (gs: seq<seq<ProfRow>>)
    ensures |gs| == |order|
  {
    seq(|order|, i requires 0 <= i < |order| => GroupGrid(order[i], SortEvs(OfObs(evs, order[i])), w))
  }

  /** `sec_by_sec`: the observations' grids concatenated in observation order. */
  function SecBySec(recs: seq<Record>, w: nat): seq<ProfRow> {
    var evs := Events(recs, |recs|);
    Flatten(Grids(SortStrs(ObsOf(evs)), evs, w))
  }

  /**
   * `sec_by_sec` as the script reaches it. With no row that has both an observation and an
   * absolute time, `out` stays empty and `pd.concat` raises `ValueError` before any check
   * runs: that outcome is `None`.
   */
  function SecBySecOrStop(recs: seq<Record>, w: nat): (r: Option<seq<ProfRow>>)
    ensures r.None? <==> forall p :: 0 <= p < |recs| ==> !Timed(recs[p])
    ensures r.Some? ==> r.value == SecBySec(recs, w)
  {
    EventsEmpty(recs, |recs|);
    if |Events(recs, |recs|)| == 0 then None else Some(SecBySec(recs, w))
  }

  /** There are no events exactly when no row has both an observation and a time. */
  lemma {:induction false} EventsEmpty(recs: seq<Record>, n: nat)
    requires n <= |recs|
    ensures |Events(recs, n)| == 0 <==> forall p :: 0 <= p < n ==> !Timed(recs[p])
    decreases n
  {
    if n > 0 {
      EventsEmpty(recs, n - 1);
    }
  }

  /** A grid of observation `o` counting seconds up from its first. */
  predicate Run(g: seq<ProfRow>, o: string) {
    forall k :: 0 <= k < |g| ==> g[k].key.obs == o && g[k].key.second == g[0].key.second + k && g[k].sec == k
  }

  lemma {:induction false} GroupGridRun(o: string, g: seq<Ev>, w: nat)
    ensures Run(GroupGrid(o, g, w), o)
    ensures |g| > 0 ==> |GroupGrid(o, g, w)| == RangeLength(MinStart(g), MaxEnd(g))
    ensures |g| > 0 && |GroupGrid(o, g, w)| > 0 ==> GroupGrid(o, g, w)[0].key.second == MinStart(g)
  {
  }

  /** Groups of strictly ascending observations, each a run, concatenate to a table strictly
      ordered by (observation, second). */
  lemma {:induction false} FlattenSorted(gs: seq<seq<ProfRow>>, order: seq<string>)
    requires |gs| == |order| && StrsSorted(order)
    requires forall i :: 0 <= i < |gs| ==> Run(gs[i], order[i])
    ensures forall p, q :: 0 <= p < q < |Flatten(gs)| ==> KeyLess(Flatten(gs)[p].key, Flatten(gs)[q].key)
    ensures forall p :: 0 <= p < |Flatten(gs)| ==> Flatten(gs)[p].key.obs in order
    decreases |gs|
  {
    if |gs| > 0 {
      var rest := Flatten(gs[1..]);
      FlattenSorted(gs[1..], order[1..]);
      var all := Flatten(gs);
      assert all == gs[0] + rest;
      forall p, q | 0 <= p < q < |all| ensures KeyLess(all[p].key, all[q].key) {
        if q < |gs[0]| {
          assert all[p] == gs[0][p] && all[q] == gs[0][q];
        } else if p < |gs[0]| {
          assert all[q] == rest[q - |gs[0]|];
          var o := rest[q - |gs[0]|].key.obs;
          var i :| 0 <= i < |order[1..]| && order[1..][i] == o;
          assert StrLess(order[0], order[i + 1]);
        } else {
          assert all[p] == rest[p - |gs[0]|] && all[q] == rest[q - |gs[0]|];
        }
      }
      forall p | 0 <= p < |all| ensures all[p].key.obs in order {
        if p >= |gs[0]| {
          assert all[p] == rest[p - |gs[0]|];
        }
      }
    }
  }

  /** `sec_by_sec` is strictly ordered by (observation, second), so the carry-forward's
      `sort_values(["Observation", "date_time_abs"])` leaves it as it is. */
  lemma {:induction false} SecBySecSorted(recs: seq<Record>, w: nat)
    ensures var rows := SecBySec(recs, w);
            forall p, q :: 0 <= p < q < |rows| ==> KeyLess(rows[p].key, rows[q].key)
  {
    var evs := Events(recs, |recs|);
    var order := SortStrs(ObsOf(evs));
    var gs := Grids(order, evs, w);
    forall i | 0 <= i < |gs| ensures Run(gs[i], order[i]) {
      GroupGridRun(order[i], SortEvs(OfObs(evs, order[i])), w);
    }
    FlattenSorted(gs, order);
  }

  // ---- the integrity checks -------------------------------------------------------

  predicate SeenBefore(rows: seq<ProfRow>, i: nat)
    requires i < |rows|
  {
    exists j :: 0 <= j < i && rows[j].key == rows[i].key
  }

  /** `duplicated(subset=["Observation", "date_time_abs"]).sum()`. */
  function DuplicateCount(rows: seq<ProfRow>): (n: nat)
    ensures n <= |rows|
  {
    if |rows| == 0 then 0
    else DuplicateCount(rows[..|rows| - 1]) + (if SeenBefore(rows, |rows| - 1) then 1 else 0)
  }

  /** The duplicate count is zero exactly when no two rows share an (observation, second). */
  lemma {:induction false} NoDuplicatesIff(rows: seq<ProfRow>)
    ensures DuplicateCount(rows) == 0 <==> forall i, j :: 0 <= i < j < |rows| ==> rows[i].key != rows[j].key
    decreases |rows|
  {
    if |rows| > 0 {
      var init := rows[..|rows| - 1];
      NoDuplicatesIff(init);
      if DuplicateCount(rows) == 0 {
        forall i, j | 0 <= i < j < |rows| ensures rows[i].key != rows[j].key {
          if j < |rows| - 1 {
            assert init[i] == rows[i] && init[j] == rows[j];
          } else {
            assert !SeenBefore(rows, |rows| - 1);
          }
        }
      }
      if forall i, j :: 0 <= i < j < |rows| ==> rows[i].key != rows[j].key {
        assert forall i, j :: 0 <= i < j < |init| ==> init[i].key != init[j].key;
      }
    }
  }

  /** Check 1: the grid has no duplicate second. */
  lemma {:induction false} GridHasNoDuplicates(recs: seq<Record>, w: nat)
    ensures DuplicateCount(SecBySec(recs, w)) == 0
  {
    var rows := SecBySec(recs, w);
    SecBySecSorted(recs, w);
    forall i, j | 0 <= i < j < |rows| ensures rows[i].key != rows[j].key {
      KeyLessAsymmetric(rows[i].key, rows[j].key);
    }
    NoDuplicatesIff(rows);
  }

  /** The seconds of observation `o`'s rows, in table order. */
  function ObsSeconds(rows: seq<ProfRow>, o: string): (ts: seq<int>)
    ensures |ts| <= |rows|
  {
    if |rows| == 0 then []
    else
      var ts := ObsSeconds(rows[..|rows| - 1], o);
      if rows[|rows| - 1].key.obs == o then ts + [rows[|rows| - 1].key.second] else ts
  }

  function InsertInt(x: int, s: seq<int>): (r: seq<int>)
    ensures |r| == |s| + 1
  {
    if |s| == 0 then [x]
    else if x < s[0] then [x] + s
    else [s[0]] + InsertInt(x, s[1..])
  }

  /** `sort_values()` on a column of seconds. */
  function SortInts(xs: seq<int>): (r: seq<int>)
    ensures |r| == |xs|
  {
    if |xs| == 0 then [] else InsertInt(xs[|xs| - 1], SortInts(xs[..|xs| - 1]))
  }

  /** `_is_contig`: at most one second, or consecutive sorted seconds one apart. */
  predicate IsContig(ts: seq<int>) {
    var d := SortInts(ts);
    |d| <= 1 || forall i :: 1 <= i < |d| ==> d[i] - d[i - 1] == 1
  }

  /** A run of seconds one apart. */
  predicate Consecutive(ts: seq<int>) {
    forall i :: 0 <= i < |ts| ==> ts[i] == ts[0] + i
  }

  /** Contiguity means the sorted seconds form one run. */
  lemma {:induction false} ContigIsRun(ts: seq<int>)
    ensures IsContig(ts) <==> Consecutive(SortInts(ts))
  {
    var d := SortInts(ts);
    if IsContig(ts) && |d| > 1 {
      StepsMakeRun(d, |d|);
    }
    if Consecutive(d) {
      forall i | 1 <= i < |d| ensures d[i] - d[i - 1] == 1 {
        assert d[i] == d[0] + i && d[i - 1] == d[0] + (i - 1);
      }
    }
  }

  lemma {:induction false} StepsMakeRun(d: seq<int>, n: nat)
    requires 0 < n <= |d| && forall i :: 1 <= i < |d| ==> d[i] - d[i - 1] == 1
    ensures forall i :: 0 <= i < n ==> d[i] == d[0] + i
    decreases n
  {
    if n > 1 {
      StepsMakeRun(d, n - 1);
      assert d[n - 1] - d[n - 2] == 1;
    }
  }

  predicate Ascending(xs: seq<int>) {
    forall i, j :: 0 <= i < j < |xs| ==> xs[i] <= xs[j]
  }

  /** Sorting an already ascending column changes nothing. */
  lemma {:induction false} SortAscendingFixed(xs: seq<int>)
    requires Ascending(xs)
    ensures SortInts(xs) == xs
    decreases |xs|
  {
    if |xs| > 0 {
      var init := xs[..|xs| - 1];
      SortAscendingFixed(init);
      AppendLargest(xs[|xs| - 1], init);
      assert xs == init + [xs[|xs| - 1]];
    }
  }

  lemma {:induction false} AppendLargest(x: int, s: seq<int>)
    requires forall i :: 0 <= i < |s| ==> s[i] <= x
    ensures InsertInt(x, s) == s + [x]
    decreases |s|
  {
    if |s| > 0 {
      AppendLargest(x, s[1..]);
      assert s == [s[0]] + s[1..];
    }
  }

  /** `n - (max - min + 1)` for one observation's seconds. */
  function SpanGap(ts: seq<int>): int
    requires |ts| > 0
  {
    |ts| - (MaxInt(ts) - MinInt(ts) + 1)
  }

  function MinInt(ts: seq<int>): (m: int)
    requires |ts| > 0
    ensures forall i :: 0 <= i < |ts| ==> m <= ts[i]
    ensures exists i :: 0 <= i < |ts| && m == ts[i]
  {
    if |ts| == 1 then ts[0] else var m := MinInt(ts[..|ts| - 1]); if ts[|ts| - 1] < m then ts[|ts| - 1] else m
  }

  function MaxInt(ts: seq<int>): (m: int)
    requires |ts| > 0
    ensures forall i :: 0 <= i < |ts| ==> ts[i] <= m
    ensures exists i :: 0 <= i < |ts| && m == ts[i]
  {
    if |ts| == 1 then ts[0] else var m := MaxInt(ts[..|ts| - 1]); if ts[|ts| - 1] > m then ts[|ts| - 1] else m
  }

  /** A run of seconds is contiguous and exactly as long as its span. */
  lemma {:induction false} RunChecks(ts: seq<int>)
    requires Consecutive(ts)
    ensures IsContig(ts)
    ensures |ts| > 0 ==> SpanGap(ts) == 0
  {
    assert Ascending(ts);
    SortAscendingFixed(ts);
    ContigIsRun(ts);
    if |ts| > 0 {
      var lo := MinInt(ts);
      var hi := MaxInt(ts);
      assert lo == ts[0] by {
        var i :| 0 <= i < |ts| && lo == ts[i];
      }
      assert hi == ts[|ts| - 1] by {
        var i :| 0 <= i < |ts| && hi == ts[i];
      }
    }
  }

  lemma {:induction false} ObsSecondsAppend(a: seq<ProfRow>, b: seq<ProfRow>, o: string)
    ensures ObsSeconds(a + b, o) == ObsSeconds(a, o) + ObsSeconds(b, o)
    decreases |b|
  {
    if |b| == 0 {
      assert a + b == a;
    } else {
      var init, last := b[..|b| - 1], b[|b| - 1];
      ObsSecondsAppend(a, init, o);
      assert (a + b)[..|a + b| - 1] == a + init;
      assert (a + b)[|a + b| - 1] == last;
      if last.key.obs == o {
        var x, y := ObsSeconds(a, o), ObsSeconds(init, o);
        assert (x + y) + [last.key.second] == x + (y + [last.key.second]);
      }
    }
  }

  lemma {:induction false} OtherObsNoSeconds(rows: seq<ProfRow>, o: string)
    requires forall p :: 0 <= p < |rows| ==> rows[p].key.obs != o
    ensures ObsSeconds(rows, o) == []
    decreases |rows|
  {
    if |rows| > 0 {
      OtherObsNoSeconds(rows[..|rows| - 1], o);
    }
  }

  /** The seconds of a run, read back in order. */
  lemma {:induction false} RunSeconds(g: seq<ProfRow>, o: string, n: nat)
    requires Run(g, o) && n <= |g|
    ensures var ts := ObsSeconds(g[..n], o);
            |ts| == n && forall k :: 0 <= k < n ==> ts[k] == g[0].key.second + k
    decreases n
  {
    if n > 0 {
      RunSeconds(g, o, n - 1);
      assert g[..n][..n - 1] == g[..n - 1];
    }
  }

  /** In a table of runs for strictly ascending observations, each observation's seconds form
      one run. */
  lemma {:induction false} FlattenSecondsRun(gs: seq<seq<ProfRow>>, order: seq<string>, o: string)
    requires |gs| == |order| && StrsSorted(order)
    requires forall i :: 0 <= i < |gs| ==> Run(gs[i], order[i])
    ensures Consecutive(ObsSeconds(Flatten(gs), o))
    decreases |gs|
  {
    if |gs| > 0 {
      var rest := Flatten(gs[1..]);
      ObsSecondsAppend(gs[0], rest, o);
      if o == order[0] {
        FlattenSorted(gs[1..], order[1..]);
        forall p | 0 <= p < |rest| ensures rest[p].key.obs != o {
          var i :| 0 <= i < |order[1..]| && order[1..][i] == rest[p].key.obs;
          assert StrLess(order[0], order[i + 1]);
          StrLessIrreflexive(o);
        }
        OtherObsNoSeconds(rest, o);
        RunSeconds(gs[0], o, |gs[0]|);
        assert gs[0][..|gs[0]|] == gs[0];
      } else {
        OtherObsNoSeconds(gs[0], o);
        FlattenSecondsRun(gs[1..], order[1..], o);
      }
    }
  }

  /** Checks 2 and 4: every observation's seconds in the grid are contiguous, and its grid is
      exactly as long as its span. */
  lemma {:induction false} GridContiguous(recs: seq<Record>, w: nat, o: string)
    ensures IsContig(ObsSeconds(SecBySec(recs, w), o))
    ensures |ObsSeconds(SecBySec(recs, w), o)| > 0 ==> SpanGap(ObsSeconds(SecBySec(recs, w), o)) == 0
  {
    var evs := Events(recs, |recs|);
    var order := SortStrs(ObsOf(evs));
    var gs := Grids(order, evs, w);
    forall i | 0 <= i < |gs| ensures Run(gs[i], order[i]) {
      GroupGridRun(order[i], SortEvs(OfObs(evs, order[i])), w);
    }
    FlattenSecondsRun(gs, order, o);
    RunChecks(ObsSeconds(SecBySec(recs, w), o));
  }

  /** Each observation's grid is laid over exactly that observation's events, in the stable
      order the bisection needs. */
  lemma {:induction false} GroupEventsSorted(recs: seq<Record>, o: string)
    ensures var g := SortEvs(OfObs(Events(recs, |recs|), o));
            && EvSorted(g)
            && forall e :: e in g <==> e in Events(recs, |recs|) && e.obs == o
  {
    var evs := Events(recs, |recs|);
    EventsOrdered(recs, |recs|);
    OfObsSpec(evs, o);
    SortEvsSpec(OfObs(evs, o));
  }

  /** `Behavior.notna().mean()` over one observation's rows. */
  function Coverage(col: seq<Option<string>>): (c: real)
    requires |col| > 0
  {
    (Present(col) as real) / (|col| as real)
  }

  /** Coverage is a fraction: one exactly when every cell is present, zero exactly when none
      is. */
  lemma {:induction false} CoverageSpec(col: seq<Option<string>>)
    requires |col| > 0
    ensures 0.0 <= Coverage(col) <= 1.0
    ensures Coverage(col) == 1.0 <==> forall i :: 0 <= i < |col| ==> col[i].Some?
    ensures Coverage(col) == 0.0 <==> forall i :: 0 <= i < |col| ==> col[i].None?
  {
    PresentBounds(col);
    Fraction(Present(col) as real, |col| as real);
  }

  lemma {:induction false} Fraction(p: real, n: real)
    requires 0.0 <= p <= n && n > 0.0
    ensures 0.0 <= p / n <= 1.0
    ensures p / n == 1.0 <==> p == n
    ensures p / n == 0.0 <==> p == 0.0
  {
    assert p / n * n == p;
  }

  function Present(col: seq<Option<string>>): nat {
    if |col| == 0 then 0 else Present(col[..|col| - 1]) + (if col[|col| - 1].Some? then 1 else 0)
  }

  lemma {:induction false} PresentBounds(col: seq<Option<string>>)
    ensures Present(col) <= |col|
    ensures Present(col) == |col| <==> forall i :: 0 <= i < |col| ==> col[i].Some?
    ensures Present(col) == 0 <==> forall i :: 0 <= i < |col| ==> col[i].None?
    decreases |col|
  {
    if |col| > 0 {
      PresentBounds(col[..|col| - 1]);
    }
  }

  // ---- the carry-forward ----------------------------------------------------------

  function ObsColumn(rows: seq<ProfRow>): (keys: seq<string>)
    ensures |keys| == |rows|
  {
    seq(|rows|, i requires 0 <= i < |rows| => rows[i].key.obs)
  }

  function Column(rows: seq<ProfRow>, c: nat): (col: seq<Option<string>>)
    ensures |col| == |rows|
  {
    seq(|rows|, i requires 0 <= i < |rows| => if c < |rows[i].fields| then rows[i].fields[c] else None)
  }

  /** `groupby("Observation")[c].ffill()` on the grid. */
  function CarryForward(rows: seq<ProfRow>, c: nat): (col: seq<Option<string>>)
    ensures |col| == |rows|
  {
    GroupFFill(ObsColumn(rows), Column(rows, c))
  }

  /** After the carry-forward a cell is still null exactly when every cell of its observation
      up to it was, and otherwise it holds the latest present value of its observation. */
  lemma {:induction false} CarryForwardNull(rows: seq<ProfRow>, c: nat, i: nat) returns (j: nat)
    requires i < |rows|
    ensures var col := Column(rows, c);
            && (CarryForward(rows, c)[i].None? <==>
                  forall q :: 0 <= q <= i && rows[q].key.obs == rows[i].key.obs ==> col[q].None?)
            && (CarryForward(rows, c)[i].Some? ==>
                  && j <= i && rows[j].key.obs == rows[i].key.obs && col[j] == CarryForward(rows, c)[i]
                  && forall q :: j < q <= i && rows[q].key.obs == rows[i].key.obs ==> col[q].None?)
  {
    var keys := ObsColumn(rows);
    var col := Column(rows, c);
    GroupFFillSpec(keys, col);
    assert forall q :: 0 <= q < |rows| ==> keys[q] == rows[q].key.obs;
    j := 0;
    if CarryForward(rows, c)[i].Some? {
      j := GroupFFillLatest(keys, col, i);
    }
  }
}

=== FILE: text.dfy ===
/** Character-level string helpers shared by the label, time and key parsers. */
module Text {

  /** Python's `str.isspace()`, which is also what `\s` and `str.strip()` use. */
  predicate IsSpace(c: char) {
    ('\U{9}' <= c <= '\U{D}') || ('\U{1C}' <= c <= '\U{20}') || c == '\U{85}' || c == '\U{A0}'
    || c == '\U{1680}' || ('\U{2000}' <= c <= '\U{200A}') || c == '\U{2028}' || c == '\U{2029}'
    || c == '\U{202F}' || c == '\U{205F}' || c == '\U{3000}'
  }

  predicate NoSpace(s: string) {
    forall k :: 0 <= k < |s| ==> !IsSpace(s[k])
  }

  predicate StartsWith(p: string, s: string) {
    |p| <= |s| && s[..|p|] == p
  }

  /** Drops leading whitespace. */
  function TrimLeft(s: string): (r: string)
    ensures |r| <= |s|
    ensures |r| > 0 ==> !IsSpace(r[0])
  {
    if |s| > 0 && IsSpace(s[0]) then TrimLeft(s[1..]) else s
  }

  /** What `TrimLeft` removes is a run of whitespace, and what it keeps is a suffix. */
  lemma {:induction false} TrimLeftRemovesSpace(s: string)
    ensures var r := TrimLeft(s);
            r == s[|s| - |r|..] && forall k :: 0 <= k < |s| - |r| ==> IsSpace(s[k])
  {
    if |s| > 0 && IsSpace(s[0]) {
      TrimLeftRemovesSpace(s[1..]);
      var r := TrimLeft(s);
      assert forall k :: 1 <= k < |s| - |r| ==> s[k] == s[1..][k - 1];
    }
  }

  /** Drops trailing whitespace. */
  function TrimRight(s: string): (r: string)
    ensures |r| <= |s|
    ensures |r| > 0 ==> !IsSpace(r[|r| - 1])
  {
    if |s| > 0 && IsSpace(s[|s| - 1]) then TrimRight(s[..|s| - 1]) else s
  }

  /** What `TrimRight` removes is a run of whitespace, and what it keeps is a prefix. */
  lemma {:induction false} TrimRightRemovesSpace(s: string)
    ensures var r := TrimRight(s);
            r == s[..|r|] && forall k :: |r| <= k < |s| ==> IsSpace(s[k])
  {
    if |s| > 0 && IsSpace(s[|s| - 1]) {
      TrimRightRemovesSpace(s[..|s| - 1]);
      var r := TrimRight(s);
      assert forall k :: |r| <= k < |s| - 1 ==> s[k] == s[..|s| - 1][k];
    }
  }

  /** Python `str.strip()`. */
  function Strip(s: string): (r: string)
    ensures |r| > 0 ==> !IsSpace(r[0]) && !IsSpace(r[|r| - 1])
  {
    var l := TrimLeft(s);
    TrimRightRemovesSpace(l);
    TrimRight(l)
  }

  /** `str.strip()` is the identity on a string with no outer whitespace, so it is idempotent. */
  lemma {:induction false} StripFixed(s: string)
    requires |s| > 0 ==> !IsSpace(s[0]) && !IsSpace(s[|s| - 1])
    ensures Strip(s) == s
  {
  }

  predicate IsUpper(c: char) { 'A' <= c <= 'Z' }

  function LowerChar(c: char): (r: char)
    ensures !IsUpper(r)
    ensures IsSpace(r) <==> IsSpace(c)
  {
    if IsUpper(c) then (c as int + 32) as char else c
  }

  /** `str.lower()` restricted to ASCII letters. */
  function Lower(s: string): (r: string)
    ensures |r| == |s|
  {
    if |s| == 0 then "" else [LowerChar(s[0])] + Lower(s[1..])
  }

  lemma {:induction false} LowerPointwise(s: string)
    ensures forall k :: 0 <= k < |s| ==> Lower(s)[k] == LowerChar(s[k])
  {
    if |s| > 0 {
      LowerPointwise(s[1..]);
      assert forall k :: 1 <= k < |s| ==> Lower(s)[k] == Lower(s[1..])[k - 1];
    }
  }

  /** Replaces every occurrence of `a` by `b`, character for character. */
  function ReplaceChar(s: string, a: char, b: char): (r: string)
    ensures |r| == |s|
  {
    if |s| == 0 then "" else [if s[0] == a then b else s[0]] + ReplaceChar(s[1..], a, b)
  }

  lemma {:induction false} ReplaceCharPointwise(s: string, a: char, b: char)
    ensures forall k :: 0 <= k < |s| ==> ReplaceChar(s, a, b)[k] == (if s[k] == a then b else s[k])
  {
    if |s| > 0 {
      ReplaceCharPointwise(s[1..], a, b);
      assert forall k :: 1 <= k < |s| ==> ReplaceChar(s, a, b)[k] == ReplaceChar(s[1..], a, b)[k - 1];
    }
  }

  /** `re.sub(r"\s+", sep, s)` for a one-character `sep`: each maximal whitespace run becomes `sep`. */
  function CollapseTo(s: string, sep: char): (r: string)
    ensures |r| <= |s|
    decreases |s|
  {
    if |s| == 0 then ""
    else if IsSpace(s[0]) then [sep] + CollapseTo(TrimLeft(s[1..]), sep)
    else [s[0]] + CollapseTo(s[1..], sep)
  }

  /** Collapsing never touches a non-space first character, and never creates a leading space. */
  lemma {:induction false} CollapseHead(s: string, sep: char)
    ensures |CollapseTo(s, sep)| > 0 <==> |s| > 0
    ensures |s| > 0 && !IsSpace(s[0]) ==> CollapseTo(s, sep)[0] == s[0]
    ensures |s| > 0 && IsSpace(s[0]) ==> CollapseTo(s, sep)[0] == sep
  {
  }

  /** A prefix without whitespace is seen identically before and after collapsing. */
  lemma {:induction false} CollapsePrefix(p: string, t: string, sep: char)
    requires NoSpace(p)
    requires IsSpace(sep)
    ensures StartsWith(p, CollapseTo(t, sep)) <==> StartsWith(p, t)
    decreases |t|
  {
    if |p| == 0 || |t| == 0 {
    } else if IsSpace(t[0]) {
      assert !IsSpace(p[0]);
      assert CollapseTo(t, sep)[0] == sep;
    } else {
      var c := CollapseTo(t[1..], sep);
      assert CollapseTo(t, sep) == [t[0]] + c;
      CollapsePrefix(p[1..], t[1..], sep);
      assert NoSpace(p[1..]) by {
        forall k | 0 <= k < |p| - 1 ensures !IsSpace(p[1..][k]) {
          assert p[1..][k] == p[k + 1];
        }
      }
      if StartsWith(p, t) {
        assert t[1..][..|p| - 1] == t[..|p|][1..];
        assert StartsWith(p[1..], t[1..]);
        assert ([t[0]] + c)[..|p|] == [t[0]] + c[..|p| - 1];
      }
      if StartsWith(p, [t[0]] + c) {
        assert ([t[0]] + c)[..|p|] == [t[0]] + c[..|p| - 1];
        assert p[1..] == c[..|p| - 1];
        assert t[..|p|] == [t[0]] + t[1..][..|p| - 1];
      }
    }
  }

  // ---- decimal digits -------------------------------------------------------

  predicate IsDigit(c: char) { '0' <= c <= '9' }

  predicate AllDigits(s: string) {
    forall k :: 0 <= k < |s| ==> IsDigit(s[k])
  }

  /** A non-empty run of ASCII digits, `\d+`. */
  predicate IsCount(t: string) {
    |t| > 0 && AllDigits(t)
  }

  function DigitValue(c: char): nat
    requires IsDigit(c)
  {
    c as int - '0' as int
  }

  function DigitChar(d: nat): (c: char)
    requires d < 10
    ensures IsDigit(c) && DigitValue(c) == d
  {
    ('0' as int + d) as char
  }

  /** The number a string of decimal digits denotes, most significant digit first. */
  function DigitsValue(s: string): nat
    requires AllDigits(s)
  {
    if |s| == 0 then 0 else DigitsValue(s[..|s| - 1]) * 10 + DigitValue(s[|s| - 1])
  }

  function Pow10(n: nat): (r: nat)
    ensures r >= 1
  {
    if n == 0 then 1 else 10 * Pow10(n - 1)
  }

  /** Python `str(n)` for a natural number. */
  function NatToString(n: nat): (r: string)
    ensures |r| > 0 && AllDigits(r)
  {
    if n < 10 then [DigitChar(n)] else NatToString(n / 10) + [DigitChar(n % 10)]
  }

  /** Reading back the digits `str(n)` prints gives `n`. */
  lemma {:induction false} NatToStringRoundTrip(n: nat)
    ensures DigitsValue(NatToString(n)) == n
  {
    if n >= 10 {
      var s := NatToString(n);
      assert s[..|s| - 1] == NatToString(n / 10);
      NatToStringRoundTrip(n / 10);
    }
  }

  /** Leading zeros do not change a digit string's value. */
  lemma {:induction false} LeadingZero(s: string)
    requires AllDigits(s)
    ensures AllDigits("0" + s) && DigitsValue("0" + s) == DigitsValue(s)
  {
    if |s| > 0 {
      var z := "0" + s;
      assert z[..|z| - 1] == "0" + s[..|s| - 1];
      LeadingZero(s[..|s| - 1]);
    }
  }

  /** `f'{n:0{w}d}'`: at least `w` digits, zero-padded on the left. */
  function ZeroPad(n: nat, w: nat): (r: string)
    ensures AllDigits(r) && DigitsValue(r) == n
    ensures |r| == if |NatToString(n)| >= w then |NatToString(n)| else w
    decreases w
  {
    var s := NatToString(n);
    NatToStringRoundTrip(n);
    if |s| >= w then s else (LeadingZero(ZeroPad(n, w - 1)); "0" + ZeroPad(n, w - 1))
  }

  // ---- splitting -------------------------------------------------------------

  /** Python `s.split(c)`: the pieces between occurrences of `c`. */
  function Split(s: string, c: char): (r: seq<string>)
    ensures |r| > 0
  {
    if |s| == 0 then [""]
    else
      var rest := Split(s[1..], c);
      if s[0] == c then [""] + rest else [[s[0]] + rest[0]] + rest[1..]
  }

  /** No piece of a split contains the separator. */
  lemma {:induction false} SplitPiecesFree(s: string, c: char)
    ensures forall k :: 0 <= k < |Split(s, c)| ==> c !in Split(s, c)[k]
  {
    if |s| > 0 {
      SplitPiecesFree(s[1..], c);
      var rest := Split(s[1..], c);
      if s[0] != c {
        assert c !in [s[0]] + rest[0];
      }
    }
  }

  /** The inverse of `Split`: the pieces joined with `c` between them. */
  function Join(parts: seq<string>, c: char): string
    requires |parts| > 0
  {
    if |parts| == 1 then parts[0] else parts[0] + [c] + Join(parts[1..], c)
  }

  lemma {:induction false} Join2(a: string, b: string, c: char)
    ensures Join([a, b], c) == a + [c] + b
  {
    assert [a, b][1..] == [b];
  }

  lemma {:induction false} Join3(a: string, b: string, d: string, c: char)
    ensures Join([a, b, d], c) == a + [c] + b + [c] + d
  {
    assert [a, b, d][1..] == [b, d];
    Join2(b, d, c);
  }

  /** `(a + c + b).split(c) == [a, b]` when neither piece contains `c`. */
  lemma {:induction false} SplitTwo(a: string, b: string, c: char)
    requires c !in a && c !in b
    ensures Split(a + [c] + b, c) == [a, b]
  {
    Join2(a, b, c);
    JoinSplit([a, b], c);
  }

  /** `(a + c + b + c + d).split(c) == [a, b, d]` when no piece contains `c`. */
  lemma {:induction false} SplitThree(a: string, b: string, d: string, c: char)
    requires c !in a && c !in b && c !in d
    ensures Split(a + [c] + b + [c] + d, c) == [a, b, d]
  {
    Join3(a, b, d, c);
    JoinSplit([a, b, d], c);
  }

  lemma {:induction false} SplitJoin(s: string, c: char)
    ensures Join(Split(s, c), c) == s
  {
    if |s| > 0 {
      SplitJoin(s[1..], c);
      var rest := Split(s[1..], c);
      if s[0] != c && |rest| > 1 {
        assert ([[s[0]] + rest[0]] + rest[1..])[1..] == rest[1..];
      }
    }
  }

  /** Splitting pieces joined with `c` gives the pieces back, when none of them contains `c`. */
  lemma {:induction false} JoinSplit(parts: seq<string>, c: char)
    requires |parts| > 0
    requires forall k :: 0 <= k < |parts| ==> c !in parts[k]
    ensures Split(Join(parts, c), c) == parts
    decreases |parts|, |parts[0]|
  {
    if |parts| == 1 {
      SplitNoSep(parts[0], c);
    } else if |parts[0]| == 0 {
      JoinSplit(parts[1..], c);
      JoinSplitEmptyHead(parts, c);
    } else {
      var p0 := parts[0][1..];
      var parts' := [p0] + parts[1..];
      assert c !in p0 by { assert forall k :: 0 <= k < |p0| ==> p0[k] == parts[0][k + 1]; }
      assert forall k :: 1 <= k < |parts'| ==> parts'[k] == parts[k];
      JoinSplit(parts', c);
      JoinSplitHead(parts, c);
    }
  }

  /** An empty first part becomes a leading separator. */
  lemma {:induction false} JoinSplitEmptyHead(parts: seq<string>, c: char)
    requires |parts| > 1 && parts[0] == ""
    requires Split(Join(parts[1..], c), c) == parts[1..]
    ensures Split(Join(parts, c), c) == parts
  {
    var rest := parts[1..];
    var j := Join(parts, c);
    assert j == [c] + Join(rest, c);
    assert j[1..] == Join(rest, c);
    assert parts == [""] + rest;
  }

  /** A first part that starts with a non-separator contributes that character to the first piece. */
  lemma {:induction false} JoinSplitHead(parts: seq<string>, c: char)
    requires |parts| > 1 && |parts[0]| > 0 && parts[0][0] != c
    requires Split(Join([parts[0][1..]] + parts[1..], c), c) == [parts[0][1..]] + parts[1..]
    ensures Split(Join(parts, c), c) == parts
  {
    var p0 := parts[0][1..];
    var parts' := [p0] + parts[1..];
    assert parts'[1..] == parts[1..];
    var j := Join(parts, c);
    assert j == [parts[0][0]] + Join(parts', c);
    assert j[1..] == Join(parts', c);
    assert parts[0] == [parts[0][0]] + p0;
  }


  lemma {:induction false} SplitNoSep(s: string, c: char)
    requires c !in s
    ensures Split(s, c) == [s]
  {
    if |s| > 0 {
      assert c !in s[1..] by { assert forall k :: 0 <= k < |s| - 1 ==> s[1..][k] == s[k + 1]; }
      SplitNoSep(s[1..], c);
      assert s == [s[0]] + s[1..];
    }
  }

  /** Number of occurrences of `c` in `s` (pandas `str.count` with a one-character pattern). */
  function Count(s: string, c: char): (n: nat) {
    if |s| == 0 then 0 else (if s[0] == c then 1 else 0) + Count(s[1..], c)
  }

  /** A character occurs in a string exactly when its count is positive. */
  lemma {:induction false} CountZero(s: string, c: char)
    ensures Count(s, c) == 0 <==> c !in s
  {
    if |s| > 0 {
      CountZero(s[1..], c);
      assert s == [s[0]] + s[1..];
    }
  }

  /** Split produces one more piece than there are separators. */
  lemma {:induction false} SplitCount(s: string, c: char)
    ensures |Split(s, c)| == Count(s, c) + 1
  {
    if |s| > 0 {
      SplitCount(s[1..], c);
    }
  }

  lemma {:induction false} CountAppend(a: string, b: string, c: char)
    ensures Count(a + b, c) == Count(a, c) + Count(b, c)
  {
    if |a| > 0 {
      assert (a + b)[1..] == a[1..] + b;
      assert (a + b)[0] == a[0];
      CountAppend(a[1..], b, c);
    } else {
      assert a + b == b;
    }
  }

  /** A number below `10^w` prints in at most `w` digits. */
  lemma {:induction false} NatToStringLength(n: nat, w: nat)
    requires w >= 1 && n < Pow10(w)
    ensures |NatToString(n)| <= w
    decreases w
  {
    if n >= 10 {
      assert w >= 2;
      assert n / 10 < Pow10(w - 1);
      NatToStringLength(n / 10, w - 1);
    }
  }

  // ---- facts for the label normaliser ---------------------------------------

  predicate NoUpper(s: string) {
    forall k :: 0 <= k < |s| ==> !IsUpper(s[k])
  }

  /** What `re.sub(r"\s+", " ", s)` leaves: every whitespace character is a single space. */
  predicate Collapsed(s: string) {
    forall k :: 0 <= k < |s| && IsSpace(s[k]) ==> s[k] == ' ' && (k + 1 < |s| ==> !IsSpace(s[k + 1]))
  }

  /** Stripping only removes characters. */
  lemma {:induction false} StripNoNew(s: string, c: char)
    requires c !in s
    ensures c !in Strip(s)
  {
    var l := TrimLeft(s);
    TrimLeftRemovesSpace(s);
    TrimRightRemovesSpace(l);
    assert c !in l by { assert forall k :: 0 <= k < |l| ==> l[k] == s[|s| - |l| + k]; }
  }

  lemma {:induction false} LowerNoUpper(s: string)
    ensures NoUpper(Lower(s))
  {
    LowerPointwise(s);
  }

  /** Lower-casing keeps the whitespace positions, so outer whitespace stays absent. */
  lemma {:induction false} LowerEdges(s: string)
    requires |s| > 0 ==> !IsSpace(s[0]) && !IsSpace(s[|s| - 1])
    ensures var l := Lower(s); |l| > 0 ==> !IsSpace(l[0]) && !IsSpace(l[|l| - 1])
  {
    LowerPointwise(s);
  }

  /** Lower-casing leaves other characters alone. */
  lemma {:induction false} LowerNoNew(s: string, c: char)
    requires c !in s && !('a' <= c <= 'z')
    ensures c !in Lower(s)
  {
    LowerPointwise(s);
    assert forall k :: 0 <= k < |s| ==> Lower(s)[k] == LowerChar(s[k]);
  }

  lemma {:induction false} LowerFixed(s: string)
    requires NoUpper(s)
    ensures Lower(s) == s
  {
    LowerPointwise(s);
  }

  lemma {:induction false} ReplaceCharFixed(s: string, a: char, b: char)
    requires a !in s
    ensures ReplaceChar(s, a, b) == s
  {
    ReplaceCharPointwise(s, a, b);
  }

  /** Replacing `a` by `b` leaves no `a`, brings in no other character, and keeps whitespace
      positions when neither character is whitespace. */
  lemma {:induction false} ReplaceCharFacts(s: string, a: char, b: char)
    requires a != b
    ensures a !in ReplaceChar(s, a, b)
    ensures forall c :: c != b && c !in s ==> c !in ReplaceChar(s, a, b)
    ensures !IsSpace(a) && !IsSpace(b) ==>
              forall k :: 0 <= k < |s| ==> (IsSpace(ReplaceChar(s, a, b)[k]) <==> IsSpace(s[k]))
    ensures NoUpper(s) && !IsUpper(b) ==> NoUpper(ReplaceChar(s, a, b))
  {
    ReplaceCharPointwise(s, a, b);
    var r := ReplaceChar(s, a, b);
    forall c | c != b && c !in s ensures c !in r {
      assert forall k :: 0 <= k < |r| ==> r[k] == (if s[k] == a then b else s[k]);
    }
  }

  /** A collapsed text is left alone by collapsing. */
  lemma {:induction false} CollapseFixed(s: string)
    requires Collapsed(s)
    ensures CollapseTo(s, ' ') == s
    decreases |s|
  {
    if |s| > 0 {
      assert Collapsed(s[1..]) by {
        forall k | 0 <= k < |s| - 1 && IsSpace(s[1..][k])
          ensures s[1..][k] == ' ' && (k + 1 < |s| - 1 ==> !IsSpace(s[1..][k + 1]))
        {
          assert s[1..][k] == s[k + 1];
        }
      }
      CollapseFixed(s[1..]);
      if IsSpace(s[0]) {
        assert |s| > 1 ==> !IsSpace(s[1]);
        assert TrimLeft(s[1..]) == s[1..];
      }
      assert s == [s[0]] + s[1..];
    }
  }

  /** Collapsing yields a collapsed text. */
  lemma {:induction false} CollapseIsCollapsed(s: string)
    ensures Collapsed(CollapseTo(s, ' '))
    decreases |s|
  {
    if |s| > 0 {
      if IsSpace(s[0]) {
        var t := TrimLeft(s[1..]);
        CollapseIsCollapsed(t);
        CollapseHead(t, ' ');
        CollapsedCons(' ', CollapseTo(t, ' '));
      } else {
        CollapseIsCollapsed(s[1..]);
        CollapsedCons(s[0], CollapseTo(s[1..], ' '));
      }
    }
  }

  lemma {:induction false} CollapsedCons(c: char, t: string)
    requires Collapsed(t)
    requires IsSpace(c) ==> c == ' ' && (|t| > 0 ==> !IsSpace(t[0]))
    ensures Collapsed([c] + t)
  {
    var u := [c] + t;
    forall k | 0 <= k < |u| && IsSpace(u[k]) ensures u[k] == ' ' && (k + 1 < |u| ==> !IsSpace(u[k + 1])) {
      if k > 0 {
        assert u[k] == t[k - 1];
        if k + 1 < |u| {
          assert u[k + 1] == t[k];
        }
      }
    }
  }

  /** Collapsing a text that ends in a non-space ends in that same character. */
  lemma {:induction false} CollapseLast(s: string, sep: char)
    requires |s| > 0 && !IsSpace(s[|s| - 1])
    ensures var r := CollapseTo(s, sep); |r| > 0 && r[|r| - 1] == s[|s| - 1]
    decreases |s|
  {
    if IsSpace(s[0]) {
      var t := TrimLeft(s[1..]);
      TrimLeftRemovesSpace(s[1..]);
      assert !IsSpace(s[1..][|s| - 2]);
      assert t[|t| - 1] == s[|s| - 1];
      CollapseLast(t, sep);
    } else if |s| > 1 {
      CollapseLast(s[1..], sep);
    }
  }

  /** Collapsing brings in no character other than the separator. */
  lemma {:induction false} CollapseNoNew(s: string, sep: char, c: char)
    requires c != sep && c !in s
    ensures c !in CollapseTo(s, sep)
    decreases |s|
  {
    if |s| > 0 {
      assert c !in s[1..] by { assert forall k :: 0 <= k < |s| - 1 ==> s[1..][k] == s[k + 1]; }
      if IsSpace(s[0]) {
        var t := TrimLeft(s[1..]);
        TrimLeftRemovesSpace(s[1..]);
        assert c !in t by { assert forall k :: 0 <= k < |t| ==> t[k] == s[1..][|s| - 1 - |t| + k]; }
        CollapseNoNew(t, sep, c);
      } else {
        CollapseNoNew(s[1..], sep, c);
      }
    }
  }

  /** Collapsing a text without upper-case letters brings none in. */
  lemma {:induction false} CollapseNoUpper(s: string, sep: char)
    requires NoUpper(s) && !IsUpper(sep)
    ensures NoUpper(CollapseTo(s, sep))
    decreases |s|
  {
    if |s| > 0 {
      assert NoUpper(s[1..]) by { assert forall k :: 0 <= k < |s| - 1 ==> s[1..][k] == s[k + 1]; }
      if IsSpace(s[0]) {
        var t := TrimLeft(s[1..]);
        TrimLeftRemovesSpace(s[1..]);
        assert NoUpper(t) by { assert forall k :: 0 <= k < |t| ==> t[k] == s[1..][|s| - 1 - |t| + k]; }
        CollapseNoUpper(t, sep);
        NoUpperCons(sep, CollapseTo(t, sep));
      } else {
        CollapseNoUpper(s[1..], sep);
        NoUpperCons(s[0], CollapseTo(s[1..], sep));
      }
    }
  }

  lemma {:induction false} NoUpperCons(c: char, t: string)
    requires !IsUpper(c) && NoUpper(t)
    ensures NoUpper([c] + t)
  {
    assert forall k :: 1 <= k < |t| + 1 ==> ([c] + t)[k] == t[k - 1];
  }

  /** Collapsing onto a non-space separator leaves no whitespace at all. */
  lemma {:induction false} CollapseNoSpace(s: string, sep: char)
    requires !IsSpace(sep)
    ensures NoSpace(CollapseTo(s, sep))
    decreases |s|
  {
    if |s| > 0 {
      if IsSpace(s[0]) {
        var t := TrimLeft(s[1..]);
        CollapseNoSpace(t, sep);
        NoSpaceCons(sep, CollapseTo(t, sep));
      } else {
        CollapseNoSpace(s[1..], sep);
        NoSpaceCons(s[0], CollapseTo(s[1..], sep));
      }
    }
  }

  lemma {:induction false} NoSpaceCons(c: char, t: string)
    requires !IsSpace(c) && NoSpace(t)
    ensures NoSpace([c] + t)
  {
    assert forall k :: 1 <= k < |t| + 1 ==> ([c] + t)[k] == t[k - 1];
  }

  /** Python's `s.replace(pat, rep)`: every non-overlapping occurrence of `pat`, left to right,
      becomes `rep`. */
  function ReplaceAll(s: string, pat: string, rep: string): string
    requires |pat| > 0
    decreases |s|
  {
    if |s| < |pat| then s
    else if s[..|pat|] == pat then rep + ReplaceAll(s[|pat|..], pat, rep)
    else [s[0]] + ReplaceAll(s[1..], pat, rep)
  }

  /** Every character of a replacement's result comes from the text or from `rep`. */
  lemma {:induction false} ReplaceAllChars(s: string, pat: string, rep: string)
    requires |pat| > 0
    ensures forall c :: c in ReplaceAll(s, pat, rep) ==> c in s || c in rep
    decreases |s|
  {
    if |s| >= |pat| {
      if s[..|pat|] == pat {
        ReplaceAllChars(s[|pat|..], pat, rep);
        assert forall k :: 0 <= k < |s| - |pat| ==> s[|pat|..][k] == s[k + |pat|];
      } else {
        ReplaceAllChars(s[1..], pat, rep);
        assert forall k :: 0 <= k < |s| - 1 ==> s[1..][k] == s[k + 1];
      }
    }
  }
}

=== FILE: time_format.dfy ===
/** The time normaliser: relative-time strings to seconds (`_parse_hms_to_seconds`) and seconds
    to display labels (`_format_hms`). Seconds are exact rationals; pandas's nanosecond
    timedeltas and Python floats are not modelled. */
module TimeFormat {
  import opened Options
  import opened Text

  /** Strip, then `,` and `;` become the decimal point `.`. */
  function Clean(raw: string): string {
    ReplaceChar(ReplaceChar(Strip(raw), ',', '.'), ';', '.')
  }

  /** The regular expression `\d+(\.\d+)?`. */
  predicate IsDecimal(t: string) {
    var parts := Split(t, '.');
    (|parts| == 1 || |parts| == 2) && IsCount(parts[0]) && (|parts| == 2 ==> IsCount(parts[1]))
  }

  /** The value of the digits after a decimal point, `0.d1d2…`, built from the right so that
      only divisions by the literal 10 occur. */
  function FracValue(ds: string): (v: real)
    requires AllDigits(ds)
    ensures 0.0 <= v <= 1.0
  {
    if |ds| == 0 then 0.0 else (DigitValue(ds[0]) as real + FracValue(ds[1..])) / 10.0
  }

  function DecimalValue(t: string): (v: real)
    requires IsDecimal(t)
    ensures v >= 0.0
  {
    var parts := Split(t, '.');
    DigitsValue(parts[0]) as real + (if |parts| == 2 then FracValue(parts[1]) else 0.0)
  }

  /** `pd.to_timedelta` on an unsigned `H:M:S[.f]` string of digit fields; the model reads no
      other form (see the README for the forms pandas also accepts). */
  function HmsValue(t: string): (r: Option<real>)
    ensures r.Some? ==> r.value >= 0.0
  {
    var parts := Split(t, ':');
    if |parts| == 3 && IsCount(parts[0]) && IsCount(parts[1]) && IsDecimal(parts[2]) then
      Some((DigitsValue(parts[0]) * 3600 + DigitsValue(parts[1]) * 60) as real + DecimalValue(parts[2]))
    else None
  }

  predicate IsSign(c: char) {
    c == '-' || c == '+'
  }

  /** `pd.to_timedelta` on `H:M:S[.f]` with an optional leading sign; `-` negates the time. */
  function SignedHmsValue(t: string): (r: Option<real>)
    ensures r.Some? && r.value < 0.0 ==> |t| > 0 && t[0] == '-'
    ensures |t| > 0 && !IsSign(t[0]) ==> r == HmsValue(t)
  {
    if |t| > 0 && IsSign(t[0]) then
      match HmsValue(t[1..])
      case None => None
      case Some(v) => Some(if t[0] == '-' then -v else v)
    else HmsValue(t)
  }

  /** The three parse masks, dispatched on the number of colons. A minus must come first to
      count, and only the two-colon mask sees the cell without a prefix, so only it reads a
      time before zero; the one-colon mask puts `00:` in front. A leading `+` is read on the
      two-colon mask only, and a `+` after the first character is not modelled. */
  function Dispatch(t: string): (r: Option<real>)
    ensures r.Some? && r.value < 0.0 ==> Count(t, ':') == 2 && |t| > 0 && t[0] == '-'
  {
    var colons := Count(t, ':');
    if colons == 2 then SignedHmsValue(t)
    else if colons == 1 then HmsValue("00:" + t)
    else if IsDecimal(t) then Some(DecimalValue(t))
    else None
  }

  /** The blank mask's tokens: empty, or `nan`/`none` in any case. */
  predicate IsNullToken(t: string) {
    t == "" || Lower(t) == "nan" || Lower(t) == "none"
  }

  /** `_parse_hms_to_seconds` on one cell, with its blank mask read from the cell itself. */
  function ParseSeconds(raw: string): (r: Option<real>)
    ensures r.Some? && r.value < 0.0 ==> Count(Clean(raw), ':') == 2 && |Clean(raw)| > 0 && Clean(raw)[0] == '-'
  {
    var t := Clean(raw);
    if IsNullToken(t) then None else Dispatch(t)
  }

  /** A null token never parses under any mask, so the blank mask alone never changes a result. */
  lemma {:induction false} NullTokenNeverParses(t: string)
    requires IsNullToken(t)
    ensures Dispatch(t) == None
  {
    if t != "" {
      LowerPointwise(t);
      assert ':' !in t;
      CountZero(t, ':');
      if IsDecimal(t) {
        DecimalEdges(t);
      }
    }
  }

  /** A decimal begins and ends with a digit and holds nothing but digits and one optional point. */
  lemma {:induction false} DecimalEdges(t: string)
    requires IsDecimal(t)
    ensures |t| > 0 && IsDigit(t[0]) && IsDigit(t[|t| - 1])
    ensures ',' !in t && ';' !in t && ':' !in t
  {
    var parts := Split(t, '.');
    SplitJoin(t, '.');
    if |parts| == 2 {
      assert t == parts[0] + "." + parts[1];
    }
  }

  /** A digit run is a decimal denoting its own value. */
  lemma {:induction false} CountIsDecimal(d: string)
    requires IsCount(d)
    ensures IsDecimal(d) && DecimalValue(d) == DigitsValue(d) as real
  {
    SplitNoSep(d, '.');
  }

  lemma {:induction false} PointSplit(a: string, f: string)
    requires IsCount(a) && IsCount(f)
    ensures Split(a + "." + f, '.') == [a, f]
  {
    SplitTwo(a, f, '.');
  }

  lemma {:induction false} PointIsDecimalShape(a: string, f: string)
    requires IsCount(a) && IsCount(f)
    ensures IsDecimal(a + "." + f)
  {
    PointSplit(a, f);
    var parts := Split(a + "." + f, '.');
    assert IsCount(parts[0]) && IsCount(parts[1]);
  }

  /** `a.f` is a decimal denoting `a + 0.f`. */
  lemma {:induction false} PointIsDecimal(a: string, f: string)
    requires IsCount(a) && IsCount(f)
    ensures IsDecimal(a + "." + f)
    ensures DecimalValue(a + "." + f) == DigitsValue(a) as real + FracValue(f)
  {
    PointIsDecimalShape(a, f);
    PointSplit(a, f);
  }

  lemma {:induction false} ThreeFieldsShape(a: string, b: string, c: string)
    requires IsCount(a) && IsCount(b) && IsDecimal(c)
    ensures Split(a + ":" + b + ":" + c, ':') == [a, b, c]
    ensures Count(a + ":" + b + ":" + c, ':') == 2
  {
    DecimalEdges(c);
    SplitThree(a, b, c, ':');
    SplitCount(a + ":" + b + ":" + c, ':');
  }

  /** A text that begins with a digit is not a null token. */
  lemma {:induction false} DigitStartNotNull(t: string)
    requires |t| > 0 && IsDigit(t[0])
    ensures !IsNullToken(t)
  {
    LowerPointwise(t);
    assert Lower(t)[0] == t[0];
  }

  lemma {:induction false} ThreeFieldsEdges(a: string, b: string, c: string)
    requires IsCount(a) && IsCount(b) && IsDecimal(c)
    ensures var t := a + ":" + b + ":" + c;
            |t| > 0 && IsDigit(t[0]) && IsDigit(t[|t| - 1]) && ',' !in t && ';' !in t
  {
    var t := a + ":" + b + ":" + c;
    DecimalEdges(c);
    assert t[0] == a[0];
    assert t[|t| - 1] == c[|c| - 1];
  }

  lemma {:induction false} ThreeFieldsClean(a: string, b: string, c: string)
    requires IsCount(a) && IsCount(b) && IsDecimal(c)
    ensures Clean(a + ":" + b + ":" + c) == a + ":" + b + ":" + c
    ensures !IsNullToken(a + ":" + b + ":" + c)
  {
    ThreeFieldsEdges(a, b, c);
    CleanFixed(a + ":" + b + ":" + c);
    DigitStartNotNull(a + ":" + b + ":" + c);
  }

  lemma {:induction false} ThreeFieldsValue(a: string, b: string, c: string)
    requires IsCount(a) && IsCount(b) && IsDecimal(c)
    ensures HmsValue(a + ":" + b + ":" + c)
            == Some((DigitsValue(a) * 3600 + DigitsValue(b) * 60) as real + DecimalValue(c))
  {
    ThreeFieldsShape(a, b, c);
    var parts := Split(a + ":" + b + ":" + c, ':');
    assert IsCount(parts[0]) && IsCount(parts[1]) && IsDecimal(parts[2]);
  }

  /** Any `H:M:S[.f]` string of digits parses as hours, minutes and seconds. */
  lemma {:induction false} ParseThreeFields(a: string, b: string, c: string)
    requires IsCount(a) && IsCount(b) && IsDecimal(c)
    ensures ParseSeconds(a + ":" + b + ":" + c)
            == Some((DigitsValue(a) * 3600 + DigitsValue(b) * 60) as real + DecimalValue(c))
  {
    ThreeFieldsShape(a, b, c);
    ThreeFieldsClean(a, b, c);
    ThreeFieldsValue(a, b, c);
  }

  /** Parsing `H:M:S[.f]` lands on any value known to equal the field total. */
  lemma {:induction false} ParseThreeFieldsAt(a: string, b: string, d: string, v: real)
    requires IsCount(a) && IsCount(b) && IsDecimal(d)
    requires Some((DigitsValue(a) * 3600 + DigitsValue(b) * 60) as real + DecimalValue(d)) == Some(v)
    ensures ParseSeconds(a + ":" + b + ":" + d) == Some(v)
  {
    ParseThreeFields(a, b, d);
  }

  // The parsed values below are related through equalities between `Option` values, proved
  // in lemmas that do not mention the parser; this keeps arithmetic out of the parser's proofs.

  lemma {:induction false} SomeTotal(x: nat, y: nat, d: real, z: nat)
    requires d == z as real
    ensures Some((x * 3600 + y * 60) as real + d) == Some((x * 3600 + y * 60 + z) as real)
  {
  }

  /** A whole-second field contributes its digits' value. */
  lemma {:induction false} WholeSecondsTotal(a: string, b: string, c: string)
    requires IsCount(a) && IsCount(b) && IsCount(c)
    ensures IsDecimal(c)
    ensures Some((DigitsValue(a) * 3600 + DigitsValue(b) * 60) as real + DecimalValue(c))
            == Some((DigitsValue(a) * 3600 + DigitsValue(b) * 60 + DigitsValue(c)) as real)
  {
    CountIsDecimal(c);
    SomeTotal(DigitsValue(a), DigitsValue(b), DecimalValue(c), DigitsValue(c));
  }

  /** An `H:M:S` string of digit runs parses as hours, minutes and seconds. */
  lemma {:induction false} ParseThreeCounts(a: string, b: string, c: string)
    requires IsCount(a) && IsCount(b) && IsCount(c)
    ensures ParseSeconds(a + ":" + b + ":" + c)
            == Some((DigitsValue(a) * 3600 + DigitsValue(b) * 60 + DigitsValue(c)) as real)
  {
    WholeSecondsTotal(a, b, c);
    ParseThreeFields(a, b, c);
  }

  /** The function as written: the blank mask reads the global series `r`, the same row of a
      different column, instead of the argument. */
  function ParseSecondsAsWritten(raw: string, globalR: string): (r: Option<real>)
    ensures r.Some? && r.value < 0.0 ==> Count(Clean(raw), ':') == 2 && |Clean(raw)| > 0 && Clean(raw)[0] == '-'
  {
    var t := Clean(raw);
    var g := Clean(globalR);
    if t == "" || Lower(g) == "nan" || Lower(g) == "none" then None else Dispatch(t)
  }

  /** As written and corrected agree whenever the other column's cell is not a null token. */
  lemma {:induction false} AsWrittenAgreesOffNullTokens(raw: string, globalR: string)
    requires !IsNullToken(Clean(globalR))
    ensures ParseSecondsAsWritten(raw, globalR) == ParseSeconds(raw)
  {
    if IsNullToken(Clean(raw)) {
      NullTokenNeverParses(Clean(raw));
    }
  }


  lemma {:induction false} TwoFieldsEdges(b: string, c: string)
    requires IsCount(b) && IsCount(c)
    ensures var t := b + ":" + c;
            |t| > 0 && IsDigit(t[0]) && IsDigit(t[|t| - 1]) && ',' !in t && ';' !in t
  {
    var t := b + ":" + c;
    assert t[0] == b[0];
    assert t[|t| - 1] == c[|c| - 1];
  }

  lemma {:induction false} TwoFieldsCount(b: string, c: string)
    requires IsCount(b) && IsCount(c)
    ensures Count(b + ":" + c, ':') == 1
  {
    SplitTwo(b, c, ':');
    SplitCount(b + ":" + c, ':');
  }

  lemma {:induction false} TwoFieldsShape(b: string, c: string)
    requires IsCount(b) && IsCount(c)
    ensures Clean(b + ":" + c) == b + ":" + c
    ensures !IsNullToken(b + ":" + c)
    ensures Count(b + ":" + c, ':') == 1
  {
    TwoFieldsEdges(b, c);
    CleanFixed(b + ":" + c);
    DigitStartNotNull(b + ":" + c);
    TwoFieldsCount(b, c);
  }

  lemma {:induction false} HourPrefix(t: string, b: string, c: string)
    requires t == b + ":" + c
    ensures "00:" + t == "00" + ":" + b + ":" + c
  {
  }

  lemma {:induction false} DoubleZero()
    ensures IsCount("00") && DigitsValue("00") == 0
  {
    assert "00"[..1] == "0";
  }

  lemma {:induction false} ZeroHoursTotal(b: string, c: string)
    requires IsCount(b) && IsCount(c)
    ensures IsDecimal(c)
    ensures Some((DigitsValue("00") * 3600 + DigitsValue(b) * 60) as real + DecimalValue(c))
            == Some((DigitsValue(b) * 60 + DigitsValue(c)) as real)
  {
    DoubleZero();
    WholeSecondsTotal("00", b, c);
  }

  lemma {:induction false} MinutesSecondsValue(b: string, c: string)
    requires IsCount(b) && IsCount(c)
    ensures HmsValue("00:" + (b + ":" + c)) == Some((DigitsValue(b) * 60 + DigitsValue(c)) as real)
  {
    HourPrefix(b + ":" + c, b, c);
    DoubleZero();
    ZeroHoursTotal(b, c);
    ThreeFieldsValue("00", b, c);
  }

  /** One colon: the text is read as `MM:SS`, with the hours zero. */
  lemma {:induction false} ParseMinutesSeconds(b: string, c: string)
    requires IsCount(b) && IsCount(c)
    ensures ParseSeconds(b + ":" + c) == Some((DigitsValue(b) * 60 + DigitsValue(c)) as real)
  {
    TwoFieldsShape(b, c);
    MinutesSecondsValue(b, c);
  }

  /** No colon: a bare decimal is a number of seconds. */
  lemma {:induction false} ParseBareSeconds(t: string)
    requires IsDecimal(t)
    ensures ParseSeconds(t) == Some(DecimalValue(t))
  {
    DecimalEdges(t);
    CleanFixed(t);
    DigitStartNotNull(t);
    CountZero(t, ':');
  }

  lemma {:induction false} FiveSeconds()
    ensures "00" + ":" + "05" == "00:05"
    ensures IsCount("00") && IsCount("05")
    ensures Some((DigitsValue("00") * 60 + DigitsValue("05")) as real) == Some(5.0)
  {
    assert "00"[..1] == "0";
    assert "05"[..1] == "0";
  }

  /** The bug: a valid `MM:SS` time is discarded because the other column holds `nan`. */
  lemma {:induction false} AsWrittenDropsValidTime()
    ensures ParseSecondsAsWritten("00:05", "nan") == None
    ensures ParseSeconds("00:05") == Some(5.0)
  {
    StripFixed("nan");
    assert Clean("nan") == "nan";
    LowerPointwise("nan");
    assert Lower("nan") == "nan";
    FiveSeconds();
    ParseMinutesSeconds("00", "05");
  }

  // ---- labels ---------------------------------------------------------------

  /** Python `round(x)` on an exact value: to the nearest integer, halves to the even one. */
  function RoundHalfEven(x: real): (r: int)
    ensures r as real - 0.5 <= x <= r as real + 0.5
    ensures x == x.Floor as real ==> r == x.Floor
    ensures x - x.Floor as real == 0.5 ==> r % 2 == 0
  {
    var f := x.Floor;
    var d := x - f as real;
    if d < 0.5 then f else if d > 0.5 then f + 1 else if f % 2 == 0 then f else f + 1
  }

  /** `f'{n:02d}'`: two digits at least, a minus sign in front of negatives. */
  function Pad2(n: int): string {
    if n >= 0 then ZeroPad(n, 2) else "-" + NatToString(-n)
  }

  /** `HH:MM:SS` from the three fields. */
  function HmsText(h: int, m: int, s: int): string {
    Pad2(h) + ":" + Pad2(m) + ":" + Pad2(s)
  }

  /** The `HH:MM:SS` text of a whole number of seconds: floor division by 3600, then by 60. */
  function SecondsText(secs: int): string {
    HmsText(secs / 3600, (secs % 3600) / 60, secs % 60)
  }

  /** `x * 10^k`, one factor of ten at a time. */
  function Shift(x: real, k: nat): real
    decreases k
  {
    if k == 0 then x else Shift(x * 10.0, k - 1)
  }

  /** Floor division by `10^k` (Python `//`), one digit at a time. */
  function DropDigits(t: int, k: nat): int
    decreases k
  {
    if k == 0 then t else DropDigits(t / 10, k - 1)
  }

  /** `t % 10^k` (Python `%`, never negative), one digit at a time. */
  function LowDigits(t: int, k: nat): (r: nat)
    ensures r < Pow10(k)
    decreases k
  {
    if k == 0 then 0 else t % 10 + 10 * LowDigits(t / 10, k - 1)
  }

  /** Splitting off `k` low digits loses nothing: `t == (t // 10^k) * 10^k + t % 10^k`. */
  lemma {:induction false} DigitsSplit(t: int, k: nat)
    ensures DropDigits(t, k) * Pow10(k) + LowDigits(t, k) == t
    decreases k
  {
    if k > 0 {
      var q, d := t / 10, t % 10;
      DigitsSplit(q, k - 1);
      Regroup(DropDigits(q, k - 1), Pow10(k - 1), LowDigits(q, k - 1), q, d, t);
    }
  }

  lemma {:induction false} Regroup(a: int, p: int, l: int, q: int, d: int, t: int)
    requires a * p + l == q && t == 10 * q + d
    ensures a * (10 * p) + (d + 10 * l) == t
  {
    assert a * (10 * p) == 10 * (a * p);
  }


  /** `_format_hms(x, decimals)`: `HH:MM:SS`, plus `.ff…` when `decimals > 0`. */
  function FormatHms(x: real, decimals: nat): string {
    var total := RoundHalfEven(Shift(x, decimals));
    var text := SecondsText(DropDigits(total, decimals));
    if decimals == 0 then text else text + "." + ZeroPad(LowDigits(total, decimals), decimals)
  }

  lemma {:induction false} CleanFixed(t: string)
    requires |t| > 0 && IsDigit(t[0]) && IsDigit(t[|t| - 1])
    requires ',' !in t && ';' !in t
    ensures Clean(t) == t
  {
    StripFixed(t);
    ReplaceCharPointwise(t, ',', '.');
    assert ReplaceChar(t, ',', '.') == t;
    ReplaceCharPointwise(t, ';', '.');
    assert ReplaceChar(t, ';', '.') == t;
  }

  lemma {:induction false} PadDigits(n: nat)
    ensures IsCount(Pad2(n)) && DigitsValue(Pad2(n)) == n
  {
  }

  /** A whole-second label is the `HH:MM:SS` text of the second itself. */
  lemma {:induction false} FormatWhole(n: int)
    ensures FormatHms(n as real, 0) == SecondsText(n)
  {
    WholeRounds(n);
    WholeDivides(n);
  }

  lemma {:induction false} WholeRounds(n: int)
    ensures RoundHalfEven(Shift(n as real, 0)) == n
  {
  }

  lemma {:induction false} WholeDivides(n: int)
    ensures DropDigits(n, 0) == n
  {
  }

  lemma {:induction false} PadTotal(h: nat, m: nat, s: nat)
    ensures IsCount(Pad2(h)) && IsCount(Pad2(m)) && IsCount(Pad2(s))
    ensures Some((DigitsValue(Pad2(h)) * 3600 + DigitsValue(Pad2(m)) * 60 + DigitsValue(Pad2(s))) as real)
            == Some((h * 3600 + m * 60 + s) as real)
  {
    PadDigits(h);
    PadDigits(m);
    PadDigits(s);
  }

  /** An `HH:MM:SS` text of non-negative fields parses back to the fields' total. */
  lemma {:induction false} HmsTextParses(h: nat, m: nat, s: nat)
    ensures ParseSeconds(HmsText(h, m, s)) == Some((h * 3600 + m * 60 + s) as real)
  {
    PadTotal(h, m, s);
    ParseThreeCounts(Pad2(h), Pad2(m), Pad2(s));
  }

  /** The split of `SecondsText` puts a non-negative second back together. */
  lemma {:induction false} SecondsSplit(n: nat, h: nat, m: nat, s: nat)
    requires h == n / 3600 && m == (n % 3600) / 60 && s == n % 60
    ensures Some((h * 3600 + m * 60 + s) as real) == Some(n as real)
  {
    HmsRecombine(n, h, m, s);
  }

  /** Hours, minutes and seconds of a whole second add back up to it. */
  lemma {:induction false} HmsRecombine(n: nat, h: nat, m: nat, s: nat)
    requires h == n / 3600 && m == (n % 3600) / 60 && s == n % 60
    ensures h * 3600 + m * 60 + s == n
  {
    var r := n % 3600;
    assert n == h * 3600 + r;
    assert r == m * 60 + r % 60;
    assert n == (h * 60 + m) * 60 + r % 60;
  }

  /** Re-parsing the label of a non-negative whole second gives the second back. */
  lemma {:induction false} SecondsTextParses(n: nat)
    ensures ParseSeconds(SecondsText(n)) == Some(n as real)
  {
    var h, m, s := n / 3600, (n % 3600) / 60, n % 60;
    SecondsSplit(n, h, m, s);
    HmsTextParses(h, m, s);
  }

  /** Re-parsing a whole-second label gives the second back. */
  lemma {:induction false} FormatHmsRoundTrip(n: nat)
    ensures ParseSeconds(FormatHms(n as real, 0)) == Some(n as real)
  {
    FormatWhole(n);
    SecondsTextParses(n);
  }

  /** The two-decimal label is the `HH:MM:SS` text of the whole seconds, a point, and two digits. */
  lemma {:induction false} FormatHundredths(x: real, total: int, secs: int, cents: int)
    requires total == RoundHalfEven(x * 100.0) && secs == total / 100 && cents == total % 100
    ensures FormatHms(x, 2) == SecondsText(secs) + "." + ZeroPad(cents, 2)
  {
    ShiftTwo(x);
    DigitsTwo(total);
  }

  lemma {:induction false} ShiftTwo(x: real)
    ensures Shift(x, 2) == x * 100.0
  {
    assert Shift(x, 2) == Shift(x * 10.0, 1) == Shift(x * 10.0 * 10.0, 0);
  }

  lemma {:induction false} DigitsTwo(t: int)
    ensures DropDigits(t, 2) == t / 100 && LowDigits(t, 2) == t % 100
  {
    assert DropDigits(t, 2) == DropDigits(t / 10, 1) == (t / 10) / 10;
    assert LowDigits(t, 2) == t % 10 + 10 * LowDigits(t / 10, 1) == t % 10 + 10 * ((t / 10) % 10);
  }

  /** Two digits after the point denote hundredths. */
  lemma {:induction false} TwoDigitFrac(f: string)
    requires |f| == 2 && AllDigits(f)
    ensures FracValue(f) == DigitsValue(f) as real / 100.0
  {
    var d0, d1 := DigitValue(f[0]), DigitValue(f[1]);
    assert f[1..][1..] == "";
    assert FracValue(f[1..]) == d1 as real / 10.0;
    assert FracValue(f) == (d0 as real + d1 as real / 10.0) / 10.0;
    assert f[..|f| - 1] == f[..1];
    assert f[..1][..0] == "";
    assert DigitsValue(f[..1]) == d0;
    assert DigitsValue(f) == d0 * 10 + d1;
  }

  lemma {:induction false} HundredthsField(s: nat, cents: nat)
    requires cents < 100
    ensures IsCount(Pad2(s)) && IsCount(ZeroPad(cents, 2))
    ensures IsDecimal(Pad2(s) + "." + ZeroPad(cents, 2))
    ensures DecimalValue(Pad2(s) + "." + ZeroPad(cents, 2)) == s as real + cents as real / 100.0
  {
    var frac := ZeroPad(cents, 2);
    NatToStringLength(cents, 2);
    assert Pow10(2) == 100;
    assert |frac| == 2;
    TwoDigitFrac(frac);
    PadDigits(s);
    PointIsDecimal(Pad2(s), frac);
  }

  lemma {:induction false} SomeHundredths(x: nat, y: nat, d: real, h: nat, m: nat, s: nat, cents: nat, v: real)
    requires x == h && y == m && d == s as real + cents as real / 100.0
    requires Some((h * 3600 + m * 60 + s) as real + cents as real / 100.0) == Some(v)
    ensures Some((x * 3600 + y * 60) as real + d) == Some(v)
  {
  }

  /** The field values of the padded `HH`, `MM` and `SS.ff` texts total the seconds. */
  lemma {:induction false} HundredthsTotal(h: nat, m: nat, s: nat, cents: nat, v: real,
                                           a: string, b: string, d: string)
    requires cents < 100
    requires a == Pad2(h) && b == Pad2(m) && d == Pad2(s) + "." + ZeroPad(cents, 2)
    requires Some((h * 3600 + m * 60 + s) as real + cents as real / 100.0) == Some(v)
    ensures IsCount(a) && IsCount(b) && IsDecimal(d)
    ensures Some((DigitsValue(a) * 3600 + DigitsValue(b) * 60) as real + DecimalValue(d)) == Some(v)
  {
    HundredthsField(s, cents);
    PadDigits(h);
    PadDigits(m);
    SomeHundredths(DigitsValue(a), DigitsValue(b), DecimalValue(d), h, m, s, cents, v);
  }

  lemma {:induction false} HundredthsConcat(h: int, m: int, s: int, frac: string)
    ensures HmsText(h, m, s) + "." + frac == Pad2(h) + ":" + Pad2(m) + ":" + (Pad2(s) + "." + frac)
  {
  }

  /** `HH:MM:SS.ff` parses to the whole seconds plus the hundredths. */
  lemma {:induction false} HundredthsTextParses(h: nat, m: nat, s: nat, cents: nat, v: real)
    requires cents < 100
    requires Some((h * 3600 + m * 60 + s) as real + cents as real / 100.0) == Some(v)
    ensures ParseSeconds(HmsText(h, m, s) + "." + ZeroPad(cents, 2)) == Some(v)
  {
    var frac := ZeroPad(cents, 2);
    HundredthsConcat(h, m, s, frac);
    HundredthsFieldsParse(h, m, s, cents, v, Pad2(h), Pad2(m), Pad2(s) + "." + frac);
  }

  lemma {:induction false} HundredthsFieldsParse(h: nat, m: nat, s: nat, cents: nat, v: real,
                                                 a: string, b: string, d: string)
    requires cents < 100
    requires a == Pad2(h) && b == Pad2(m) && d == Pad2(s) + "." + ZeroPad(cents, 2)
    requires Some((h * 3600 + m * 60 + s) as real + cents as real / 100.0) == Some(v)
    ensures ParseSeconds(a + ":" + b + ":" + d) == Some(v)
  {
    HundredthsTotal(h, m, s, cents, v, a, b, d);
    ParseThreeFieldsAt(a, b, d, v);
  }

  lemma {:induction false} SecondsHundredthsSplit(n: nat, h: nat, m: nat, s: nat, cents: nat)
    requires h == n / 3600 && m == (n % 3600) / 60 && s == n % 60
    ensures Some((h * 3600 + m * 60 + s) as real + cents as real / 100.0)
            == Some(n as real + cents as real / 100.0)
  {
    HmsRecombine(n, h, m, s);
  }

  lemma {:induction false} SecondsHundredthsParse(secs: nat, cents: nat, v: real)
    requires cents < 100
    requires Some(secs as real + cents as real / 100.0) == Some(v)
    ensures ParseSeconds(SecondsText(secs) + "." + ZeroPad(cents, 2)) == Some(v)
  {
    var h, m, s := secs / 3600, (secs % 3600) / 60, secs % 60;
    SecondsHundredthsSplit(secs, h, m, s, cents);
    HundredthsTextParses(h, m, s, cents, v);
  }

  lemma {:induction false} HundredthsRecombine(total: int, secs: nat, cents: nat)
    requires total >= 0 && secs == total / 100 && cents == total % 100
    ensures cents < 100
    ensures Some(secs as real + cents as real / 100.0) == Some(total as real / 100.0)
  {
  }

  /** Re-parsing a two-decimal label gives the hundredths it was rounded to. */
  lemma {:induction false} FormatHmsHundredthsRoundTrip(x: real)
    requires x >= 0.0
    ensures ParseSeconds(FormatHms(x, 2)) == Some(RoundHalfEven(x * 100.0) as real / 100.0)
  {
    HundredthsRoundTripAt(x, RoundHalfEven(x * 100.0));
  }

  lemma {:induction false} HundredthsRoundTripAt(x: real, total: int)
    requires x >= 0.0 && total == RoundHalfEven(x * 100.0)
    ensures ParseSeconds(FormatHms(x, 2)) == Some(total as real / 100.0)
  {
    HundredthsLabel(x, total);
    HundredthsLabelParses(total);
  }

  /** The two-decimal label of `x` is the label of its rounded hundredths. */
  lemma {:induction false} HundredthsLabel(x: real, total: int)
    requires x >= 0.0 && total == RoundHalfEven(x * 100.0)
    ensures total >= 0
    ensures FormatHms(x, 2) == SecondsText(total / 100) + "." + ZeroPad(total % 100, 2)
  {
    FormatHundredths(x, total, total / 100, total % 100);
  }

  /** The label of a count of hundredths parses back to that count. */
  lemma {:induction false} HundredthsLabelParses(total: nat)
    ensures ParseSeconds(SecondsText(total / 100) + "." + ZeroPad(total % 100, 2))
            == Some(total as real / 100.0)
  {
    var secs, cents := total / 100, total % 100;
    HundredthsRecombine(total, secs, cents);
    SecondsHundredthsParse(secs, cents, total as real / 100.0);
  }


  // ---- negative times ---------------------------------------------------------------

  /** Python's `round` is symmetric: halves go to the even neighbour on either side of zero. */
  lemma {:induction false} RoundHalfEvenNegate(x: real)
    ensures RoundHalfEven(-x) == -RoundHalfEven(x)
  {
    var f := x.Floor;
    var d := x - f as real;
    if d != 0.0 {
      assert (-x).Floor == -f - 1 by {
        assert (-f - 1) as real <= -x < (-f) as real;
      }
    }
  }

  /** The label of a negative time, corrected: a minus sign in front of the label of its
      magnitude, so that the label reads back as the time. */
  function FormatSignedHms(x: real, decimals: nat): (r: string)
    ensures x >= 0.0 ==> r == FormatHms(x, decimals)
  {
    if x < 0.0 then "-" + FormatHms(-x, decimals) else FormatHms(x, decimals)
  }

  lemma {:induction false} SignedClean(t: string)
    requires |t| > 0 && IsDigit(t[0]) && IsDigit(t[|t| - 1]) && ',' !in t && ';' !in t
    ensures Clean("-" + t) == "-" + t && !IsNullToken("-" + t)
  {
    var u := "-" + t;
    SignedEdges(t);
    ReplaceAbsent(u, ',');
    ReplaceAbsent(u, ';');
    LowerPointwise(u);
    assert Lower(u)[0] == '-';
  }

  lemma {:induction false} SignedEdges(t: string)
    requires |t| > 0 && IsDigit(t[|t| - 1]) && ',' !in t && ';' !in t
    ensures Strip("-" + t) == "-" + t && ',' !in "-" + t && ';' !in "-" + t
  {
    var u := "-" + t;
    assert u[|u| - 1] == t[|t| - 1];
    StripFixed(u);
    assert forall k :: 1 <= k < |u| ==> u[k] == t[k - 1];
  }

  /** Replacing a character that does not occur changes nothing. */
  lemma {:induction false} ReplaceAbsent(s: string, a: char)
    requires a !in s
    ensures ReplaceChar(s, a, '.') == s
  {
    ReplaceCharPointwise(s, a, '.');
  }

  /** A minus sign in front of an unsigned `H:M:S[.f]` text negates its value. */
  lemma {:induction false} NegatedParse(t: string, v: real)
    requires |t| > 0 && IsDigit(t[0]) && IsDigit(t[|t| - 1]) && ',' !in t && ';' !in t
    requires Count(t, ':') == 2 && HmsValue(t) == Some(v)
    ensures ParseSeconds("-" + t) == Some(-v)
  {
    SignedClean(t);
    var u := "-" + t;
    assert u[1..] == t;
    assert Count(u, ':') == Count(t, ':');
  }

  /** A minus sign in front of `H:M:S[.f]` digit fields negates their total. */
  lemma {:induction false} NegatedFields(a: string, b: string, c: string, v: real)
    requires IsCount(a) && IsCount(b) && IsDecimal(c)
    requires Some((DigitsValue(a) * 3600 + DigitsValue(b) * 60) as real + DecimalValue(c)) == Some(v)
    ensures ParseSeconds("-" + (a + ":" + b + ":" + c)) == Some(-v)
  {
    ThreeFieldsEdges(a, b, c);
    ThreeFieldsShape(a, b, c);
    ThreeFieldsValue(a, b, c);
    NegatedParse(a + ":" + b + ":" + c, v);
  }

  /** The corrected label of a negative whole second parses back to it. */
  lemma {:induction false} NegativeWholeParses(k: nat)
    ensures ParseSeconds("-" + SecondsText(k)) == Some(-(k as real))
  {
    var h, m, s := SecondsFields(k);
    NegativeHmsParses(h, m, s, k as real);
  }

  /** The hours, minutes and seconds `SecondsText` shows for a non-negative second. */
  lemma {:induction false} SecondsFields(k: nat) returns (h: nat, m: nat, s: nat)
    ensures SecondsText(k) == HmsText(h, m, s)
    ensures Some((h * 3600 + m * 60 + s) as real) == Some(k as real)
  {
    h, m, s := k / 3600, (k % 3600) / 60, k % 60;
    SecondsSplit(k, h, m, s);
  }

  lemma {:induction false} NegativeHmsParses(h: nat, m: nat, s: nat, v: real)
    requires Some((h * 3600 + m * 60 + s) as real) == Some(v)
    ensures ParseSeconds("-" + HmsText(h, m, s)) == Some(-v)
  {
    PadTotal(h, m, s);
    WholeSecondsTotal(Pad2(h), Pad2(m), Pad2(s));
    NegatedFields(Pad2(h), Pad2(m), Pad2(s), v);
  }

  /** The corrected label of a negative time is a minus sign before the label of its magnitude. */
  lemma {:induction false} SignedLabel(x: real, decimals: nat, y: real)
    requires y > 0.0 && x == -y
    ensures FormatSignedHms(x, decimals) == "-" + FormatHms(y, decimals)
  {
  }

  lemma {:induction false} NegativeWholeLabelParses(k: nat)
    ensures ParseSeconds("-" + FormatHms(k as real, 0)) == Some(-(k as real))
  {
    FormatWhole(k);
    NegativeWholeParses(k);
  }

  lemma {:induction false} NegativeWholeAt(x: real, k: nat)
    requires k > 0 && x == -(k as real)
    ensures ParseSeconds(FormatSignedHms(x, 0)) == Some(-(k as real))
  {
    SignedLabel(x, 0, k as real);
    NegativeWholeLabelParses(k);
  }

  lemma {:induction false} NegativeWhole(k: nat)
    requires k > 0
    ensures ParseSeconds(FormatSignedHms(-(k as real), 0)) == Some(-(k as real))
  {
    NegativeWholeAt(-(k as real), k);
  }

  /** Re-parsing the corrected label of any whole second, negative ones included, gives it back. */
  lemma {:induction false} SignedWholeRoundTrip(n: int)
    ensures ParseSeconds(FormatSignedHms(n as real, 0)) == Some(n as real)
  {
    if n < 0 {
      NegativeWhole(-n);
    } else {
      FormatHmsRoundTrip(n);
    }
  }

  /** The corrected two-decimal label of a negative count of hundredths parses back to it. */
  lemma {:induction false} NegativeHundredthsParse(total: nat)
    ensures ParseSeconds("-" + (SecondsText(total / 100) + "." + ZeroPad(total % 100, 2)))
            == Some(-(total as real / 100.0))
  {
    var secs, cents := total / 100, total % 100;
    var h, m, s := secs / 3600, (secs % 3600) / 60, secs % 60;
    var v := total as real / 100.0;
    HundredthsRecombine(total, secs, cents);
    SecondsHundredthsSplit(secs, h, m, s, cents);
    var frac := ZeroPad(cents, 2);
    HundredthsConcat(h, m, s, frac);
    HundredthsTotal(h, m, s, cents, v, Pad2(h), Pad2(m), Pad2(s) + "." + frac);
    NegatedFields(Pad2(h), Pad2(m), Pad2(s) + "." + frac, v);
  }

  lemma {:induction false} NegativeHundredthsAt(x: real, y: real, total: int)
    requires y > 0.0 && x == -y && total == RoundHalfEven(y * 100.0)
    ensures ParseSeconds(FormatSignedHms(x, 2)) == Some(-(total as real / 100.0))
  {
    SignedLabel(x, 2, y);
    HundredthsLabel(y, total);
    NegativeHundredthsParse(total);
  }

  /** Re-parsing the corrected two-decimal label of any time gives the hundredths it was rounded
      to, on either side of zero. */
  lemma {:induction false} SignedHundredthsRoundTrip(x: real)
    ensures ParseSeconds(FormatSignedHms(x, 2)) == Some(RoundHalfEven(x * 100.0) as real / 100.0)
  {
    if x < 0.0 {
      NegativeHundredthsRoundTrip(x);
    } else {
      FormatHmsHundredthsRoundTrip(x);
    }
  }

  lemma {:induction false} NegativeHundredthsRoundTrip(x: real)
    requires x < 0.0
    ensures ParseSeconds(FormatSignedHms(x, 2)) == Some(RoundHalfEven(x * 100.0) as real / 100.0)
  {
    NegativeHundredthsAt(x, -x, RoundHalfEven(-x * 100.0));
    NegatedRounding(x);
  }

  lemma {:induction false} NegatedRounding(x: real)
    ensures Some(-(RoundHalfEven(-x * 100.0) as real / 100.0)) == Some(RoundHalfEven(x * 100.0) as real / 100.0)
  {
    assert -x * 100.0 == -(x * 100.0);
    RoundHalfEvenNegate(x * 100.0);
  }

  lemma {:induction false} MinusFiveWhole()
    ensures FormatHms(-5.0, 0) == SecondsText(-5)
  {
    FormatWhole(-5);
  }

  lemma {:induction false} MinusFiveFieldsSplit()
    ensures SecondsText(-5) == HmsText(-1, 59, 55)
  {
    assert -5 / 3600 == -1 && -5 % 3600 == 3595 && 3595 / 60 == 59 && -5 % 60 == 55;
  }

  lemma {:induction false} MinusFiveHms()
    ensures HmsText(-1, 59, 55) == "-" + ("1" + ":" + "59" + ":" + "55")
  {
    MinusFivePads();
  }

  lemma {:induction false} MinusFiveText()
    ensures FormatHms(-5.0, 0) == "-" + ("1" + ":" + "59" + ":" + "55")
  {
    MinusFiveWhole();
    MinusFiveFieldsSplit();
    MinusFiveHms();
  }

  lemma {:induction false} MinusFivePads()
    ensures Pad2(-1) == "-1" && Pad2(59) == "59" && Pad2(55) == "55"
  {
    assert NatToString(1) == "1";
    assert ZeroPad(59, 2) == "59";
    assert ZeroPad(55, 2) == "55";
  }

  lemma {:induction false} MinusFiveFields()
    ensures IsCount("1") && IsCount("59") && IsDecimal("55")
    ensures Some((DigitsValue("1") * 3600 + DigitsValue("59") * 60) as real + DecimalValue("55")) == Some(7195.0)
  {
    assert "59"[..1] == "5" && "55"[..1] == "5";
    CountIsDecimal("55");
  }

  lemma {:induction false} MinusFiveShown()
    ensures FormatHms(-5.0, 0) == "-1:59:55"
  {
    MinusFiveText();
    assert "-" + ("1" + ":" + "59" + ":" + "55") == "-1:59:55";
  }

  lemma {:induction false} MinusFiveReadBack()
    ensures ParseSeconds(FormatHms(-5.0, 0)) == Some(-7195.0)
  {
    MinusFiveText();
    MinusFiveFields();
    NegatedFields("1", "59", "55", 7195.0);
  }

  lemma {:induction false} MinusFiveCorrected()
    ensures ParseSeconds(FormatSignedHms(-5.0, 0)) == Some(-5.0)
  {
    NegativeWhole(5);
  }

  /** The bug: the label `_format_hms` gives five seconds before zero is `-1:59:55`, floor
      division taking the hour to -1, and it reads back as 7195 seconds before zero; the
      corrected label reads back as five seconds before zero. */
  lemma {:induction false} NegativeLabelMisreads()
    ensures FormatHms(-5.0, 0) == "-1:59:55"
    ensures ParseSeconds(FormatHms(-5.0, 0)) == Some(-7195.0)
    ensures ParseSeconds(FormatSignedHms(-5.0, 0)) == Some(-5.0)
  {
    MinusFiveShown();
    MinusFiveReadBack();
    MinusFiveCorrected();
  }

}
